=== FILE: README.md ===
# Random walk simulation, modelled in Dafny

A model of the engine of the random-walk simulator: walkers of six classes
(a base `Walker`, `UnitWalker`, `RandomDistanceWalker`, `StraightWalker`,
`DirectionalBiasWalker`, `MemoryWalker`) move on the plane among
obstacles, enchanted gates and water, sand and grass tiles; a `Simulation`
runs them for a number of steps and records, for every walker and step, its
location, escape time, y-axis crossing count and distances; `Statistics`
collects the finished runs and averages them per step; the program's main
loop runs the simulations, exports the runs that complete and resets between
them.

Modules, one per part of the program:

- `Common` (common.dfy): `Option`, `Result` and the Python exceptions the
  core raises, plane vectors, `str(n)` of an index and the search for the
  first free indexed name, the per-step `Record`.
- `Terrains` (terrains.dfy): obstacles and tiles as axis-aligned rectangles,
  enchanted gates.
- `Walkers` (walkers.dfy): a walker is its position, its previous position,
  its escape flag and a `Policy` naming its class with the class's state
  (the weights of a `DirectionalBiasWalker`, the memory of a `MemoryWalker`).
- `Simulation` (simulation.dfy) and `SimulationProperties`
  (simulation_props.dfy): the simulation state as an immutable value, every
  method of `Simulation` as a function from state to state, and the
  properties of whole runs.
- `Statistics` (statistics.dfy) and `StatisticsProperties`
  (statistics_props.dfy): the stored runs and the averages.
- `Driver` (driver.dfy): the decisions of main.py: the origin checks of the
  configuration loaders, the validation of the bias probabilities, the
  choice of a free file name, whether to configure an interaction, and the
  run / export / reset loop.

What the model takes as given rather than computing is gathered in one value,
`Simulation.Oracle`: the t-th random draw of a run (`draw`), `math.sqrt`
(`sqrt`), shapely's segment/polygon intersection (`meets`), and the step of
given length toward a bearing, rounded to a multiple of π/2 where the source
rounds (`bearingStep`). A walker's own move takes its random choices as a
`MoveDraw`: a displacement and an index into the candidate moves.

The MemoryWalker's capacity: the docstring of `update_memory`
(walkers.py:408-413) promises that the oldest position is removed when the
memory is full, and `update_memory` does evict beyond 1000 entries, but
`move` appends the new position without evicting (walkers.py:400), so a full
memory grows to 1001 entries when the walker moves. The model follows the
code, and `Walkers.MoveOverfillsFullMemory` exhibits the 1001-entry memory.

A DirectionalBiasWalker's move hands `random.choices` the first weights, one
per candidate direction. `random.choices` (Python 3.9 and later) raises
ValueError when the number of weights differs from the number of candidates
or when they total zero or less. The model keeps that error: `Walkers.Move`
returns a `Result`, and a run that hits it stops with the ValueError like a
lone walker under an interaction does (see "## Findings").

## Model

| member | source | states |
|---|---|---|
| Common.FirstFree | simulation.py:116-119 | the index the loop stops at is at least its start, its name is free, and every name from the start up to it is taken |
| Common.IndexedInjective | simulation.py:116-119 | different indices give different names, so the search never revisits a name |
| Common.ClampAtZero | simulation.py:664 | the stored crossing count is never negative: it is the counter itself when that is non-negative and 0 when the counter is negative |
| Terrains.RectGettersRoundTrip | terrains.py:24-62 | the position and dimension getters return the constructor's arguments unchanged, and rebuilding a rectangle from its getters gives it back |
| Terrains.Rect.Boundary | terrains.py:64-80 | the boundary polygon has exactly the four corners of the rectangle as vertices, starting at its position with the opposite corner third and axis-aligned edges, so every vertex is fixed |
| Terrains.GateBoundaryIgnoresExit | terrains.py:107-168 | a gate's boundary polygon depends only on the entrance and its size: changing the exit leaves the boundary as it was, and the exit getter returns the new exit |
| Terrains.Gate.Boundary | terrains.py:151-168 | the gate's polygon has exactly the four corners of the entrance rectangle as vertices, starting at the entrance location with the opposite corner third and axis-aligned edges, all inside the entrance rectangle |
| Terrains.ContainsBetweenCorners | terrains.py:64-80 | a point lies in the rectangle exactly when it lies between the first and third vertex of its boundary on both axes |
| Walkers.MoveBack | walkers.py:49-55 | moving back puts the walker at its previous position and changes nothing else |
| Walkers.SetPosition | walkers.py:78-85 | setting the position changes the position only; the previous position is not updated |
| Walkers.ResetWalker | walkers.py:57-62 | a reset walker is at the origin and not escaped, keeps its previous position, its class and its bias weights, and a MemoryWalker's memory is emptied |
| Walkers.EscapeCheck | walkers.py:64-76 | the walker has escaped exactly when it had already escaped or it is more than 10 from the origin; the flag is set accordingly and the position is untouched |
| Walkers.EscapeCheckIdempotent | simulation.py:661-663 | checking escape a second time, as the results update does, changes neither the answer nor the walker |
| Walkers.NormalizeWeights | walkers.py:259-282 | weights summing to 1 are returned unchanged; the call fails with ZeroDivisionError exactly when the weights are non-empty and sum to 0; otherwise every weight is divided by the sum and the result sums to 1 |
| Walkers.DefaultWeightsNormalized | walkers.py:254-256 | with no probabilities given, the five directions each get weight 0.2 |
| Walkers.NewDirectionalBias | walkers.py:245-256 | the constructor fails exactly when normalising the given (or default) weights fails, and otherwise starts at the origin with the normalised weights |
| Walkers.TowardOriginPointsHome | walkers.py:284-308 | the unit step toward the origin is missing exactly at the origin, and scaled by the distance it is the vector back to the origin |
| Walkers.BiasCandidates | walkers.py:324-327 | the candidate moves are the four axis steps, followed by the step toward the origin exactly when there is one |
| Walkers.UsedWeights | walkers.py:328-331 | the weights handed to the draw are the first weights, one per candidate move |
| Walkers.Neighbours | walkers.py:378-379 | the four neighbours are the position plus each axis step, in the order down, up, right, left |
| Walkers.PossibleMoves | walkers.py:367-381 | a position is a possible move exactly when it is a neighbour not in memory |
| Walkers.UpdateMemory | walkers.py:408-419 | the current position is appended to the memory and the oldest entry dropped when that exceeds 1000; position, class and bias weights are kept, and other walkers are unchanged |
| Walkers.MoveFree | walkers.py:112-179 | a UnitWalker or RandomDistanceWalker moves by the drawn displacement and records where it came from |
| Walkers.MoveStraight | walkers.py:199-222 | a StraightWalker moves by one axis step |
| Walkers.MoveBias | walkers.py:310-338 | the move fails with ValueError exactly when `random.choices` refuses the weights in use (not one per candidate, or not a positive total); otherwise the walker moves by one of its candidate moves and records where it came from |
| Walkers.MoveMemory | walkers.py:383-406 | a MemoryWalker moves to a neighbour; when some neighbour is not in memory it moves to one of those and appends it to the memory without eviction, and otherwise it takes an axis step and its memory is unchanged |
| Walkers.Move | walkers.py:87-93 | only a DirectionalBiasWalker's move can fail, with ValueError, exactly when its weighted draw does, and never when its weights can always move; the base walker does not move; every other successful move records the old position as the previous one and keeps the escape flag, the class and the weights, and only a MemoryWalker changes its own state |
| Walkers.MoveBackUndoesMove | walkers.py:49-55 | moving back after a successful move returns a moving walker to where it was |
| Walkers.GridWalkersStayOnGrid | walkers.py:199-222 | StraightWalker and MemoryWalker moves always succeed and keep integer coordinates integer |
| Walkers.DownOnlyBiasMovesDown | walkers.py:310-338 | with all weight on "down", a DirectionalBiasWalker's move succeeds and steps down by one, keeping everything else |
| Walkers.BiasMoveSupport | walkers.py:324-338 | once `random.choices` accepts the weights in use, a draw it could make lands on a candidate of positive weight and the walker steps by exactly that candidate, and every candidate of positive weight can be drawn |
| Walkers.UpdateMemoryKeepsCapacity | walkers.py:416-419 | the memory update alone keeps the memory within 1000 entries, growing it by one until it is full |
| Walkers.MoveOverfillsFullMemory | walkers.py:383-406 | a MemoryWalker with a full memory of 1000 holds 1001 entries after moving |
| Simulation.NewSim | simulation.py:48-79 | a new simulation has no walkers, no interaction and the given number of moves |
| Simulation.SetInteraction | simulation.py:81-97 | setting an interaction fails with ValueError exactly for a non-empty string other than "attract" and "repel", and otherwise changes only the interaction |
| Simulation.AddWalker | simulation.py:99-123 | only a walker is accepted (TypeError otherwise); it is stored under its class name followed by the smallest index from 1 not yet used, appended to the walker order, with no escape time, crossing count -1 and no results |
| Simulation.AddObstacle | simulation.py:179-196 | only an obstacle is accepted (TypeError otherwise), and it is appended to the obstacles |
| Simulation.AddGate | simulation.py:198-217 | only an enchanted gate is accepted (TypeError otherwise), and it is appended to the gates |
| Simulation.AddTile | simulation.py:125-177 | only a tile of the kind asked for is accepted (TypeError otherwise); it is appended to the tiles of that kind only, and every other part of the simulation is unchanged |
| Simulation.NearestAmong | simulation.py:376-393 | the nearest other walker exists exactly when there is another walker; its distance is minimal, and every walker before it in the order is strictly farther |
| Simulation.LocateNearest | simulation.py:357-399 | locating fails with ValueError exactly when the walker is alone, and otherwise returns another walker, the nearest |
| Simulation.ChooseMove | simulation.py:401-464 | without an interaction, or above probability 0.2, the walker makes its own move; at or below 0.2 it steps toward (attract) or away from (repel) the nearest other walker, keeping its previous position; it fails, always with ValueError, exactly when an interaction is set and no other walker exists, or when the own move it makes fails |
| Simulation.FirstTile | simulation.py:483-501 | the terrain reported is that of the first listed tile containing the point, and none exactly when no tile contains it |
| Simulation.HandleTerrain | simulation.py:504-535 | water sends the walker to the origin, sand puts it halfway back along its last step, grass stretches the last step to three times its length, and a MemoryWalker's memory is refreshed in every case |
| Simulation.Resolve | simulation.py:713-728 | the retry loop ends with the walker clear of every obstacle within 1000 retries, or still colliding after all 1000 retries have drawn (the tick advanced by 1000 minus the retries already made), or with a ValueError that only a lone walker under an interaction or weights `random.choices` may refuse can raise; the walker's class and weights are kept |
| Simulation.GateStep | simulation.py:583-594 | a walker whose last step meets the entrance is put at the exit; otherwise it is left as it was |
| Simulation.GateCheck | simulation.py:567-594 | after the gates are checked in order the walker is where it was or at some gate's exit, and is untouched when its last step meets no entrance |
| Simulation.CrossY | simulation.py:596-614 | the crossing count grows by one exactly when the walker changes the sign of x or leaves x = 0, and is otherwise unchanged |
| Simulation.EscapeUpdate | simulation.py:616-637 | the escape time is step i while the walker has not escaped and is frozen once it has |
| Simulation.RecordOf | simulation.py:639-668 | a step's record holds the location, the escape time only once escaped, the crossing count (0 while the counter is negative), |y|, |x| and the square root of x² + y² |
| Simulation.Settle | simulation.py:709-728 | a settled walker collides with no obstacle and has consumed at least one draw; a trapped walker has consumed the first draw and all 1000 retries; without obstacles a walker is never trapped; a failure is a ValueError of a lone walker under an interaction or of weights that may be refused |
| Simulation.Bookkeep | simulation.py:729-734 | the step's bookkeeping changes only this walker's entries: its escape flag, its escape time, its crossing count, and its results gain exactly step i |
| Simulation.StepWalker | simulation.py:707-734 | a walker's turn keeps the set-up, the walker order and every walker's class and weights; it fails only with a ValueError of a lone walker under an interaction or of weights that may be refused, and cannot be trapped without obstacles; a trapped turn has consumed 1001 draws |
| Simulation.RunWalkers | simulation.py:707-734 | the walkers' turns in one step keep the set-up and every walker's class and weights, crash only with ValueError, never crash when no walker can be alone under an interaction and every walker's weights can always move, and then always complete without obstacles |
| Simulation.RunSteps | simulation.py:706-735 | the remaining steps keep the set-up and every walker's class and weights, crash only with ValueError, never crash when no walker can be alone under an interaction and every walker's weights can always move, and then always complete without obstacles |
| Simulation.RunSimulation | simulation.py:688-735 | a run reports success or an early stop and keeps the set-up and every walker's class and weights; it raises only ValueError, never when no walker can be alone under an interaction and every walker's weights can always move, and then succeeds when there are also no obstacles |
| Simulation.KeptCannotCrash | simulation.py:688-735 | a simulation whose walkers keep their classes and weights, and whose walkers and interaction are the same, cannot raise when the first could not |
| Simulation.Reset | simulation.py:737-760 | after a reset every walker is reset (keeping its class and weights), has no escape time, crossing count -1 and no results; nothing else changes |
| SimulationProperties.TerrainPriority | simulation.py:483-501 | water wins over sand and sand over grass: the terrain is the first kind, in that order, with a tile containing the point |
| SimulationProperties.TerrainScalesLastStep | simulation.py:522-531 | measured from the previous position, sand halves the last step and grass triples it |
| SimulationProperties.SingleGateLandsAtExit | simulation.py:583-594 | a walker whose step meets one gate's entrance, and whose jump meets no later entrance, ends at that gate's exit |
| SimulationProperties.GateChecksDoNotStop | simulation.py:583-594 | the gate loop does not stop at the first gate: a jump to an exit that meets the next entrance is carried on to the next exit |
| SimulationProperties.CrossingExamples | simulation.py:612-614 | examples only: staying on x = 0 or on one side counts nothing, leaving x = 0 counts once, and crossing from negative to positive x counts once |
| SimulationProperties.AlternatingPathCountsEveryMove | simulation.py:612-614 | along a path whose x alternates in sign, every move adds one crossing |
| SimulationProperties.OscillationFromOrigin | simulation.py:612-614 | from the initial count of -1, leaving the origin cancels it, so an alternating path's count equals its number of sign changes |
| SimulationProperties.AttractRepelMirror | simulation.py:439-460 | attract and repel move the walker by opposite displacements |
| SimulationProperties.NearestTieGoesToFirst | simulation.py:391-393 | of two equally near walkers the first in the order is chosen |
| SimulationProperties.NumberingStartsAtOne | simulation.py:113-123 | two walkers of one class added to a new simulation are named with indices 1 and 2 |
| SimulationProperties.NameExamples | simulation.py:116-119 | examples only: walker 1 of the unit class is named "UnitWalker1" and walker 12 of the memory class "MemoryWalker12" |
| SimulationProperties.ResetIdempotent | simulation.py:756-760 | resetting twice is resetting once |
| SimulationProperties.ResetRestoresRegistration | simulation.py:756-760 | a reset puts an added walker's escape time, crossing count and results back to what registration gave them |
| SimulationProperties.StepWalkerBookkeeps | simulation.py:729-734 | a completed turn is the bookkeeping of the settled walker |
| SimulationProperties.TurnEffect | simulation.py:729-734 | a completed turn adds step i to the turning walker's results only, and an escaped walker stays escaped with its escape time |
| SimulationProperties.RunWalkersRecords | simulation.py:707-734 | a completed step i adds step i to the results of every walker, and escapes are kept |
| SimulationProperties.RunStepsRecords | simulation.py:706-735 | completed steps from i on add exactly the steps i to the number of moves to every walker's results |
| SimulationProperties.TurnFreezes | simulation.py:729-734 | a completed turn keeps every record that carries an escape time belonging to a walker that has escaped and carrying the escape time the simulation holds for that walker |
| SimulationProperties.RunWalkersFreezes | simulation.py:707-734 | a completed step keeps every walker's records showing that walker's one escape time |
| SimulationProperties.RunStepsFreezes | simulation.py:706-735 | completed steps keep every walker's records showing that walker's one escape time |
| SimulationProperties.UnobstructedRunRecordsEveryStep | simulation.py:706-735 | without obstacles, with no lone walker under an interaction and weights that can always move, a run from empty results completes and records every step from 1 to the number of moves for every walker |
| Statistics.LoadToDict | statistics.py:87-93 | storing run i adds every exported walker, stores its run under i (replacing a run already there) and leaves every other run and walker as it was |
| Statistics.AverageWalkerDistance | statistics.py:163-177 | averaging fails with IndexError exactly when some step lies outside the array sized by that walker's first run, and otherwise gives every walker averages for the steps 1 to the length of its first run |
| Statistics.AverageOf | statistics.py:163-176 | one walker's averages are keyed by the steps 1 to the length of its first run |
| Statistics.Slot | statistics.py:172 | the array entry of step s is s - 1 for the steps the array covers; numpy's negative indices count from the end, and every other step has no entry |
| Statistics.EscapeTimes | statistics.py:131-132 | the escape times of a run are the escape times its steps carry, one per step that has one, and are empty exactly when no step has one |
| Statistics.EscapeSummary | statistics.py:129-137 | every run is either a successful run with a mean escape time or counted as unsuccessful: the unsuccessful count is the number of runs that never escaped, and there is one mean per run that escaped |
| Statistics.AverageEscapeTime | statistics.py:126-143 | every walker gets its number of unsuccessful runs, and an average of 0 when no run escaped (the average itself: FrozenEscapeTimeAverage) |
| StatisticsProperties.SlotTotalIsColumnTotal | statistics.py:169-172 | when all runs cover steps 1 to the array length, the count accumulated at step s is the sum over the runs of their step-s values |
| StatisticsProperties.AlignedAverage | statistics.py:163-177 | when every run of every walker covers exactly the steps 1 to n, averaging succeeds and the average at step s is the mean over the runs of their step-s values |
| StatisticsProperties.SingleRunAverage | statistics.py:163-177 | with a single run the average at each step is that run's value |
| StatisticsProperties.LongerLaterRunRaises | statistics.py:165-172 | a later run longer than the first one makes the averaging fail with IndexError |
| StatisticsProperties.AveragesNonNegative | statistics.py:163-177 | averages of non-negative distances or counts are non-negative |
| StatisticsProperties.ConstantEscapeTime | statistics.py:126-143 | when every run escapes at the same step c, the average escape time is c, or 0 with every run unsuccessful when none escapes |
| StatisticsProperties.EscapeSummaryMeans | statistics.py:129-137 | every mean in the summary is the mean escape time of some run that escaped |
| StatisticsProperties.SummaryAddsFrozenTimes | statistics.py:129-137 | when each run j freezes its escape time at c(j), the summary's means add up to the c(j) of the runs that escaped |
| StatisticsProperties.FrozenEscapeTimeAverage | statistics.py:126-143 | when each run j freezes its escape time at c(j) and some run escaped, the average escape time is the sum of c(j) over the runs that escaped divided by their number |
| StatisticsProperties.FrozenRunsAverage | statistics.py:126-143 | when every run of a walker shows a single escape time and some run escaped, the average escape time is the sum of those times over the runs that escaped divided by their number |
| Driver.RefuseOrigin | main.py:136-142 | the obstacle loader stops the program exactly when some obstacle covers the origin, edges included, and otherwise keeps all of them in order |
| Driver.RefuseGatesAtOrigin | main.py:250-255 | the gate loader stops the program exactly when some entrance covers the origin |
| Driver.LoadTerrains | main.py:180-212 | the terrain loader stops exactly when some water tile covers the origin; sand and grass tiles are not checked |
| Driver.CoversOriginIsContainment | main.py:139-140 | for a rectangle of non-negative size the origin check is containment of the origin |
| Driver.OriginChecksLetThrough | main.py:194-211 | a negative-width obstacle over the origin and a sand tile over the origin both pass the loaders |
| Driver.Split | main.py:411 | the comma split always gives at least one piece and no piece contains a comma |
| Driver.JoinSplit | main.py:411 | joining the pieces with commas gives back the input line |
| Driver.SplitJoin | main.py:411 | splitting comma-joined pieces that contain no comma gives back the pieces |
| Driver.ParseAll | main.py:416 | the conversion succeeds exactly when every piece converts, and then gives the converted pieces in order |
| Driver.CheckProbabilities | main.py:411-426 | a line is accepted exactly when it has five pieces that all convert, none negative and not all zero, and then the weights are the converted pieces in order; a wrong count, an unconvertible piece, a negative weight and all-zero weights are each reported exactly when that check is the first to fail |
| Driver.GetProbabilities | main.py:390-426 | the prompt returns the first accepted line's weights, and keeps asking while no line is accepted |
| Driver.AcceptedWeightsNormalize | main.py:420-426 | accepted weights sum to more than zero, so the walker's normalisation succeeds and gives weights summing to 1 |
| Driver.AxisZeroWeightsStallAtOrigin | main.py:420-426 | the line "0,0,0,0,1" is accepted, builds a walker with those weights, and every move of that walker at the origin raises |
| Driver.CheckMovableProbabilities | main.py:411-426 | a line is accepted exactly when the prompt accepts it and its four axis weights are not all zero, with the same weights |
| Driver.MovableWeightsAlwaysMove | main.py:420-426 | weights the corrected prompt accepts build a walker whose every move succeeds wherever it stands |
| Driver.SplitExt | main.py:505 | the base and extension put together give back the name, an extension is a dot followed by no dot or separator, and an extension is split off exactly when some dot of the final path component follows a character of that component that is not a dot |
| Driver.SplitExtExample | main.py:505 | example only: "stats.json" splits into "stats" and ".json" |
| Driver.SplitExtHiddenFile | main.py:505 | example only: ".json", whose only dot leads the name, has no extension |
| Driver.SplitExtTwoDots | main.py:505 | example only: "a.b.json" splits into "a.b" and ".json", so only the last dot starts the extension |
| Driver.ChooseFileName | main.py:479-507 | the file written is not already in the folder: the name itself when free, else the base, "_", the smallest free index from 1 and the extension |
| Driver.SecondCandidateAfterTwoClashes | main.py:503-507 | with the name and its first candidate taken, the second candidate is chosen |
| Driver.CandidateExample | main.py:505-506 | example only: the second candidate for "stats.json" is "stats_2.json" |
| Driver.ConfigureInteraction | main.py:669-672 | an interaction is set exactly when there is more than one walker and one was chosen, so no walker can then be alone under an interaction, and the run cannot raise exactly when every walker's weights can always move |
| Driver.Turn | main.py:686-690 | a turn of the loop leaves the simulation reset with its set-up and every walker's class and weights, adds only the simulation's walkers to the statistics, raises only ValueError, and never raises when no walker can be alone under an interaction and every walker's weights can always move |
| Driver.TurnTouchesOnlyItsIndex | main.py:686-690 | a turn stores runs only under its own simulation number and leaves every other run as it was |
| Driver.LoadTouchesOnlyItsIndex | statistics.py:87-93 | storing run i adds runs only under i and keeps every run stored under another number |
| Driver.UnobstructedTurnExportsFullRun | main.py:686-690 | without obstacles, with no walker alone under an interaction, weights that can always move and empty results, a turn stores for every walker a run covering steps 1 to the number of moves |
| Driver.AbortedRunNotExported | main.py:686-690 | a run that stops early leaves the statistics as they were |
| Driver.CompletedRunExported | main.py:686-687 | a completed run is stored under its number for every walker |
| Driver.RunAll | main.py:675-690 | the loop keeps the set-up, adds only the simulation's walkers to the statistics, and raises only ValueError |
| Driver.LoopWithoutCrashFinishes | main.py:669-690 | with no walker alone under an interaction and every walker's weights able to move, the loop never raises |
| Driver.RunAllExportsWithin | main.py:675-690 | the loop stores runs only under simulation numbers from i to the count |
| Driver.RunAllKeepsOtherRuns | main.py:675-690 | runs stored under other numbers are left as they were |
| Driver.UnobstructedLoopExportsEveryRun | main.py:675-690 | without obstacles, with no walker alone under an interaction, weights that can always move and empty results, every simulation number from i to the count holds a complete run for every walker |
| Driver.UnobstructedLoopFillsStatistics | main.py:675-690 | without obstacles, no walker alone under an interaction and weights that can always move, every walker ends with runs 1 to the count, each covering steps 1 to the number of moves |
| Driver.UnobstructedAveragesCoverEveryStep | main.py:675-690 | without obstacles, with no walker alone under an interaction, weights that can always move and empty results, after the loop the per-step averaging succeeds and gives every walker an average for every step |
| Driver.CompletedRunFrozen | simulation.py:706-735 | a completed run leaves, for every walker, records that all show one escape time |
| Driver.TurnKeepsRunsFrozen | main.py:686-690 | a turn stores only runs that show one escape time, and leaves the reset simulation with nothing recorded |
| Driver.LoopKeeps | main.py:675-690 | whatever every turn keeps of the simulation and the statistics, the whole loop keeps when it finishes |
| Driver.LoopRunsFrozen | main.py:675-690 | a loop that finishes stores only runs that show one escape time |
| Driver.LoopAverageEscapeTime | statistics.py:126-143 | after the loop from empty statistics, a walker that escaped in some stored run gets as average escape time the sum of the escape times its escaped runs recorded divided by their number |

## Left out

- Randomness: `random.random`, `random.uniform`, `random.choice` and `random.choices` are draws supplied by the oracle; the distributions themselves are not modelled.
- Trigonometry, `math.sqrt` and shapely's geometry are oracle functions; point-in-polygon for tiles is closed containment in the rectangle.
- Floating point: reals are exact, so rounding, NaN and infinities are not modelled (a probability written "nan" passes every check of the prompt in the source).
- The escape radius is compared as x² + y² > 100 rather than as the square root of it against 10; the two agree on exact reals.
- Printing, prompts, `exit`, command-line parsing, reading the configuration file, writing JSON, creating folders and plot.py are left out; the loaders take the parsed entries, the file-name choice takes the existing names as a set.
- Missing keys in the configuration (KeyError) and the loaders' handling of a missing section are left out.
- The wiring in `load_sim_objects` (the walker classes looked up by name) and `occupied_locations_check` are not part of this model.
- The watch-and-plot branch of main's loop is not modelled; it exports and resets like the other branch.
- Step keys of the averages are integers rather than the strings `str(step)`; the order of a dictionary's runs is modelled as increasing simulation number, which is how main's loop fills it.
- `0` and `0.0` are one value, so the integer 0 of a failed average escape time is 0.0.
- Walker identity: `locate_nearest_walker` compares walker objects; the model identifies a walker by its index in the order, assuming no walker object is added twice.
- `num_steps` and the number of simulations are unchecked integers; a non-positive count gives an empty loop.
- Walkers.TowardOriginPointsHome: states the direction and the scaling, not that the step has length 1, since the length comes from the square-root oracle.
- Statistics.AverageWalkerDistance: the three distance wrappers and `avg_cross_y_axis` are this function at a fixed field and carry no contract of their own.
- Driver.ConfigureInteraction: requires that no interaction was set before, which is how main calls it.
- Walkers.MoveBias: follows `random.choices` of Python 3.9 and later; earlier versions do not check the total of the weights and, given zero weights, pick the last candidate instead of raising.
- Statistics.AverageEscapeTime: its own contract states the unsuccessful counts and the zero average; the average over escaped runs is stated by StatisticsProperties.FrozenEscapeTimeAverage for runs whose escape time is frozen, which is what the simulation records: Driver.CompletedRunFrozen, Driver.LoopRunsFrozen and Driver.LoopAverageEscapeTime carry this to the statistics the loop stores.

## Findings

| source | as written | input that shows it | evidently intended | confidence | as-written member | corrected member |
|---|---|---|---|---|---|---|
| main.py:420-426 | `get_probabilities` refuses only all-zero weights, but at the origin a DirectionalBiasWalker draws with its first four weights only (walkers.py:324-331) | "0,0,0,0,1" is accepted. Walkers start at the origin, where `random.choices` gets [0, 0, 0, 0] and raises ValueError: at the first step with no interaction (as for a single walker), else at the first own move (a draw above 0.2) made at the origin | refuse a line whose four axis weights are all zero, so the walker can move wherever it stands | not executed | Driver.AxisZeroWeightsStallAtOrigin | Driver.MovableWeightsAlwaysMove |

=== FILE: common.dfy ===
/** Shared vocabulary of the random-walk model: failure wrappers, plane vectors,
    decimal rendering of indices, the minimum of a set of integers, and the
    per-step record that the engine writes and the aggregator reads. */
module Common {

  datatype Option<+T> = None | Some(value: T)

  /** The Python exceptions the core raises on its own. */
  datatype Error =
    | TypeError(message: string)
    | ValueError(message: string)
    | IndexError
    | ZeroDivisionError

  datatype Result<+T> = Ok(value: T) | Err(error: Error)

  /** A point or a displacement of the plane. */
  datatype Vec = Vec(x: real, y: real) {
    function Plus(d: Vec): Vec { Vec(x + d.x, y + d.y) }
    function Minus(d: Vec): Vec { Vec(x - d.x, y - d.y) }
    function Scale(k: real): Vec { Vec(k * x, k * y) }
    /** x² + y², the square of the Euclidean distance from the origin. */
    function NormSquared(): real { x * x + y * y }
  }

  const Origin: Vec := Vec(0.0, 0.0)

  function SquaredDistance(a: Vec, b: Vec): real {
    a.Minus(b).NormSquared()
  }

  function Abs(r: real): (a: real)
    ensures a >= 0.0
    ensures a == r || a == -r
  {
    if r < 0.0 then -r else r
  }

  /** Python's `max(0, c)` on an integer counter. */
  function ClampAtZero(c: int): (n: int)
    ensures n >= 0 && n >= c
    ensures c >= 0 ==> n == c
    ensures c < 0 ==> n == 0
  {
    if c < 0 then 0 else c
  }

  /** Sum of a list of reals, as Python's `sum`. */
  function Sum(s: seq<real>): real
  {
    if |s| == 0 then 0.0 else Sum(s[..|s| - 1]) + s[|s| - 1]
  }

  lemma {:induction false} SumAppend(s: seq<real>, v: real)
    ensures Sum(s + [v]) == Sum(s) + v
  {
    assert (s + [v])[..|s + [v]| - 1] == s;
  }

  lemma {:induction false} SumPrepend(x: real, xs: seq<real>)
    ensures Sum([x] + xs) == x + Sum(xs)
    decreases |xs|
  {
    if |xs| > 0 {
      var init := xs[..|xs| - 1];
      SumPrepend(x, init);
      assert ([x] + xs)[..|xs|] == [x] + init;
    }
  }

  /** Putting x in front shifts every element one place on. */
  lemma PrependShifts<T>(x: T, xs: seq<T>)
    ensures |[x] + xs| == |xs| + 1 && ([x] + xs)[0] == x
    ensures forall i :: 1 <= i < |xs| + 1 ==> ([x] + xs)[i] == xs[i - 1]
  {
  }

  /** A sum of non-negative terms is non-negative, and positive when one term is. */
  lemma {:induction false} SumOfNonNegatives(xs: seq<real>)
    requires forall k :: 0 <= k < |xs| ==> xs[k] >= 0.0
    ensures Sum(xs) >= 0.0
    ensures (exists k :: 0 <= k < |xs| && xs[k] > 0.0) ==> Sum(xs) > 0.0
    decreases |xs|
  {
    if |xs| > 0 {
      var init := xs[..|xs| - 1];
      SumOfNonNegatives(init);
      if exists k :: 0 <= k < |xs| && xs[k] > 0.0 {
        var k :| 0 <= k < |xs| && xs[k] > 0.0;
        if k < |xs| - 1 {
          assert init[k] > 0.0;
        }
      }
    }
  }

  /** The integers from `from` to `upto`, both included: the step numbers of a
      run, Python's `range(from, upto + 1)`. */
  function StepRange(from: int, upto: int): (r: set<int>)
    ensures forall k :: k in r <==> from <= k <= upto
    decreases upto - from
  {
    if from > upto then {} else {from} + StepRange(from + 1, upto)
  }

  lemma {:induction false} StepRangeSize(from: int, upto: int)
    ensures |StepRange(from, upto)| == if from > upto then 0 else upto - from + 1
    decreases upto - from
  {
    if from <= upto {
      StepRangeSize(from + 1, upto);
      assert from !in StepRange(from + 1, upto);
    }
  }

  // ---------------------------------------------------------------------------
  // Decimal rendering of non-negative integers, Python's `str(n)`.

  function Digit(d: nat): char
    requires d < 10
  {
    (48 + d) as char
  }

  function DigitValue(c: char): int {
    c as int - 48
  }

  predicate IsDigits(s: string) {
    forall i :: 0 <= i < |s| ==> '0' <= s[i] <= '9'
  }

  function DecimalString(n: nat): (s: string)
    ensures |s| >= 1 && IsDigits(s)
    decreases n
  {
    if n < 10 then [Digit(n)] else DecimalString(n / 10) + [Digit(n % 10)]
  }

  /** Python's `int(s)` on a string of decimal digits. */
  function DecimalValue(s: string): int
    decreases |s|
  {
    if |s| == 0 then 0 else DecimalValue(s[..|s| - 1]) * 10 + DigitValue(s[|s| - 1])
  }

  /** `int(str(n)) == n`: reading back a rendered index gives the index. */
  lemma {:induction false} DecimalRoundTrip(n: nat)
    ensures DecimalValue(DecimalString(n)) == n
    decreases n
  {
    var s := DecimalString(n);
    if n >= 10 {
      DecimalRoundTrip(n / 10);
      assert s[..|s| - 1] == DecimalString(n / 10);
    }
  }

  /** Distinct indices render to distinct strings. */
  lemma DecimalStringInjective(m: nat, n: nat)
    requires DecimalString(m) == DecimalString(n)
    ensures m == n
  {
    DecimalRoundTrip(m);
    DecimalRoundTrip(n);
  }

  /** `prefix + str(j) + suffix`, the j-th candidate of an indexed name. */
  function Indexed(prefix: string, j: nat, suffix: string): string {
    prefix + DecimalString(j) + suffix
  }

  /** Different indices give different candidates. */
  lemma IndexedInjective(prefix: string, i: nat, j: nat, suffix: string)
    requires Indexed(prefix, i, suffix) == Indexed(prefix, j, suffix)
    ensures i == j
  {
    var a := Indexed(prefix, i, suffix);
    var b := Indexed(prefix, j, suffix);
    assert |DecimalString(i)| == |DecimalString(j)|;
    var lo, hi := |prefix|, |prefix| + |DecimalString(i)|;
    assert a[lo..hi] == DecimalString(i);
    assert b[lo..hi] == DecimalString(j);
    DecimalStringInjective(i, j);
  }

  /** The candidates with an index in [from, upto). */
  function IndexedRange(prefix: string, suffix: string, from: nat, upto: nat): set<string> {
    set j: nat | from <= j < upto :: Indexed(prefix, j, suffix)
  }

  /** The first index from `k` on whose candidate is not taken: the loop
      `while name in taken: index += 1` of the two indexed-name searches. */
  function FirstFree(prefix: string, suffix: string, taken: set<string>, k: nat): (n: nat)
    ensures n >= k
    ensures Indexed(prefix, n, suffix) !in taken
    ensures forall j :: k <= j < n ==> Indexed(prefix, j, suffix) in taken
    decreases |taken - IndexedRange(prefix, suffix, 0, k)|
  {
    if Indexed(prefix, k, suffix) !in taken then k
    else
      FreeSearchShrinks(prefix, suffix, taken, k);
      FirstFree(prefix, suffix, taken, k + 1)
  }

  lemma FreeSearchShrinks(prefix: string, suffix: string, taken: set<string>, k: nat)
    requires Indexed(prefix, k, suffix) in taken
    ensures |taken - IndexedRange(prefix, suffix, 0, k + 1)| < |taken - IndexedRange(prefix, suffix, 0, k)|
  {
    var c := Indexed(prefix, k, suffix);
    var before := taken - IndexedRange(prefix, suffix, 0, k);
    var after := taken - IndexedRange(prefix, suffix, 0, k + 1);
    assert c !in IndexedRange(prefix, suffix, 0, k) by {
      if c in IndexedRange(prefix, suffix, 0, k) {
        var j: nat :| j < k && Indexed(prefix, j, suffix) == c;
        IndexedInjective(prefix, j, k, suffix);
        assert false;
      }
    }
    assert IndexedRange(prefix, suffix, 0, k + 1) == IndexedRange(prefix, suffix, 0, k) + {c};
    assert after == before - {c};
  }

  // ---------------------------------------------------------------------------
  // Minimum of a finite set of integers, used to visit dictionary keys in order.

  lemma {:induction false} MinWitness(s: set<int>) returns (m: int)
    requires s != {}
    ensures m in s
    ensures forall x :: x in s ==> m <= x
    decreases |s|
  {
    assert exists y :: y in s by {
      if forall y :: y !in s {
        assert false;
      }
    }
    var y :| y in s;
    var rest := s - {y};
    if rest == {} {
      m := y;
      assert s == {y};
    } else {
      var r := MinWitness(rest);
      m := if y < r then y else r;
      assert s == rest + {y};
    }
  }

  lemma MinExists(s: set<int>)
    requires s != {}
    ensures exists m :: m in s && forall x :: x in s ==> m <= x
  {
    var m := MinWitness(s);
  }

  function MinOf(s: set<int>): (m: int)
    requires s != {}
    ensures m in s
    ensures forall x :: x in s ==> m <= x
  {
    MinExists(s);
    var m :| m in s && forall x :: x in s ==> m <= x;
    m
  }

  // ---------------------------------------------------------------------------

  /** One row of the per-step result table: the walker's location, its frozen
      escape time (None until it has escaped), the y-axis crossing count clamped
      at zero, its distance from the origin, |y| and |x|. */
  datatype Record = Record(
    location: Vec,
    escapeTime: Option<int>,
    yCrosses: int,
    distanceFromOrigin: real,
    distanceFromX: real,
    distanceFromY: real)
}

=== FILE: driver.dfy ===
/** The decisions of the command-line driver: refusing objects placed over the
    origin, checking a typed probability list, choosing a free file name, and
    the loop that runs, exports and resets the simulation. */
module Driver {
  import opened Common
  import opened Terrains
  import opened Walkers
  import opened Simulation
  import opened Statistics
  import opened SimulationProperties
  import opened StatisticsProperties

  // ---------------------------------------------------------------------------
  // Placement over the origin

  /** `x <= 0 <= x + width and y <= 0 <= y + height`: the test the loaders use
      to refuse a rectangle that covers the walkers' starting point. */
  predicate CoversOrigin(r: Rect) {
    r.x <= 0.0 <= r.x + r.width && r.y <= 0.0 <= r.y + r.height
  }

  /** The outcome of a loader: what it read, or the program stopping. */
  datatype Load<+T> = Loaded(value: T) | Exit

  /** The obstacle and water loaders: the entries in order, or a stop as soon as
      one of them covers the origin. */
  function RefuseOrigin(rs: seq<Rect>): (r: Load<seq<Rect>>)
    ensures r == Exit <==> exists k :: 0 <= k < |rs| && CoversOrigin(rs[k])
    ensures r.Loaded? ==> r.value == rs
    decreases |rs|
  {
    if rs == [] then Loaded([])
    else if CoversOrigin(rs[0]) then Exit
    else
      match RefuseOrigin(rs[1..])
      case Exit => Exit
      case Loaded(rest) => Loaded([rs[0]] + rest)
  }

  /** The gate loader: the same test on every entrance; exits take no part. */
  function RefuseGatesAtOrigin(gs: seq<Gate>): (r: Load<seq<Gate>>)
    ensures r == Exit <==> exists k :: 0 <= k < |gs| && CoversOrigin(gs[k].EntranceRect())
    ensures r.Loaded? ==> r.value == gs
    decreases |gs|
  {
    if gs == [] then Loaded([])
    else if CoversOrigin(gs[0].EntranceRect()) then Exit
    else
      match RefuseGatesAtOrigin(gs[1..])
      case Exit => Exit
      case Loaded(rest) => Loaded([gs[0]] + rest)
  }

  /** `get_terrains_from_json`: waters are refused over the origin, sands and
      grasses are taken as they are. */
  function LoadTerrains(waters: seq<Rect>, sands: seq<Rect>, grasses: seq<Rect>): (r: Load<(seq<Rect>, seq<Rect>, seq<Rect>)>)
    ensures r == Exit <==> exists k :: 0 <= k < |waters| && CoversOrigin(waters[k])
    ensures r.Loaded? ==> r.value == (waters, sands, grasses)
  {
    match RefuseOrigin(waters)
    case Exit => Exit
    case Loaded(ws) => Loaded((ws, sands, grasses))
  }

  /** For rectangles of non-negative extent the refusal test is exactly
      containment of the origin. */
  lemma CoversOriginIsContainment(r: Rect)
    requires r.width >= 0.0 && r.height >= 0.0
    ensures CoversOrigin(r) <==> r.Contains(Origin)
  {
  }

  /** A rectangle of negative width can hold the origin and still pass, and a
      sand tile over the origin is loaded. */
  lemma OriginChecksLetThrough()
    ensures var r := Rect(1.0, 0.0, -2.0, 1.0);
            r.Contains(Origin) && RefuseOrigin([r]) == Loaded([r])
    ensures var sand := Rect(-1.0, -1.0, 2.0, 2.0);
            CoversOrigin(sand) && LoadTerrains([], [sand], []) == Loaded(([], [sand], []))
  {
  }

  // ---------------------------------------------------------------------------
  // Splitting a line

  /** The position of the first c in s. */
  function IndexOf(s: string, c: char): (i: nat)
    requires c in s
    ensures i < |s| && s[i] == c && c !in s[..i]
  {
    if s[0] == c then 0
    else
      assert c in s[1..] by {
        var k :| 0 <= k < |s| && s[k] == c;
        assert s[1..][k - 1] == c;
      }
      var j := IndexOf(s[1..], c);
      assert s[..j + 1] == [s[0]] + s[1..][..j];
      j + 1
  }

  /** Python's `s.split(sep)` for a one-character separator: the pieces
      between separators, at least one. */
  function Split(s: string, sep: char): (parts: seq<string>)
    ensures |parts| >= 1
    ensures forall k :: 0 <= k < |parts| ==> sep !in parts[k]
    decreases |s|
  {
    if sep !in s then [s]
    else
      var i := IndexOf(s, sep);
      [s[..i]] + Split(s[i + 1..], sep)
  }

  /** `sep.join(parts)`. */
  function Join(parts: seq<string>, sep: char): string
    requires |parts| >= 1
    decreases |parts|
  {
    if |parts| == 1 then parts[0] else parts[0] + [sep] + Join(parts[1..], sep)
  }

  /** Joining the pieces gives the line back. */
  lemma {:induction false} JoinSplit(s: string, sep: char)
    ensures Join(Split(s, sep), sep) == s
    decreases |s|
  {
    if sep in s {
      var i := IndexOf(s, sep);
      var rest := s[i + 1..];
      JoinSplit(rest, sep);
      var parts := Split(s, sep);
      assert parts[1..] == Split(rest, sep);
      assert s == s[..i] + [sep] + rest;
    }
  }

  /** Splitting a join of separator-free pieces gives the pieces back. */
  lemma {:induction false} SplitJoin(parts: seq<string>, sep: char)
    requires |parts| >= 1 && forall k :: 0 <= k < |parts| ==> sep !in parts[k]
    ensures Split(Join(parts, sep), sep) == parts
    decreases |parts|
  {
    if |parts| > 1 {
      var rest := Join(parts[1..], sep);
      SplitJoin(parts[1..], sep);
      SplitAfterPiece(parts[0], sep, rest);
      assert [parts[0]] + parts[1..] == parts;
    }
  }

  /** A piece without the separator, then the separator: the piece comes off
      first. */
  lemma SplitAfterPiece(piece: string, sep: char, rest: string)
    requires sep !in piece
    ensures Split(piece + [sep] + rest, sep) == [piece] + Split(rest, sep)
  {
    FirstSeparator(piece, sep, rest);
  }

  /** In a piece without the separator followed by the separator, the first
      separator is the one after the piece. */
  lemma FirstSeparator(piece: string, sep: char, rest: string)
    requires sep !in piece
    ensures var s := piece + [sep] + rest;
            sep in s && IndexOf(s, sep) == |piece| && s[..|piece|] == piece && s[|piece| + 1..] == rest
  {
    var s := piece + [sep] + rest;
    assert s[|piece|] == sep;
    var i := IndexOf(s, sep);
    if i < |piece| {
      assert false;
    }
    if i > |piece| {
      assert false;
    }
    assert s[..|piece|] == piece;
    assert s[|piece| + 1..] == rest;
  }

  // ---------------------------------------------------------------------------
  // The probability list of a directional-bias walker

  /** Why a typed line is refused, or the weights it gives. */
  datatype ProbabilityCheck =
    | Accepted(weights: seq<real>)
    | WrongCount
    | NotNumbers
    | Negative
    | AllZero
    | NoAxisWeight

  /** `[float(item) for item in items]`, None when some item does not parse. */
  function ParseAll(items: seq<string>, parse: string -> Option<real>): (r: Option<seq<real>>)
    ensures r.Some? <==> forall k :: 0 <= k < |items| ==> parse(items[k]).Some?
    ensures r.Some? ==> |r.value| == |items|
    ensures r.Some? ==> forall k :: 0 <= k < |items| ==> r.value[k] == parse(items[k]).value
    decreases |items|
  {
    if items == [] then Some([])
    else
      match (parse(items[0]), ParseAll(items[1..], parse))
      case (Some(x), Some(rest)) =>
        assert forall k :: 1 <= k < |items| ==> items[1..][k - 1] == items[k];
        Some([x] + rest)
      case (None, _) => None
      case (_, None) =>
        assert exists k :: 0 <= k < |items[1..]| && parse(items[1..][k]).None?;
        None
  }

  predicate AnyNegative(xs: seq<real>) {
    exists k :: 0 <= k < |xs| && xs[k] < 0.0
  }

  predicate AllZeros(xs: seq<real>) {
    forall k :: 0 <= k < |xs| ==> xs[k] == 0.0
  }

  /** One pass of the prompt loop of `get_probabilities`, with `float` given
      as `parse`: the checks are made in the order of the source. */
  function CheckProbabilities(line: string, parse: string -> Option<real>): (r: ProbabilityCheck)
    ensures r.Accepted? <==>
      |Split(line, ',')| == 5 && ParseAll(Split(line, ','), parse).Some? &&
      !AnyNegative(ParseAll(Split(line, ','), parse).value) && !AllZeros(ParseAll(Split(line, ','), parse).value)
    ensures r.Accepted? ==> r.weights == ParseAll(Split(line, ','), parse).value
    ensures r == NotNumbers <==> |Split(line, ',')| == 5 && ParseAll(Split(line, ','), parse).None?
    ensures r == Negative <==>
      |Split(line, ',')| == 5 && ParseAll(Split(line, ','), parse).Some? && AnyNegative(ParseAll(Split(line, ','), parse).value)
    ensures r == AllZero <==>
      |Split(line, ',')| == 5 && ParseAll(Split(line, ','), parse).Some? &&
      !AnyNegative(ParseAll(Split(line, ','), parse).value) && AllZeros(ParseAll(Split(line, ','), parse).value)
    ensures r.Accepted? ==> |r.weights| == 5
    ensures r.Accepted? ==> forall k :: 0 <= k < 5 ==> r.weights[k] >= 0.0
    ensures r.Accepted? ==> exists k :: 0 <= k < 5 && r.weights[k] > 0.0
    ensures r == WrongCount <==> |Split(line, ',')| != 5
  {
    var items := Split(line, ',');
    if |items| != 5 then WrongCount
    else
      match ParseAll(items, parse)
      case None => NotNumbers
      case Some(xs) =>
        if AnyNegative(xs) then Negative
        else if AllZeros(xs) then AllZero
        else Accepted(xs)
  }

  /** `get_probabilities` over the lines typed in turn: the weights of the first
      accepted line and its position, None when every line is refused. */
  function GetProbabilities(lines: seq<string>, parse: string -> Option<real>): (r: Option<(nat, seq<real>)>)
    ensures r.None? <==> forall k :: 0 <= k < |lines| ==> !CheckProbabilities(lines[k], parse).Accepted?
    ensures r.Some? ==> r.value.0 < |lines| && CheckProbabilities(lines[r.value.0], parse) == Accepted(r.value.1)
    ensures r.Some? ==> forall k :: 0 <= k < r.value.0 ==> !CheckProbabilities(lines[k], parse).Accepted?
    decreases |lines|
  {
    if lines == [] then None
    else
      var c := CheckProbabilities(lines[0], parse);
      if c.Accepted? then Some((0, c.weights))
      else
        var rest := GetProbabilities(lines[1..], parse);
        if rest.None? then
          RefusedShift(lines, parse, |lines|);
          None
        else
          RefusedShift(lines, parse, rest.value.0 + 1);
          Some((rest.value.0 + 1, rest.value.1))
  }

  /** A refused first line followed by n - 1 refused lines makes n refused lines. */
  lemma RefusedShift(lines: seq<string>, parse: string -> Option<real>, n: int)
    requires 1 <= n <= |lines| && !CheckProbabilities(lines[0], parse).Accepted?
    requires forall k :: 0 <= k < n - 1 ==> !CheckProbabilities(lines[1..][k], parse).Accepted?
    ensures forall k :: 0 <= k < n ==> !CheckProbabilities(lines[k], parse).Accepted?
  {
    forall k | 1 <= k < n
      ensures !CheckProbabilities(lines[k], parse).Accepted?
    {
      assert lines[k] == lines[1..][k - 1];
    }
  }

  /** Accepted weights can always be normalised: they sum to a positive value,
      and the walker built from them gets weights summing to 1. */
  lemma AcceptedWeightsNormalize(line: string, parse: string -> Option<real>)
    requires CheckProbabilities(line, parse).Accepted?
    ensures var ws := CheckProbabilities(line, parse).weights;
            Sum(ws) > 0.0 && NormalizeWeights(ws).Ok? && Sum(NormalizeWeights(ws).value) == 1.0
  {
    SumOfNonNegatives(CheckProbabilities(line, parse).weights);
  }

  /** Weights `get_probabilities` accepts whose four axis weights are zero
      build a walker that cannot leave the origin, where it starts: with no
      toward-origin direction there, `random.choices` gets the four zero weights
      and raises. "0,0,0,0,1" is such a line. */
  lemma AxisZeroWeightsStallAtOrigin(parse: string -> Option<real>)
    requires parse("0") == Some(0.0) && parse("1") == Some(1.0)
    ensures var ws := [0.0, 0.0, 0.0, 0.0, 1.0];
            CheckProbabilities("0,0,0,0,1", parse) == Accepted(ws) &&
            NewDirectionalBias(Some(ws)) == Ok(NewWalker(DirectionalBias(ws))) &&
            forall d :: Move(NewWalker(DirectionalBias(ws)), d, 0.0).Err?
  {
    LineOfZerosAndOne(parse);
    var ws := [0.0, 0.0, 0.0, 0.0, 1.0];
    ZerosAndOneSums(ws);
    var w := NewWalker(DirectionalBias(ws));
    assert BiasCandidates(w.pos, 0.0) == AxisSteps;
    assert UsedWeights(ws, 4) == ws[..4];
  }

  lemma LineOfZerosAndOne(parse: string -> Option<real>)
    requires parse("0") == Some(0.0) && parse("1") == Some(1.0)
    ensures CheckProbabilities("0,0,0,0,1", parse) == Accepted([0.0, 0.0, 0.0, 0.0, 1.0])
  {
    SplitZerosAndOne();
    ParseZerosAndOne(parse);
    ZerosAndOneChecks([0.0, 0.0, 0.0, 0.0, 1.0]);
    AcceptedAsParsed("0,0,0,0,1", parse, [0.0, 0.0, 0.0, 0.0, 1.0]);
  }

  lemma ParseZerosAndOne(parse: string -> Option<real>)
    requires parse("0") == Some(0.0) && parse("1") == Some(1.0)
    ensures ParseAll(["0", "0", "0", "0", "1"], parse) == Some([0.0, 0.0, 0.0, 0.0, 1.0])
  {
    var parts := ["0", "0", "0", "0", "1"];
    var ws := [0.0, 0.0, 0.0, 0.0, 1.0];
    assert parse(parts[0]) == Some(ws[0]) && parse(parts[1]) == Some(ws[1]) &&
           parse(parts[2]) == Some(ws[2]) && parse(parts[3]) == Some(ws[3]) &&
           parse(parts[4]) == Some(ws[4]);
    ParsesTo(parts, parse, ws);
  }

  lemma ZerosAndOneChecks(ws: seq<real>)
    requires ws == [0.0, 0.0, 0.0, 0.0, 1.0]
    ensures !AnyNegative(ws) && !AllZeros(ws)
  {
    assert ws[4] != 0.0;
  }

  lemma AcceptedAsParsed(line: string, parse: string -> Option<real>, ws: seq<real>)
    requires |Split(line, ',')| == 5 && ParseAll(Split(line, ','), parse) == Some(ws)
    requires !AnyNegative(ws) && !AllZeros(ws)
    ensures CheckProbabilities(line, parse) == Accepted(ws)
  {
  }


  lemma SplitZerosAndOne()
    ensures Split("0,0,0,0,1", ',') == ["0", "0", "0", "0", "1"]
  {
    var parts := ["0", "0", "0", "0", "1"];
    assert Join(parts, ',') == "0,0,0,0,1";
    SplitJoin(parts, ',');
  }

  lemma ParsesTo(items: seq<string>, parse: string -> Option<real>, xs: seq<real>)
    requires |items| == |xs| && forall k :: 0 <= k < |items| ==> parse(items[k]) == Some(xs[k])
    ensures ParseAll(items, parse) == Some(xs)
  {
    assert ParseAll(items, parse).value == xs;
  }

  lemma ZerosAndOneSums(ws: seq<real>)
    requires ws == [0.0, 0.0, 0.0, 0.0, 1.0]
    ensures Sum(ws[..4]) == 0.0 && Sum(ws) == 1.0
  {
    SumAppend([], 0.0);
    assert [] + [0.0] == [0.0];
    SumAppend([0.0], 0.0);
    assert [0.0] + [0.0] == [0.0, 0.0];
    SumAppend([0.0, 0.0], 0.0);
    assert [0.0, 0.0] + [0.0] == [0.0, 0.0, 0.0];
    SumAppend([0.0, 0.0, 0.0], 0.0);
    assert [0.0, 0.0, 0.0] + [0.0] == ws[..4];
    SumAppend(ws[..4], 1.0);
    assert ws[..4] + [1.0] == ws;
  }

  /** The check `get_probabilities` evidently intends: on top of its own checks,
      refuse weights whose four axis weights are all zero. */
  function CheckMovableProbabilities(line: string, parse: string -> Option<real>): (r: ProbabilityCheck)
    ensures r.Accepted? <==>
      CheckProbabilities(line, parse).Accepted? && !AllZeros(CheckProbabilities(line, parse).weights[..4])
    ensures r.Accepted? ==> r == CheckProbabilities(line, parse)
    ensures !CheckProbabilities(line, parse).Accepted? ==> r == CheckProbabilities(line, parse)
  {
    var c := CheckProbabilities(line, parse);
    if c.Accepted? && AllZeros(c.weights[..4]) then NoAxisWeight else c
  }

  /** Weights that pass the corrected check build a walker whose every move
      succeeds, wherever it stands. */
  lemma MovableWeightsAlwaysMove(line: string, parse: string -> Option<real>)
    requires CheckMovableProbabilities(line, parse).Accepted?
    ensures var r := NewDirectionalBias(Some(CheckMovableProbabilities(line, parse).weights));
            r.Ok? && CanAlwaysMove(r.value.policy) &&
            forall d, length :: Move(r.value, d, length).Ok?
  {
    var ws := CheckMovableProbabilities(line, parse).weights;
    assert CheckProbabilities(line, parse) == Accepted(ws);
    SumOfNonNegatives(ws);
    assert Sum(ws) > 0.0 && |ws| == 5;
    var total := Sum(ws);
    var n := NormalizeWeights(ws).value;
    assert forall i :: 0 <= i < 5 ==> n[i] >= 0.0 && (ws[i] > 0.0 ==> n[i] > 0.0) by {
      if total != 1.0 {
        assert n == DivideAll(ws, total);
        forall i | 0 <= i < 5
          ensures n[i] >= 0.0 && (ws[i] > 0.0 ==> n[i] > 0.0)
        {
          QuotientSign(ws[i], total);
        }
      }
    }
    var k :| 0 <= k < 4 && ws[k] != 0.0;
    SumOfNonNegatives(n[..4]);
    assert n[..4][k] > 0.0;
    SumOfNonNegatives(n[..5]);
    assert n[..5][k] > 0.0;
  }

  lemma QuotientSign(w: real, total: real)
    requires total > 0.0
    ensures w >= 0.0 ==> w / total >= 0.0
    ensures w > 0.0 ==> w / total > 0.0
  {
  }

  // ---------------------------------------------------------------------------
  // Choosing a file name

  /** The last position of c in s. */
  function LastIndexOf(s: string, c: char): (r: Option<nat>)
    ensures r.None? <==> c !in s
    ensures r.Some? ==> r.value < |s| && s[r.value] == c && c !in s[r.value + 1..]
    decreases |s|
  {
    if s == [] then None
    else if s[|s| - 1] == c then Some(|s| - 1)
    else
      var r := LastIndexOf(s[..|s| - 1], c);
      assert s == s[..|s| - 1] + [s[|s| - 1]];
      r
  }

  predicate AllDots(s: string) {
    forall k :: 0 <= k < |s| ==> s[k] == '.'
  }

  /** The final path component of `p` holds a dot with some character other
      than a dot before it. */
  predicate HasExtension(p: string) {
    exists j, k :: 0 <= j < k < |p| && p[j] != '.' && p[k] == '.' && '/' !in p[j..]
  }

  /** Python's `os.path.splitext` with '/' as separator: the extension starts
      at the last dot of the final path component, unless only dots precede
      it there. */
  function SplitExt(p: string): (r: (string, string))
    ensures r.0 + r.1 == p
    ensures r.1 != [] ==> r.1[0] == '.' && '.' !in r.1[1..] && '/' !in r.1
    ensures r.1 != [] <==> HasExtension(p)
  {
    match LastIndexOf(p, '.')
    case None =>
      (p, [])
    case Some(dot) =>
      var start := match LastIndexOf(p, '/') case None => 0 case Some(sep) => sep + 1;
      assert '/' !in p[start..] by {
        if LastIndexOf(p, '/').None? {
          assert p[start..] == p;
        }
      }
      if start <= dot && !AllDots(p[start..dot]) then
        ExtensionSplit(p, start, dot);
        (p[..dot], p[dot..])
      else
        NoExtensionBefore(p, dot, start);
        (p, [])
  }

  /** Splitting at the last dot, after some non-dot character of the final
      path component, gives an extension. */
  lemma ExtensionSplit(p: string, start: int, dot: int)
    requires 0 <= start <= dot < |p| && p[dot] == '.' && '.' !in p[dot + 1..]
    requires '/' !in p[start..] && !AllDots(p[start..dot])
    ensures p[..dot] + p[dot..] == p
    ensures p[dot..][0] == '.' && '.' !in p[dot..][1..] && '/' !in p[dot..]
    ensures HasExtension(p)
  {
    assert p[dot..][1..] == p[dot + 1..];
    assert p[dot..] == p[start..][dot - start..];
    var i :| 0 <= i < dot - start && p[start..dot][i] != '.';
    ExtensionAt(p, start, start + i, dot);
  }

  /** A non-dot character and a later dot in the part of `p` from `start`,
      which holds no separator, make an extension. */
  lemma ExtensionAt(p: string, start: int, j: int, k: int)
    requires 0 <= start <= j < k < |p| && p[j] != '.' && p[k] == '.'
    requires '/' !in p[start..]
    ensures HasExtension(p)
  {
    assert '/' !in p[j..] by {
      forall m | 0 <= m < |p[j..]|
        ensures p[j..][m] != '/'
      {
        assert p[j..][m] == p[start..][j - start + m];
      }
    }
  }

  /** With `dot` the last dot, and `start` the beginning of the final path
      component, only dots before `dot` in that component leave no extension. */
  lemma NoExtensionBefore(p: string, dot: int, start: int)
    requires 0 <= dot < |p| && '.' !in p[dot + 1..]
    requires (start == 0 && '/' !in p) || (1 <= start <= |p| && p[start - 1] == '/')
    requires !(start <= dot && !AllDots(p[start..dot]))
    ensures !HasExtension(p)
  {
    forall m | dot < m < |p|
      ensures p[m] != '.'
    {
      assert p[m] == p[dot + 1..][m - dot - 1];
    }
    if start <= dot {
      forall m | start <= m < dot
        ensures p[m] == '.'
      {
        assert p[m] == p[start..dot][m - start];
      }
    }
    forall j, k | 0 <= j < k < |p| && p[j] != '.' && p[k] == '.'
      ensures '/' in p[j..]
    {
      assert p[j..][start - 1 - j] == '/';
    }
  }

  /** The names `save_json_with_index` tries after `name`, for index j:
      `f"{base}_{j}{ext}"`, always from the original base. */
  function Candidate(name: string, j: nat): string {
    Indexed(SplitExt(name).0 + "_", j, SplitExt(name).1)
  }

  /** `save_json_with_index`'s choice among the names already in the folder:
      the name itself when free, else the candidate of the smallest free
      index from 1. */
  function ChooseFileName(name: string, existing: set<string>): (r: string)
    ensures r !in existing
    ensures name !in existing ==> r == name
    ensures name in existing ==>
      exists k: nat :: k >= 1 && r == Candidate(name, k) &&
        forall j :: 1 <= j < k ==> Candidate(name, j) in existing
  {
    if name !in existing then name
    else
      var base, ext := SplitExt(name).0, SplitExt(name).1;
      var k := FirstFree(base + "_", ext, existing, 1);
      assert Indexed(base + "_", k, ext) == Candidate(name, k);
      Indexed(base + "_", k, ext)
  }

  /** The extension is taken from the last dot. */
  lemma SplitExtExample()
    ensures SplitExt("stats.json") == ("stats", ".json")
  {
    var p := "stats.json";
    assert forall k :: 0 <= k < |p| && k != 5 ==> p[k] != '.';
    assert forall k :: 0 <= k < |p| ==> p[k] != '/';
    assert LastIndexOf(p, '.') == Some(5);
    assert LastIndexOf(p, '/') == None;
    assert p[0..5] == "stats" && p[0] == 's';
  }

  /** A leading dot does not start an extension. */
  lemma SplitExtHiddenFile()
    ensures SplitExt(".json") == (".json", "")
  {
    var p := ".json";
    assert forall k :: 1 <= k < |p| ==> p[k] != '.';
    assert '/' !in p;
    assert LastIndexOf(p, '.') == Some(0);
    assert AllDots(p[0..0]);
  }

  /** Only the last dot separates the extension. */
  lemma SplitExtTwoDots()
    ensures SplitExt("a.b.json") == ("a.b", ".json")
  {
    var p := "a.b.json";
    assert forall k :: 3 < k < |p| ==> p[k] != '.';
    assert forall k :: 0 <= k < |p| ==> p[k] != '/';
    assert LastIndexOf(p, '.') == Some(3);
    assert LastIndexOf(p, '/') == None;
    assert p[0..3] == "a.b" && p[0] == 'a';
  }

  /** With the name and its first candidate taken, the second candidate is
      chosen: indices are not stacked onto earlier candidates. */
  lemma SecondCandidateAfterTwoClashes(name: string)
    ensures ChooseFileName(name, {name, Candidate(name, 1)}) == Candidate(name, 2)
  {
    var existing := {name, Candidate(name, 1)};
    var base, ext := SplitExt(name).0, SplitExt(name).1;
    var r := ChooseFileName(name, existing);
    var k: nat :| k >= 1 && r == Candidate(name, k) &&
                  forall j :: 1 <= j < k ==> Candidate(name, j) in existing;
    assert |Candidate(name, 2)| > |name|;
    if k == 1 {
      assert false;
    }
    if k > 2 {
      assert Candidate(name, 2) in existing;
      if Candidate(name, 2) == Candidate(name, 1) {
        IndexedInjective(base + "_", 2, 1, ext);
      }
      assert false;
    }
  }

  lemma CandidateExample()
    ensures Candidate("stats.json", 2) == "stats_2.json"
  {
    SplitExtExample();
    assert DecimalString(2) == "2";
    StatsTwoName();
  }

  /** The pieces of the expected name, joined. */
  lemma StatsTwoName()
    ensures "stats" + "_" + "2" + ".json" == "stats_2.json"
  {
  }

  // ---------------------------------------------------------------------------
  // The driver loop

  /** The answer to the interaction prompt, which only offers these two. */
  datatype InteractionChoice = Attract | Repel {
    function Name(): string {
      match this
      case Attract => "attract"
      case Repel => "repel"
    }
  }

  /** The interaction is asked for, and set with `set_interaction`, only when
      there is more than one walker; the loaded simulation has none yet. Only
      the two values `set_interaction` accepts can be chosen, so it never
      refuses, and the simulation it configures can raise while running only
      through weights `random.choices` refuses. */
  function ConfigureInteraction(s: Sim, choice: Option<InteractionChoice>): (r: Sim)
    requires Valid(s) && s.interaction.None?
    ensures Valid(r) && r.names == s.names && r.walkers == s.walkers
    ensures CannotCrash(r) <==> AllCanMove(s)
    ensures |s.names| > 1 && choice.Some? ==> r.interaction == Some(choice.value.Name())
    ensures |s.names| <= 1 || choice.None? ==> r == s
    ensures r.interaction.Some? <==> |s.names| > 1 && choice.Some?
  {
    if |s.names| > 1 && choice.Some? then
      match SetInteraction(s, Some(choice.value.Name()))
      case Ok(t) => t
      case Err(_) => assert false; s
    else s
  }

  /** Every walker's table of records is empty, as registration and `reset`
      leave it. */
  predicate TablesEmpty(s: Sim)
    requires Valid(s)
  {
    forall n :: n in s.walkers ==> s.total[n] == map[]
  }

  /** Walker n's run i in the statistics is `run`. */
  predicate ExportedAs(stats: Totals, n: string, i: int, run: Run) {
    n in stats && i in stats[n] && stats[n][i] == run
  }

  /** The runs found in `after` and not in `before` carry indices from i to
      count. */
  predicate AddsOnlyWithin(before: Totals, after: Totals, i: int, count: int) {
    forall n, j :: n in after && j in after[n] ==> (n in before && j in before[n]) || i <= j <= count
  }

  /** Runs stored outside the indices i to count are left as they were. */
  predicate KeepsOutside(before: Totals, after: Totals, i: int, count: int) {
    forall n, j :: n in before && j in before[n] && !(i <= j <= count) ==>
      n in after && j in after[n] && after[n][j] == before[n][j]
  }

  /** One turn of `main`'s loop, for simulation i: run; export the tables
      under i when the run completes; reset in every case. A run that raises
      stops the program. */
  function Turn(s: Sim, stats: Totals, o: Oracle, i: int): (r: Result<(Sim, Totals)>)
    requires Valid(s)
    ensures r.Ok? ==> Valid(r.value.0) && SameSetup(s, r.value.0) && r.value.0.names == s.names
    ensures r.Ok? ==> TablesEmpty(r.value.0)
    ensures r.Ok? ==> PoliciesKept(s, r.value.0)
    ensures r.Err? ==> r.error.ValueError?
    ensures CannotCrash(s) ==> r.Ok?
    ensures r.Ok? ==> r.value.1.Keys <= stats.Keys + s.walkers.Keys
    ensures Populated(stats) && r.Ok? ==> Populated(r.value.1)
  {
    match RunSimulation(s, o)
    case Crashed(e) => Err(e)
    case Aborted(t) =>
      KeptChain(s, t, Running(Reset(t), 0));
      Ok((Reset(t), stats))
    case Running(t, _) =>
      KeptChain(s, t, Running(Reset(t), 0));
      Ok((Reset(t), LoadToDict(stats, t.total, i)))
  }

  /** A turn adds runs under its own index only, and keeps every other run. */
  lemma TurnTouchesOnlyItsIndex(s: Sim, stats: Totals, o: Oracle, i: int)
    requires Valid(s) && Turn(s, stats, o, i).Ok?
    ensures AddsOnlyWithin(stats, Turn(s, stats, o, i).value.1, i, i)
    ensures KeepsOutside(stats, Turn(s, stats, o, i).value.1, i, i)
  {
    var run := RunSimulation(s, o);
    if run.Running? {
      LoadTouchesOnlyItsIndex(stats, run.sim.total, i);
    }
  }

  lemma LoadTouchesOnlyItsIndex(stats: Totals, d: map<string, Run>, i: int)
    ensures AddsOnlyWithin(stats, LoadToDict(stats, d, i), i, i)
    ensures KeepsOutside(stats, LoadToDict(stats, d, i), i, i)
  {
  }

  /** A simulation that stops early is not exported. */
  lemma AbortedRunNotExported(s: Sim, stats: Totals, o: Oracle, i: int)
    requires Valid(s) && RunSimulation(s, o).Aborted?
    ensures Turn(s, stats, o, i).Ok? && Turn(s, stats, o, i).value.1 == stats
  {
  }

  /** A completed simulation is exported under its index, whatever was stored
      there. */
  lemma CompletedRunExported(s: Sim, stats: Totals, o: Oracle, i: int)
    requires Valid(s) && RunSimulation(s, o).Running?
    ensures Turn(s, stats, o, i).Ok?
    ensures forall n :: n in s.walkers ==> ExportedAs(Turn(s, stats, o, i).value.1, n, i, RunSimulation(s, o).sim.total[n])
  {
    var t := RunSimulation(s, o).sim;
    assert s.walkers.Keys <= t.total.Keys;
  }

  /** Walker n has a run j of the steps 1 to len. */
  predicate CompleteRun(stats: Totals, n: string, j: int, len: int) {
    n in stats && j in stats[n] && stats[n][j].Keys == StepRange(1, len)
  }

  /** With no obstacles, nothing that can raise and empty tables, a turn
      exports for every walker a run of the steps 1 to numMoves. */
  lemma UnobstructedTurnExportsFullRun(s: Sim, stats: Totals, o: Oracle, i: int)
    requires Valid(s) && s.obstacles == [] && CannotCrash(s) && TablesEmpty(s)
    ensures Turn(s, stats, o, i).Ok?
    ensures forall n :: n in s.walkers ==> CompleteRun(Turn(s, stats, o, i).value.1, n, i, s.numMoves)
  {
    UnobstructedRunRecordsEveryStep(s, o);
    CompletedRunExported(s, stats, o, i);
  }

  /** The loop of `main` from simulation i to count. */
  function RunAll(s: Sim, stats: Totals, oracles: int -> Oracle, i: int, count: int): (r: Result<(Sim, Totals)>)
    requires Valid(s) && i >= 1
    ensures r.Ok? ==> Valid(r.value.0) && SameSetup(s, r.value.0) && r.value.0.names == s.names
    ensures r.Err? ==> r.error.ValueError?
    ensures r.Ok? ==> r.value.1.Keys <= stats.Keys + s.walkers.Keys
    ensures Populated(stats) && r.Ok? ==> Populated(r.value.1)
    decreases count - i + 1
  {
    if i > count then Ok((s, stats))
    else
      match Turn(s, stats, oracles(i), i)
      case Err(e) => Err(e)
      case Ok((t, next)) => RunAll(t, next, oracles, i + 1, count)
  }

  lemma RunAllStep(s: Sim, stats: Totals, oracles: int -> Oracle, i: int, count: int)
    requires Valid(s) && 1 <= i <= count && Turn(s, stats, oracles(i), i).Ok?
    ensures var next := Turn(s, stats, oracles(i), i).value;
            RunAll(s, stats, oracles, i, count) == RunAll(next.0, next.1, oracles, i + 1, count)
  {
  }

  /** With no interaction or someone to interact with, and every walker able to
      move wherever it stands, the loop never raises. */
  lemma {:induction false} LoopWithoutCrashFinishes(s: Sim, stats: Totals, oracles: int -> Oracle, i: int, count: int)
    requires Valid(s) && i >= 1 && CannotCrash(s)
    ensures RunAll(s, stats, oracles, i, count).Ok?
    decreases count - i + 1
  {
    if i <= count {
      var next := Turn(s, stats, oracles(i), i).value;
      RunAllStep(s, stats, oracles, i, count);
      KeptCannotCrash(s, next.0);
      LoopWithoutCrashFinishes(next.0, next.1, oracles, i + 1, count);
    }
  }

  lemma AddsOnlyWithinChain(a: Totals, b: Totals, c: Totals, i: int, count: int)
    requires i <= count
    requires AddsOnlyWithin(a, b, i, i) && AddsOnlyWithin(b, c, i + 1, count)
    ensures AddsOnlyWithin(a, c, i, count)
  {
    forall n, j | n in c && j in c[n]
      ensures (n in a && j in a[n]) || i <= j <= count
    {
      assert (n in b && j in b[n]) || i + 1 <= j <= count;
    }
  }

  /** The runs a loop from i to count adds to the statistics carry indices in
      that range. */
  lemma {:induction false} RunAllExportsWithin(s: Sim, stats: Totals, oracles: int -> Oracle, i: int, count: int)
    requires Valid(s) && i >= 1 && RunAll(s, stats, oracles, i, count).Ok?
    ensures AddsOnlyWithin(stats, RunAll(s, stats, oracles, i, count).value.1, i, count)
    decreases count - i + 1
  {
    if i <= count {
      var next := Turn(s, stats, oracles(i), i).value;
      RunAllStep(s, stats, oracles, i, count);
      TurnTouchesOnlyItsIndex(s, stats, oracles(i), i);
      RunAllExportsWithin(next.0, next.1, oracles, i + 1, count);
      AddsOnlyWithinChain(stats, next.1, RunAll(s, stats, oracles, i, count).value.1, i, count);
    }
  }

  lemma KeepsOutsideChain(a: Totals, b: Totals, c: Totals, i: int, count: int)
    requires i <= count
    requires KeepsOutside(a, b, i, i) && KeepsOutside(b, c, i + 1, count)
    ensures KeepsOutside(a, c, i, count)
  {
  }

  /** A loop from i to count leaves the runs stored under other indices as
      they were. */
  lemma {:induction false} RunAllKeepsOtherRuns(s: Sim, stats: Totals, oracles: int -> Oracle, i: int, count: int)
    requires Valid(s) && i >= 1 && RunAll(s, stats, oracles, i, count).Ok?
    ensures KeepsOutside(stats, RunAll(s, stats, oracles, i, count).value.1, i, count)
    decreases count - i + 1
  {
    if i <= count {
      var next := Turn(s, stats, oracles(i), i).value;
      RunAllStep(s, stats, oracles, i, count);
      TurnTouchesOnlyItsIndex(s, stats, oracles(i), i);
      RunAllKeepsOtherRuns(next.0, next.1, oracles, i + 1, count);
      KeepsOutsideChain(stats, next.1, RunAll(s, stats, oracles, i, count).value.1, i, count);
    }
  }

  /** Every walker of `names` has a run under each index from `from` to count,
      holding the records of steps 1 to len. */
  predicate EveryRunComplete(stats: Totals, names: set<string>, from: int, count: int, len: int) {
    forall n, j :: n in names && from <= j <= count ==> CompleteRun(stats, n, j, len)
  }

  /** Runs complete from i + 1 on, a complete run i, and run i kept give runs
      complete from i on. */
  lemma CompleteFromIndex(mid: Totals, out: Totals, names: set<string>, i: int, count: int, len: int)
    requires forall n :: n in names ==> CompleteRun(mid, n, i, len)
    requires KeepsOutside(mid, out, i + 1, count)
    requires EveryRunComplete(out, names, i + 1, count, len)
    ensures EveryRunComplete(out, names, i, count, len)
  {
    forall n, j | n in names && i <= j <= count
      ensures CompleteRun(out, n, j, len)
    {
      if j == i {
        assert CompleteRun(mid, n, i, len);
      }
    }
  }

  /** With no obstacles and nothing that can raise, every simulation of the
      loop completes and is exported in full. */
  lemma {:induction false} UnobstructedLoopExportsEveryRun(s: Sim, stats: Totals, oracles: int -> Oracle, i: int, count: int)
    requires Valid(s) && i >= 1 && s.obstacles == [] && CannotCrash(s) && TablesEmpty(s)
    ensures RunAll(s, stats, oracles, i, count).Ok?
    ensures EveryRunComplete(RunAll(s, stats, oracles, i, count).value.1, s.walkers.Keys, i, count, s.numMoves)
    decreases count - i + 1
  {
    if i <= count {
      UnobstructedTurnExportsFullRun(s, stats, oracles(i), i);
      var next := Turn(s, stats, oracles(i), i).value;
      RunAllStep(s, stats, oracles, i, count);
      KeptCannotCrash(s, next.0);
      UnobstructedLoopExportsEveryRun(next.0, next.1, oracles, i + 1, count);
      RunAllKeepsOtherRuns(next.0, next.1, oracles, i + 1, count);
      CompleteFromIndex(next.1, RunAll(s, stats, oracles, i, count).value.1, s.walkers.Keys, i, count, s.numMoves);
    }
  }

  /** Runs that are complete for the indices 1 to count, and are the only
      runs there are, fill the statistics exactly. */
  lemma CompleteRunsFill(stats: Totals, names: set<string>, count: int, len: int)
    requires count >= 1 && stats.Keys <= names
    requires AddsOnlyWithin(map[], stats, 1, count)
    requires EveryRunComplete(stats, names, 1, count, len)
    ensures Populated(stats) && stats.Keys == names
    ensures forall n :: n in stats ==> stats[n].Keys == StepRange(1, count)
    ensures forall n, j :: n in stats && j in stats[n] ==> stats[n][j].Keys == StepRange(1, len)
  {
    var empty: Totals := map[];
    forall n | n in names
      ensures n in stats && 1 in stats[n]
    {
      assert CompleteRun(stats, n, 1, len);
    }
    forall n | n in stats
      ensures stats[n].Keys == StepRange(1, count)
    {
      forall j | j in stats[n]
        ensures 1 <= j <= count
      {
        assert n !in empty;
      }
      forall j | 1 <= j <= count
        ensures j in stats[n]
      {
        assert CompleteRun(stats, n, j, len);
      }
    }
    forall n, j | n in stats && j in stats[n]
      ensures stats[n][j].Keys == StepRange(1, len)
    {
      assert n !in empty;
      assert CompleteRun(stats, n, j, len);
    }
  }

  /** `main` with statistics starting empty, no obstacles and nothing that can
      raise: the loop of count >= 1 simulations ends with every walker having
      the runs 1 to count, each holding the steps 1 to numMoves. */
  lemma UnobstructedLoopFillsStatistics(s: Sim, oracles: int -> Oracle, count: nat)
    requires Valid(s) && s.obstacles == [] && CannotCrash(s) && TablesEmpty(s) && count >= 1
    ensures RunAll(s, map[], oracles, 1, count).Ok?
    ensures var stats := RunAll(s, map[], oracles, 1, count).value.1;
            Populated(stats) && stats.Keys == s.walkers.Keys &&
            (forall n :: n in stats ==> stats[n].Keys == StepRange(1, count)) &&
            forall n, j :: n in stats && j in stats[n] ==> stats[n][j].Keys == StepRange(1, s.numMoves)
  {
    UnobstructedLoopExportsEveryRun(s, map[], oracles, 1, count);
    RunAllExportsWithin(s, map[], oracles, 1, count);
    CompleteRunsFill(RunAll(s, map[], oracles, 1, count).value.1, s.walkers.Keys, count, s.numMoves);
  }

  /** After such a loop the per-step averages exist for every walker and cover
      the steps 1 to numMoves. */
  lemma UnobstructedAveragesCoverEveryStep(s: Sim, oracles: int -> Oracle, count: nat, m: Measure)
    requires Valid(s) && s.obstacles == [] && CannotCrash(s) && TablesEmpty(s) && count >= 1
    ensures RunAll(s, map[], oracles, 1, count).Ok?
    ensures Populated(RunAll(s, map[], oracles, 1, count).value.1)
    ensures var stats := RunAll(s, map[], oracles, 1, count).value.1;
            var avg := AverageWalkerDistance(stats, m);
            avg.Ok? && avg.value.Keys == s.walkers.Keys &&
            forall n :: n in stats ==> avg.value[n].Keys == StepRange(1, s.numMoves)
  {
    UnobstructedLoopFillsStatistics(s, oracles, count);
    var stats := RunAll(s, map[], oracles, 1, count).value.1;
    var len: nat := ClampAtZero(s.numMoves);
    assert StepRange(1, len) == StepRange(1, s.numMoves);
    assert forall n :: n in stats ==> Aligned(stats[n], len);
    AlignedOk(stats, m, len);
  }

  // ---------------------------------------------------------------------------
  // The escape times the loop exports

  /** Every run stored in the statistics shows a single escape time. */
  ghost predicate RunsFrozen(stats: Totals) {
    forall n :: n in stats ==> AllFrozen(stats[n])
  }

  ghost predicate AllFrozen(runs: Runs) {
    forall j :: j in runs ==> Frozen(runs[j])
  }

  /** A completed run leaves, for every walker, records that all show the one
      escape time the walker holds at the end. */
  lemma CompletedRunFrozen(s: Sim, o: Oracle)
    requires Valid(s) && TimesFrozen(s) && RunSimulation(s, o).Running?
    ensures forall n :: n in s.walkers ==> Frozen(RunSimulation(s, o).sim.total[n])
  {
    RunStepsFreezes(s, o, 0, 1);
    var t := RunSimulation(s, o).sim;
    forall n | n in s.walkers
      ensures Frozen(t.total[n])
    {
      assert n in s.names;
      assert RecordsShow(t.total[n], t.walkers[n].escaped, t.escapeTimes[n]);
      FrozenAt(t.total[n], t.escapeTimes[n]);
    }
  }

  /** A turn exports only runs that show a single escape time, and leaves the
      simulation with empty, so frozen, records. */
  lemma TurnKeepsRunsFrozen(s: Sim, stats: Totals, o: Oracle, i: int)
    requires Valid(s) && TimesFrozen(s) && RunsFrozen(stats) && Turn(s, stats, o, i).Ok?
    ensures TimesFrozen(Turn(s, stats, o, i).value.0)
    ensures RunsFrozen(Turn(s, stats, o, i).value.1)
  {
    match RunSimulation(s, o)
    case Crashed(_) =>
    case Aborted(t) =>
      ResetFreezes(t);
    case Running(t, _) =>
      ResetFreezes(t);
      CompletedRunFrozen(s, o);
      assert t.total.Keys == s.walkers.Keys;
      LoadKeepsRunsFrozen(stats, t.total, i);
  }

  lemma LoadKeepsRunsFrozen(stats: Totals, d: map<string, Run>, i: int)
    requires RunsFrozen(stats) && forall n :: n in d ==> Frozen(d[n])
    ensures RunsFrozen(LoadToDict(stats, d, i))
  {
    var r := LoadToDict(stats, d, i);
    forall n, j | n in r && j in r[n]
      ensures Frozen(r[n][j])
    {
      if n in d && j != i {
        assert r[n][j] == stats[n][j];
      }
    }
  }

  /** Every turn that finishes keeps `inv` of the simulation and statistics. */
  ghost predicate TurnsKeep(inv: (Sim, Totals) -> bool) {
    forall t, stats, o, i :: Valid(t) && inv(t, stats) && Turn(t, stats, o, i).Ok? ==>
      inv(Turn(t, stats, o, i).value.0, Turn(t, stats, o, i).value.1)
  }

  /** A loop that raised, or finished holding `inv`. */
  predicate Ends(inv: (Sim, Totals) -> bool, r: Result<(Sim, Totals)>) {
    r.Ok? ==> inv(r.value.0, r.value.1)
  }

  /** What every turn keeps, a loop that finishes keeps. */
  lemma {:induction false} LoopKeeps(inv: (Sim, Totals) -> bool, s: Sim, stats: Totals, oracles: int -> Oracle, i: int, count: int)
    ensures Valid(s) && i >= 1 && inv(s, stats) && TurnsKeep(inv) ==> Ends(inv, RunAll(s, stats, oracles, i, count))
    decreases if i <= count then count - i + 1 else 0
  {
    var more, t, next := KeptByTurn(inv, s, stats, oracles, i, count);
    if more {
      LoopKeeps(inv, t, next, oracles, i + 1, count);
    }
  }

  /** Either the loop is over or has raised, or one turn hands the next turn
      a simulation and statistics that still hold `inv`. */
  lemma KeptByTurn(inv: (Sim, Totals) -> bool, s: Sim, stats: Totals, oracles: int -> Oracle, i: int, count: int)
    returns (more: bool, t: Sim, next: Totals)
    ensures !more ==> (Valid(s) && i >= 1 && inv(s, stats) && TurnsKeep(inv) ==> Ends(inv, RunAll(s, stats, oracles, i, count)))
    ensures more ==> 1 <= i <= count && Valid(t) && inv(t, next) && TurnsKeep(inv)
    ensures more ==> Valid(s) && RunAll(s, stats, oracles, i, count) == RunAll(t, next, oracles, i + 1, count)
  {
    more, t, next := false, s, stats;
    if Valid(s) && i >= 1 && inv(s, stats) && TurnsKeep(inv) && i <= count && Turn(s, stats, oracles(i), i).Ok? {
      more, t, next := true, Turn(s, stats, oracles(i), i).value.0, Turn(s, stats, oracles(i), i).value.1;
      RunAllStep(s, stats, oracles, i, count);
    }
  }

  /** A simulation and statistics whose records are all frozen. */
  ghost predicate FrozenState(s: Sim, stats: Totals) {
    TimesFrozen(s) && RunsFrozen(stats)
  }

  /** Every turn keeps the records and the statistics frozen. */
  lemma TurnsKeepFrozen()
    ensures TurnsKeep(FrozenState)
  {
    forall t, stats, o, i | Valid(t) && FrozenState(t, stats) && Turn(t, stats, o, i).Ok?
      ensures FrozenState(Turn(t, stats, o, i).value.0, Turn(t, stats, o, i).value.1)
    {
      TurnKeepsRunsFrozen(t, stats, o, i);
    }
  }

  /** A loop that starts from frozen records and statistics and finishes
      exports only frozen runs. */
  lemma LoopRunsFrozen(s: Sim, stats: Totals, oracles: int -> Oracle, i: int, count: int)
    requires Valid(s) && i >= 1 && TimesFrozen(s) && RunsFrozen(stats)
    requires RunAll(s, stats, oracles, i, count).Ok?
    ensures RunsFrozen(RunAll(s, stats, oracles, i, count).value.1)
  {
    TurnsKeepFrozen();
    LoopKeeps(FrozenState, s, stats, oracles, i, count);
    assert Ends(FrozenState, RunAll(s, stats, oracles, i, count));
  }

  /** `main`'s loop from fresh statistics, then `average_escape_time`: a walker
      that escaped in some exported run averages, over the runs in which it
      escaped, the escape time each of those runs recorded. */
  lemma LoopAverageEscapeTime(s: Sim, oracles: int -> Oracle, count: int, n: string)
    requires Valid(s) && TimesFrozen(s) && RunAll(s, map[], oracles, 1, count).Ok?
    requires n in RunAll(s, map[], oracles, 1, count).value.1
    requires Successful(RunAll(s, map[], oracles, 1, count).value.1[n],
                        RunAll(s, map[], oracles, 1, count).value.1[n].Keys) != {}
    ensures AverageEscapeTime(RunAll(s, map[], oracles, 1, count).value.1)[n].0 ==
      EscapedTotal(RunAll(s, map[], oracles, 1, count).value.1[n],
                   RunAll(s, map[], oracles, 1, count).value.1[n].Keys,
                   FrozenTimes(RunAll(s, map[], oracles, 1, count).value.1[n])) /
      (|Successful(RunAll(s, map[], oracles, 1, count).value.1[n],
                   RunAll(s, map[], oracles, 1, count).value.1[n].Keys)| as real)
  {
    var empty: Totals := map[];
    LoopRunsFrozen(s, empty, oracles, 1, count);
    FrozenRunsAverage(RunAll(s, empty, oracles, 1, count).value.1, n);
  }
}

=== FILE: simulation.dfy ===
/** The simulation engine: walker registration, the per-step pipeline
    (choose a move, apply terrain, re-roll on collision, teleport through gates,
    check escape, count y-axis crossings, record) and reset.

    The engine is a value: every operation returns the updated simulation.
    Random draws, square roots, the bearing step of an interaction move and the
    shapely segment-versus-polygon test are supplied by an `Oracle`. */
module Simulation {
  import opened Common
  import opened Terrains
  import opened Walkers

  /** Re-rolls allowed for one walker in one step before the run is abandoned. */
  const MaxCollisionAttempts: nat := 1000

  /** Probability at or below which an interaction move replaces the walker's own move. */
  const InteractionThreshold: real := 0.2

  /** The random values one call of `choose_move` consumes: `random.random()`,
      the `random.uniform(0.5, 1.5)` distance of a RandomDistanceWalker, and the
      draws of the walker's own `move`. */
  datatype Draw = Draw(prob: real, distance: real, move: MoveDraw)

  /** Everything the model takes as given rather than computing:
      - `draw(t)` is what the t-th call of `choose_move` in a run draws;
      - `sqrt` is `math.sqrt` (and `** 0.5`);
      - `meets(a, b, r)` is `LineString([a, b]).intersects(polygon of r)`;
      - `bearingStep(from, to, snap, d)` is (d·cos θ, d·sin θ) for the angle θ
        from `from` towards `to`, rounded to a multiple of π/2 when `snap`. */
  datatype Oracle = Oracle(
    draw: nat -> Draw,
    sqrt: real -> real,
    meets: (Vec, Vec, Rect) -> bool,
    bearingStep: (Vec, Vec, bool, real) -> Vec)

  /** The Python value handed to one of the `add_*` methods. */
  datatype PyObject =
    | WalkerObject(walker: Walker)
    | ObstacleObject(rect: Rect)
    | TileObject(kind: TerrainKind, rect: Rect)
    | GateObject(gate: Gate)
    | OtherObject

  /** The state of a `Simulation`. `names` is the insertion order of the
      walkers dictionary, the order every loop over walkers follows. */
  datatype Sim = Sim(
    numMoves: int,
    names: seq<string>,
    walkers: map<string, Walker>,
    obstacles: seq<Rect>,
    gates: seq<Gate>,
    waters: seq<Rect>,
    sands: seq<Rect>,
    grasses: seq<Rect>,
    escapeTimes: map<string, Option<int>>,
    crossesY: map<string, int>,
    total: map<string, map<int, Record>>,
    interaction: Option<string>)

  predicate Distinct(names: seq<string>) {
    forall i, j :: 0 <= i < j < |names| ==> names[i] != names[j]
  }

  /** The four per-walker dictionaries share their keys, and those keys are the
      names, each listed once. */
  predicate Valid(s: Sim) {
    Distinct(s.names) &&
    s.walkers.Keys == (set n | n in s.names) &&
    s.escapeTimes.Keys == s.walkers.Keys &&
    s.crossesY.Keys == s.walkers.Keys &&
    s.total.Keys == s.walkers.Keys
  }

  /** The same objects on the plane, move count and interaction. */
  predicate SameSetup(s: Sim, t: Sim) {
    t.numMoves == s.numMoves && t.obstacles == s.obstacles && t.gates == s.gates &&
    t.waters == s.waters && t.sands == s.sands && t.grasses == s.grasses &&
    t.interaction == s.interaction
  }

  /** `Simulation(num_moves)`: nothing registered, no interaction. */
  function NewSim(numMoves: int): (s: Sim)
    ensures Valid(s) && s.names == [] && s.interaction.None? && s.numMoves == numMoves
  {
    Sim(numMoves, [], map[], [], [], [], [], [], map[], map[], map[], None)
  }

  // ---------------------------------------------------------------------------
  // Configuration

  /** `set_interaction`: any non-empty value other than "attract" or "repel" is
      refused with ValueError; None and the empty string are accepted as they are. */
  function SetInteraction(s: Sim, interaction: Option<string>): (r: Result<Sim>)
    ensures r.Err? <==>
      interaction.Some? && interaction.value != "" &&
      interaction.value != "attract" && interaction.value != "repel"
    ensures r.Err? ==> r.error.ValueError?
    ensures r.Ok? ==> (r.value.interaction == interaction &&
                       r.value == s.(interaction := r.value.interaction))
  {
    if interaction.Some? && interaction.value != "" && interaction.value !in ["attract", "repel"]
    then Err(ValueError("Interaction type must be either 'attract' or 'repel'."))
    else Ok(s.(interaction := interaction))
  }

  /** `add_walker`: name the walker after its class with the smallest index from 1
      that is not in use, and give it an empty history. */
  function AddWalker(s: Sim, obj: PyObject): (r: Result<Sim>)
    requires Valid(s)
    ensures r.Err? <==> !obj.WalkerObject?
    ensures r.Err? ==> r.error.TypeError?
    ensures r.Ok? ==> Valid(r.value) && SameSetup(s, r.value)
    ensures r.Ok? ==>
      var prefix := ClassName(obj.walker.policy);
      |r.value.names| == |s.names| + 1 && r.value.names[..|s.names|] == s.names &&
      var name := r.value.names[|s.names|];
      name !in s.walkers &&
      (exists k: nat :: k >= 1 && name == Indexed(prefix, k, "") &&
         forall j :: 1 <= j < k ==> Indexed(prefix, j, "") in s.walkers) &&
      r.value.walkers == s.walkers[name := obj.walker] &&
      r.value.escapeTimes == s.escapeTimes[name := None] &&
      r.value.crossesY == s.crossesY[name := -1] &&
      r.value.total == s.total[name := map[]]
  {
    if !obj.WalkerObject? then Err(TypeError("The walker must be an instance of the Walker class."))
    else
      var prefix := ClassName(obj.walker.policy);
      var k := FirstFree(prefix, "", s.walkers.Keys, 1);
      var name := Indexed(prefix, k, "");
      Ok(s.(names := s.names + [name],
            walkers := s.walkers[name := obj.walker],
            escapeTimes := s.escapeTimes[name := None],
            crossesY := s.crossesY[name := -1],
            total := s.total[name := map[]]))
  }

  /** `add_obstacle`: only an Obstacle is accepted; it goes to the end of the list. */
  function AddObstacle(s: Sim, obj: PyObject): (r: Result<Sim>)
    ensures r.Err? <==> !obj.ObstacleObject?
    ensures r.Err? ==> r.error.TypeError?
    ensures r.Ok? ==> r.value.obstacles == s.obstacles + [obj.rect] &&
                      r.value == s.(obstacles := r.value.obstacles)
  {
    if obj.ObstacleObject? then Ok(s.(obstacles := s.obstacles + [obj.rect]))
    else Err(TypeError("The obstacle must be an instance of the Obstacle class."))
  }

  /** `add_enchanted_gate`: only an EnchantedGate is accepted. */
  function AddGate(s: Sim, obj: PyObject): (r: Result<Sim>)
    ensures r.Err? <==> !obj.GateObject?
    ensures r.Err? ==> r.error.TypeError?
    ensures r.Ok? ==> r.value.gates == s.gates + [obj.gate] &&
                      r.value == s.(gates := r.value.gates)
  {
    if obj.GateObject? then Ok(s.(gates := s.gates + [obj.gate]))
    else Err(TypeError("The enchanted gate must be an instance of the EnchantedGate class."))
  }

  /** `add_water`, `add_sand` and `add_grass`: only a tile of the matching class
      is accepted, and it goes to the end of that class's list. */
  function AddTile(s: Sim, kind: TerrainKind, obj: PyObject): (r: Result<Sim>)
    ensures r.Err? <==> !(obj.TileObject? && obj.kind == kind)
    ensures r.Err? ==> r.error.TypeError?
    ensures r.Ok? ==> TilesOf(r.value, kind) == TilesOf(s, kind) + [obj.rect]
    ensures r.Ok? ==> forall k :: k != kind ==> TilesOf(r.value, k) == TilesOf(s, k)
    ensures r.Ok? ==> r.value == s.(waters := r.value.waters, sands := r.value.sands, grasses := r.value.grasses)
  {
    if !(obj.TileObject? && obj.kind == kind) then Err(TypeError("The terrain must be an instance of its class."))
    else match kind
      case Water => Ok(s.(waters := s.waters + [obj.rect]))
      case Sand => Ok(s.(sands := s.sands + [obj.rect]))
      case Grass => Ok(s.(grasses := s.grasses + [obj.rect]))
  }

  function TilesOf(s: Sim, kind: TerrainKind): seq<Rect> {
    match kind
    case Water => s.waters
    case Sand => s.sands
    case Grass => s.grasses
  }

  // ---------------------------------------------------------------------------
  // Choosing a move

  /** The current location of every walker, in name order. */
  function Positions(s: Sim): (ps: seq<Vec>)
    requires Valid(s)
    ensures |ps| == |s.names|
    ensures forall i :: 0 <= i < |s.names| ==> ps[i] == s.walkers[s.names[i]].pos
  {
    seq(|s.names|, i requires 0 <= i < |s.names| => s.walkers[s.names[i]].pos)
  }

  /** No index below n other than `me`. */
  predicate NoOther(n: nat, me: int) {
    n == 0 || (n == 1 && me == 0)
  }

  /** The distance `locate_nearest_walker` computes from `from` to walker j. */
  function DistanceTo(ps: seq<Vec>, j: nat, from: Vec, o: Oracle): real
    requires j < |ps|
  {
    o.sqrt(SquaredDistance(ps[j], from))
  }

  /** `locate_nearest_walker` over the first n walkers: skip the walker itself at
      index `me`, keep the first strictly smaller distance. */
  function NearestAmong(ps: seq<Vec>, me: int, from: Vec, o: Oracle, n: nat): (r: Option<nat>)
    requires n <= |ps|
    ensures r.None? <==> NoOther(n, me)
    ensures r.Some? ==> r.value < n && r.value != me
    ensures r.Some? ==> forall j :: 0 <= j < n && j != me ==>
      DistanceTo(ps, j, from, o) >= DistanceTo(ps, r.value, from, o)
    ensures r.Some? ==> forall j :: 0 <= j < r.value && j != me ==>
      DistanceTo(ps, j, from, o) > DistanceTo(ps, r.value, from, o)
  {
    if n == 0 then None
    else
      var best := NearestAmong(ps, me, from, o, n - 1);
      var j := n - 1;
      if j == me then best
      else if best.None? || DistanceTo(ps, j, from, o) < DistanceTo(ps, best.value, from, o) then
        Some(j)
      else best
  }

  /** The walker at index `me`, standing at `from`: the nearest other walker, or
      ValueError when there is none. */
  function LocateNearest(s: Sim, me: nat, from: Vec, o: Oracle): (r: Result<nat>)
    requires Valid(s)
    ensures r.Err? <==> NoOther(|s.names|, me)
    ensures r.Err? ==> r.error.ValueError?
    ensures r.Ok? ==> r.value < |s.names| && r.value != me
    ensures r.Ok? ==> r == Ok(NearestAmong(Positions(s), me, from, o, |s.names|).value)
  {
    match NearestAmong(Positions(s), me, from, o, |s.names|)
    case None => Err(ValueError("No other walkers in the simulation."))
    case Some(j) => Ok(j)
  }

  /** The length `angle_to_origin_distance_1` divides by. */
  function LengthToOrigin(w: Walker, o: Oracle): real {
    o.sqrt(w.pos.NormSquared())
  }

  /** The walker's own `move` with the t-th draw; it fails as `random.choices`
      does for a DirectionalBiasWalker whose weights in use it refuses. */
  function OwnMove(w: Walker, o: Oracle, tick: nat): Result<Walker> {
    Move(w, o.draw(tick).move, LengthToOrigin(w, o))
  }

  /** The step an interaction move takes toward the nearest walker; every class
      but UnitWalker has it snapped to an axis direction. */
  function InteractionStep(w: Walker, target: Vec, d: Draw, o: Oracle): Vec {
    var distance := if w.policy.RandomDistance? then d.distance else 1.0;
    o.bearingStep(w.pos, target, !w.policy.Unit?, distance)
  }

  /** `choose_move` for the walker at index `me` (whose current value is `w`),
      consuming draw number `tick`. Without an interaction the walker makes its
      own move. With one, the nearest walker is located first (failing when there
      is none); a probability at or below 0.2 then moves the walker toward it
      (attract) or away from it (repel) with `set_position`, leaving the previous
      position as it was and refreshing a MemoryWalker's memory; any other
      interaction string moves nothing. Above 0.2 the walker makes its own move,
      which fails when `random.choices` refuses its weights. */
  function ChooseMove(s: Sim, me: nat, w: Walker, o: Oracle, tick: nat): (r: Result<Walker>)
    requires Valid(s)
    ensures s.interaction.None? ==> r == OwnMove(w, o, tick)
    ensures r.Ok? ==> r.value.escaped == w.escaped && SameSettings(r.value.policy, w.policy)
    ensures r.Err? <==>
      (s.interaction.Some? && NoOther(|s.names|, me)) ||
      ((s.interaction.None? || o.draw(tick).prob > InteractionThreshold) && OwnMove(w, o, tick).Err?)
    ensures r.Err? ==> r.error.ValueError?
    ensures s.interaction.Some? && !NoOther(|s.names|, me) && o.draw(tick).prob > InteractionThreshold ==>
      r == OwnMove(w, o, tick)
    ensures r.Ok? && s.interaction.Some? && o.draw(tick).prob <= InteractionThreshold ==>
      r.value.prev == w.prev && r.value.escaped == w.escaped
    ensures r.Ok? && s.interaction == Some("attract") && o.draw(tick).prob <= InteractionThreshold ==>
      LocateNearest(s, me, w.pos, o).Ok? &&
      r.value.pos == w.pos.Plus(InteractionStep(w, s.walkers[s.names[LocateNearest(s, me, w.pos, o).value]].pos, o.draw(tick), o))
    ensures r.Ok? && s.interaction == Some("repel") && o.draw(tick).prob <= InteractionThreshold ==>
      LocateNearest(s, me, w.pos, o).Ok? &&
      r.value.pos == w.pos.Minus(InteractionStep(w, s.walkers[s.names[LocateNearest(s, me, w.pos, o).value]].pos, o.draw(tick), o))
    ensures (r.Ok? && s.interaction.Some? && s.interaction.value !in ["attract", "repel"] &&
             o.draw(tick).prob <= InteractionThreshold) ==> r.value == w
  {
    if s.interaction.None? then OwnMove(w, o, tick)
    else
      match LocateNearest(s, me, w.pos, o)
      case Err(e) => Err(e)
      case Ok(j) =>
        var d := o.draw(tick);
        if d.prob <= InteractionThreshold then
          var step := InteractionStep(w, Positions(s)[j], d, o);
          if s.interaction.value == "attract" then Ok(UpdateMemory(SetPosition(w, w.pos.Plus(step))))
          else if s.interaction.value == "repel" then Ok(UpdateMemory(SetPosition(w, w.pos.Minus(step))))
          else Ok(w)
        else OwnMove(w, o, tick)
  }

  // ---------------------------------------------------------------------------
  // Terrain

  /** The tiles of one kind, tagged with that kind. */
  function Tagged(kind: TerrainKind, rs: seq<Rect>): (r: seq<(TerrainKind, Rect)>)
    ensures |r| == |rs| && forall i :: 0 <= i < |rs| ==> r[i] == (kind, rs[i])
  {
    seq(|rs|, i requires 0 <= i < |rs| => (kind, rs[i]))
  }

  /** The tiles in the order `terrain_check` visits them: every water, then every
      sand, then every grass. */
  function Tiles(s: Sim): seq<(TerrainKind, Rect)> {
    Tagged(Water, s.waters) + Tagged(Sand, s.sands) + Tagged(Grass, s.grasses)
  }

  /** The kind of the first tile containing p, scanning in order. */
  function FirstTile(tiles: seq<(TerrainKind, Rect)>, p: Vec): (r: Option<TerrainKind>)
    ensures r.None? <==> forall i :: 0 <= i < |tiles| ==> !tiles[i].1.Contains(p)
    ensures r.Some? ==> exists i :: 0 <= i < |tiles| && tiles[i].1.Contains(p) && tiles[i].0 == r.value &&
                                    forall j :: 0 <= j < i ==> !tiles[j].1.Contains(p)
    decreases |tiles|
  {
    if |tiles| == 0 then None
    else if tiles[0].1.Contains(p) then Some(tiles[0].0)
    else
      var r := FirstTile(tiles[1..], p);
      assert forall i :: 1 <= i < |tiles| ==> tiles[i] == tiles[1..][i - 1];
      r
  }

  /** `terrain_check`: the kind of the first tile containing the walker's
      location, None (Python's False) when it is on no tile. */
  function TerrainCheck(s: Sim, p: Vec): Option<TerrainKind> {
    FirstTile(Tiles(s), p)
  }

  predicate InAny(rs: seq<Rect>, p: Vec) {
    exists i :: 0 <= i < |rs| && rs[i].Contains(p)
  }

  /** `handle_terrain`: water sends the walker to the origin, sand to the
      midpoint of its previous and current positions, grass twice as far again
      along its last displacement; no terrain leaves it in place. The previous
      position never changes, and a MemoryWalker then remembers where it is. */
  function HandleTerrain(w: Walker, t: Option<TerrainKind>): (r: Walker)
    ensures r.prev == w.prev && r.escaped == w.escaped && SameSettings(r.policy, w.policy)
    ensures t == Some(Water) ==> r.pos == Origin
    ensures t == Some(Sand) ==> r.pos.Minus(w.prev) == w.pos.Minus(r.pos)
    ensures t == Some(Grass) ==> r.pos.Minus(w.pos) == w.pos.Minus(w.prev).Scale(2.0)
    ensures t.None? ==> r.pos == w.pos
    ensures r == UpdateMemory(w.(pos := r.pos))
  {
    var p := match t
      case None => w.pos
      case Some(Water) => Origin
      case Some(Sand) => Vec((w.prev.x + w.pos.x) / 2.0, (w.prev.y + w.pos.y) / 2.0)
      case Some(Grass) =>
        var v := w.pos.Minus(w.prev);
        w.pos.Plus(Vec(v.x * 2.0, v.y * 2.0));
    UpdateMemory(SetPosition(w, p))
  }

  // ---------------------------------------------------------------------------
  // Obstacles and gates

  /** `check_collision`: the segment from the previous to the current position
      meets some obstacle. */
  predicate Collides(s: Sim, w: Walker, o: Oracle) {
    exists k :: 0 <= k < |s.obstacles| && o.meets(w.prev, w.pos, s.obstacles[k])
  }

  /** How a walker's move can raise: an interaction with nobody to interact
      with, or weights `random.choices` may refuse. */
  predicate MayFail(s: Sim, me: nat, p: Policy) {
    (s.interaction.Some? && NoOther(|s.names|, me)) || !CanAlwaysMove(p)
  }

  /** The outcome of the collision loop for one walker in one step. */
  datatype Retry =
    | Settled(walker: Walker, tick: nat, attempts: nat)
    | Trapped(walker: Walker, tick: nat)
    | Failed(error: Error)

  /** The `while self.check_collision(walker)` loop: while the walker's last
      segment meets an obstacle, give up after 1000 re-rolls, otherwise move back,
      choose a new move, and apply the terrain only when there is one. */
  function Resolve(s: Sim, me: nat, w: Walker, o: Oracle, tick: nat, attempts: nat): (r: Retry)
    requires Valid(s) && attempts <= MaxCollisionAttempts
    ensures r.Settled? ==> !Collides(s, r.walker, o)
    ensures r.Settled? ==> attempts <= r.attempts <= MaxCollisionAttempts &&
                           r.tick == tick + (r.attempts - attempts)
    ensures r.Settled? && r.attempts == attempts ==> r.walker == w
    ensures !r.Failed? ==> r.walker.escaped == w.escaped && SameSettings(r.walker.policy, w.policy)
    ensures r.Trapped? ==> Collides(s, w, o) && Collides(s, r.walker, o)
    ensures r.Trapped? ==> r.tick == tick + (MaxCollisionAttempts - attempts)
    ensures r.Failed? ==> r.error.ValueError? && MayFail(s, me, w.policy)
    decreases MaxCollisionAttempts - attempts
  {
    if !Collides(s, w, o) then Settled(w, tick, attempts)
    else if attempts >= MaxCollisionAttempts then Trapped(w, tick)
    else
      match ChooseMove(s, me, MoveBack(w), o, tick)
      case Err(e) => Failed(e)
      case Ok(w1) =>
        var t := TerrainCheck(s, w1.pos);
        var w2 := if t.Some? then HandleTerrain(w1, t) else w1;
        Resolve(s, me, w2, o, tick + 1, attempts + 1)
  }

  /** One gate of `gate_check`: when the walker's last segment meets the
      entrance, set it on the exit and refresh a MemoryWalker's memory. */
  function GateStep(g: Gate, w: Walker, o: Oracle): (r: Walker)
    ensures r.prev == w.prev && r.escaped == w.escaped && SameSettings(r.policy, w.policy)
    ensures o.meets(w.prev, w.pos, g.EntranceRect()) ==> r.pos == g.exit
    ensures !o.meets(w.prev, w.pos, g.EntranceRect()) ==> r == w
  {
    if o.meets(w.prev, w.pos, g.EntranceRect()) then UpdateMemory(SetPosition(w, g.exit)) else w
  }

  /** `gate_check`: every gate in order, without stopping at the first hit; a
      later gate tests the segment from the previous position to where the
      earlier gates left the walker. */
  function GateCheck(gates: seq<Gate>, w: Walker, o: Oracle): (r: Walker)
    ensures r.prev == w.prev && r.escaped == w.escaped && SameSettings(r.policy, w.policy)
    ensures r.pos == w.pos || exists k :: 0 <= k < |gates| && r.pos == gates[k].exit
    ensures (forall k :: 0 <= k < |gates| ==> !o.meets(w.prev, w.pos, gates[k].EntranceRect())) ==> r == w
    decreases |gates|
  {
    if |gates| == 0 then w
    else
      var r := GateCheck(gates[1..], GateStep(gates[0], w, o), o);
      assert forall k :: 0 <= k < |gates[1..]| ==> gates[1..][k] == gates[k + 1];
      r
  }

  // ---------------------------------------------------------------------------
  // Bookkeeping after the move

  /** `cross_y_check`: one more crossing when the x coordinate changes sign
      strictly, or leaves 0. */
  function CrossY(count: int, w: Walker): (r: int)
    ensures r == count || r == count + 1
    ensures r == count + 1 <==> w.pos.x * w.prev.x < 0.0 || (w.prev.x == 0.0 && w.pos.x != 0.0)
  {
    if w.pos.x * w.prev.x < 0.0 || (w.prev.x == 0.0 && w.pos.x != 0.0) then count + 1 else count
  }

  /** `Simulation.escape_check`: while the walker's own check says it has not
      escaped, its escape time becomes the current step. */
  function EscapeUpdate(time: Option<int>, w: Walker, i: int): (r: (Option<int>, Walker))
    ensures r.1 == EscapeCheck(w).1
    ensures !r.1.escaped ==> r.0 == Some(i)
    ensures r.1.escaped ==> r.0 == time
  {
    var (escaped, w') := EscapeCheck(w);
    (if !escaped then Some(i) else time, w')
  }

  /** `simulation_results_update`: the row written for one walker at one step.
      The escape time shows only once the walker has escaped; the crossing
      count is clamped at zero; the distances to the axes are |y| and |x|. */
  function RecordOf(w: Walker, time: Option<int>, count: int, o: Oracle): (r: Record)
    ensures r.location == w.pos
    ensures r.escapeTime == if EscapeCheck(w).0 then time else None
    ensures r.yCrosses >= 0 && (count >= 0 ==> r.yCrosses == count) && (count < 0 ==> r.yCrosses == 0)
    ensures r.distanceFromX >= 0.0 && (r.distanceFromX == w.pos.y || r.distanceFromX == -w.pos.y)
    ensures r.distanceFromY >= 0.0 && (r.distanceFromY == w.pos.x || r.distanceFromY == -w.pos.x)
    ensures r.distanceFromOrigin == o.sqrt(w.pos.NormSquared())
  {
    Record(w.pos, if EscapeCheck(w).0 then time else None, ClampAtZero(count),
           o.sqrt(w.pos.NormSquared()), Abs(w.pos.y), Abs(w.pos.x))
  }

  // ---------------------------------------------------------------------------
  // One walker, one step

  datatype StepOutcome =
    | Stepped(sim: Sim, tick: nat)
    | StepTrapped(sim: Sim, tick: nat)
    | StepFailed(error: Error)

  /** The walker after its move, its terrain and the collision loop, before
      the memory refresh and the gates. */
  function Settle(s: Sim, me: nat, o: Oracle, tick: nat): (r: Retry)
    requires Valid(s) && me < |s.names|
    ensures r.Settled? ==> !Collides(s, r.walker, o) && r.tick > tick
    ensures !r.Failed? ==> r.walker.escaped == s.walkers[s.names[me]].escaped &&
                           SameSettings(r.walker.policy, s.walkers[s.names[me]].policy)
    ensures r.Trapped? ==> r.tick == tick + 1 + MaxCollisionAttempts
    ensures s.obstacles == [] ==> !r.Trapped?
    ensures r.Failed? ==> r.error.ValueError? && MayFail(s, me, s.walkers[s.names[me]].policy)
  {
    var w := s.walkers[s.names[me]];
    match ChooseMove(s, me, w, o, tick)
    case Err(e) => Failed(e)
    case Ok(w1) =>
      var w2 := HandleTerrain(w1, TerrainCheck(s, w1.pos));
      Resolve(s, me, w2, o, tick + 1, 0)
  }

  /** The bookkeeping of one walker after it has settled and passed the gates:
      `escape_check`, `cross_y_check` and `simulation_results_update` in that
      order. Nothing of the other walkers changes. */
  function Bookkeep(s: Sim, name: string, w: Walker, i: int, o: Oracle): (r: Sim)
    requires Valid(s) && name in s.walkers
    ensures Valid(r) && SameSetup(s, r) && r.names == s.names
    ensures r.walkers == s.walkers[name := r.walkers[name]]
    ensures r.escapeTimes == s.escapeTimes[name := r.escapeTimes[name]]
    ensures r.crossesY == s.crossesY[name := r.crossesY[name]]
    ensures r.total == s.total[name := r.total[name]]
    ensures r.walkers[name] == EscapeCheck(w).1
    ensures w.escaped ==> r.escapeTimes[name] == s.escapeTimes[name]
    ensures !r.walkers[name].escaped ==> r.escapeTimes[name] == Some(i)
    ensures r.crossesY[name] == CrossY(s.crossesY[name], w)
    ensures r.total[name].Keys == s.total[name].Keys + {i}
    ensures forall k :: k in s.total[name] && k != i ==> r.total[name][k] == s.total[name][k]
    ensures r.total[name][i] == RecordOf(r.walkers[name], r.escapeTimes[name], r.crossesY[name], o)
  {
    var u := EscapeUpdate(s.escapeTimes[name], w, i);
    var time, w' := u.0, u.1;
    var count := CrossY(s.crossesY[name], w');
    s.(walkers := s.walkers[name := w'],
       escapeTimes := s.escapeTimes[name := time],
       crossesY := s.crossesY[name := count],
       total := s.total[name := s.total[name][i := RecordOf(w', time, count, o)]])
  }

  /** The body of `run_simulation`'s inner loop for the walker at index `me`
      in step i: move, settle, refresh memory, gates, escape, crossing, record. */
  function StepWalker(s: Sim, me: nat, o: Oracle, tick: nat, i: int): (r: StepOutcome)
    requires Valid(s) && me < |s.names|
    ensures r.Stepped? ==> Valid(r.sim) && SameSetup(s, r.sim) && r.sim.names == s.names && r.tick > tick
    ensures r.StepTrapped? ==> Valid(r.sim) && SameSetup(s, r.sim) && r.sim.names == s.names
    ensures r.Stepped? || r.StepTrapped? ==> PoliciesKept(s, r.sim)
    ensures r.StepFailed? ==> r.error.ValueError? && MayFail(s, me, s.walkers[s.names[me]].policy)
    ensures r.StepTrapped? ==> r.tick == tick + 1 + MaxCollisionAttempts
    ensures s.obstacles == [] ==> !r.StepTrapped?
  {
    var name := s.names[me];
    match Settle(s, me, o, tick)
    case Failed(e) => StepFailed(e)
    case Trapped(w, tick') =>
      KeptByUpdate(s.walkers, name, w);
      StepTrapped(s.(walkers := s.walkers[name := w]), tick')
    case Settled(w3, tick', _) => Stepped(Finish(s, name, w3, o, i), tick')
  }

  /** After the collision loop: refresh the memory, pass the gates, then the
      bookkeeping. */
  function Finish(s: Sim, name: string, w3: Walker, o: Oracle, i: int): (r: Sim)
    requires Valid(s) && name in s.walkers && SameSettings(w3.policy, s.walkers[name].policy)
    ensures Valid(r) && SameSetup(s, r) && r.names == s.names && PoliciesKept(s, r)
  {
    var t := Bookkeep(s, name, GateCheck(s.gates, UpdateMemory(w3), o), i, o);
    KeptByUpdate(s.walkers, name, t.walkers[name]);
    t
  }

  /** Replacing one walker by one with the same settings keeps the settings. */
  lemma KeptByUpdate(ws: map<string, Walker>, name: string, w: Walker)
    requires name in ws && SameSettings(ws[name].policy, w.policy)
    ensures ws[name := w].Keys == ws.Keys
    ensures forall n :: n in ws ==> n in ws[name := w] && SameSettings(ws[n].policy, ws[name := w][n].policy)
  {
  }

  // ---------------------------------------------------------------------------
  // Whole runs

  /** Where a run stands: still going (with the number of draws used so far),
      abandoned after too many collisions (`return False`), or stopped by an
      exception. */
  datatype Progress =
    | Running(sim: Sim, tick: nat)
    | Aborted(sim: Sim)
    | Crashed(error: Error)

  /** A run cannot raise: no interaction or someone to interact with, and every
      walker able to move wherever it stands. */
  predicate CannotCrash(s: Sim) {
    (s.interaction.None? || |s.names| >= 2) && AllCanMove(s)
  }

  predicate AllCanMove(s: Sim) {
    forall n :: n in s.walkers ==> CanAlwaysMove(s.walkers[n].policy)
  }

  /** Every walker of s is still in t with the same settings: only a
      MemoryWalker's memory may have changed. */
  predicate PoliciesKept(s: Sim, t: Sim) {
    forall n :: n in s.walkers ==> n in t.walkers && SameSettings(s.walkers[n].policy, t.walkers[n].policy)
  }

  /** Settings kept over two stretches are kept over both. */
  lemma KeptChain(a: Sim, b: Sim, r: Progress)
    requires PoliciesKept(a, b)
    ensures (r.Running? || r.Aborted?) && PoliciesKept(b, r.sim) ==> PoliciesKept(a, r.sim)
  {
  }

  /** Settings kept keep a run from raising. */
  lemma KeptCannotCrash(s: Sim, t: Sim)
    requires Valid(s) && Valid(t) && t.names == s.names && t.interaction == s.interaction
    requires PoliciesKept(s, t)
    ensures CannotCrash(s) ==> CannotCrash(t)
  {
    if CannotCrash(s) {
      forall n | n in t.walkers
        ensures CanAlwaysMove(t.walkers[n].policy)
      {
        assert n in s.walkers;
      }
    }
  }

  /** The walkers from index `me` on take their turn in step i. */
  function RunWalkers(s: Sim, o: Oracle, tick: nat, i: int, me: nat): (r: Progress)
    requires Valid(s) && me <= |s.names|
    ensures r.Running? || r.Aborted? ==> Valid(r.sim) && SameSetup(s, r.sim) && r.sim.names == s.names
    ensures r.Running? || r.Aborted? ==> PoliciesKept(s, r.sim)
    ensures r.Crashed? ==> r.error.ValueError?
    ensures CannotCrash(s) ==> !r.Crashed?
    ensures s.obstacles == [] && CannotCrash(s) ==> r.Running?
    decreases |s.names| - me
  {
    if me == |s.names| then Running(s, tick)
    else
      match StepWalker(s, me, o, tick, i)
      case StepFailed(e) => Crashed(e)
      case StepTrapped(s', _) => Aborted(s')
      case Stepped(s', tick') =>
        var r := RunWalkers(s', o, tick', i, me + 1);
        KeptCannotCrash(s, s');
        KeptChain(s, s', r);
        r
  }

  /** Steps i, i+1, ..., numMoves. */
  function RunSteps(s: Sim, o: Oracle, tick: nat, i: int): (r: Progress)
    requires Valid(s) && i >= 1
    ensures r.Running? || r.Aborted? ==> Valid(r.sim) && SameSetup(s, r.sim) && r.sim.names == s.names
    ensures r.Running? || r.Aborted? ==> PoliciesKept(s, r.sim)
    ensures r.Crashed? ==> r.error.ValueError?
    ensures CannotCrash(s) ==> !r.Crashed?
    ensures s.obstacles == [] && CannotCrash(s) ==> r.Running?
    decreases s.numMoves - i + 1
  {
    if i > s.numMoves then Running(s, tick)
    else
      match RunWalkers(s, o, tick, i, 0)
      case Running(s', tick') =>
        var r := RunSteps(s', o, tick', i + 1);
        KeptCannotCrash(s, s');
        KeptChain(s, s', r);
        r
      case other => other
  }

  /** `run_simulation`: steps 1 to numMoves, every walker in name order within a
      step; True when every step completed. */
  function RunSimulation(s: Sim, o: Oracle): (r: Progress)
    requires Valid(s)
    ensures r.Running? || r.Aborted? ==> Valid(r.sim) && SameSetup(s, r.sim) && r.sim.names == s.names
    ensures r.Running? || r.Aborted? ==> PoliciesKept(s, r.sim)
    ensures r.Crashed? ==> r.error.ValueError?
    ensures CannotCrash(s) ==> !r.Crashed?
    ensures s.obstacles == [] && CannotCrash(s) ==> r.Running?
  {
    RunSteps(s, o, 0, 1)
  }

  /** `reset`: every walker reset; escape times None, crossing counters -1 and
      empty histories for every name; the plane, the move count and the
      interaction stay as they were. */
  function Reset(s: Sim): (r: Sim)
    requires Valid(s)
    ensures Valid(r) && SameSetup(s, r) && r.names == s.names && PoliciesKept(s, r)
    ensures forall n :: n in s.walkers ==>
      r.walkers[n] == ResetWalker(s.walkers[n]) &&
      r.escapeTimes[n] == None && r.crossesY[n] == -1 && r.total[n] == map[]
  {
    s.(walkers := map n | n in s.walkers :: ResetWalker(s.walkers[n]),
       escapeTimes := map n | n in s.walkers :: None,
       crossesY := map n | n in s.walkers :: -1,
       total := map n | n in s.walkers :: map[])
  }
}

=== FILE: simulation_props.dfy ===
/** Properties of the simulation engine that relate several of its operations
    or several calls of one. */
module SimulationProperties {
  import opened Common
  import opened Terrains
  import opened Walkers
  import opened Simulation

  // ---------------------------------------------------------------------------
  // Terrain lookup

  lemma {:induction false} FirstTileAppend(a: seq<(TerrainKind, Rect)>, b: seq<(TerrainKind, Rect)>, p: Vec)
    ensures FirstTile(a + b, p) == if FirstTile(a, p).Some? then FirstTile(a, p) else FirstTile(b, p)
    decreases |a|
  {
    if |a| > 0 {
      assert (a + b)[1..] == a[1..] + b;
      FirstTileAppend(a[1..], b, p);
    } else {
      assert a + b == b;
    }
  }

  lemma FirstTileOfKind(kind: TerrainKind, rs: seq<Rect>, p: Vec)
    ensures FirstTile(Tagged(kind, rs), p) == if InAny(rs, p) then Some(kind) else None
  {
    var t := Tagged(kind, rs);
    if InAny(rs, p) {
      var i :| 0 <= i < |rs| && rs[i].Contains(p);
      assert t[i].1.Contains(p);
    }
  }

  /** `terrain_check` answers water whenever some water contains the point, sand
      only when no water does, grass only when neither does, and nothing when no
      tile contains it. */
  lemma TerrainPriority(s: Sim, p: Vec)
    ensures TerrainCheck(s, p) == Some(Water) <==> InAny(s.waters, p)
    ensures TerrainCheck(s, p) == Some(Sand) <==> !InAny(s.waters, p) && InAny(s.sands, p)
    ensures TerrainCheck(s, p) == Some(Grass) <==>
      !InAny(s.waters, p) && !InAny(s.sands, p) && InAny(s.grasses, p)
    ensures TerrainCheck(s, p).None? <==>
      !InAny(s.waters, p) && !InAny(s.sands, p) && !InAny(s.grasses, p)
  {
    var w, sa, g := Tagged(Water, s.waters), Tagged(Sand, s.sands), Tagged(Grass, s.grasses);
    assert Tiles(s) == w + sa + g;
    FirstTileAppend(w + sa, g, p);
    FirstTileAppend(w, sa, p);
    FirstTileOfKind(Water, s.waters, p);
    FirstTileOfKind(Sand, s.sands, p);
    FirstTileOfKind(Grass, s.grasses, p);
  }

  /** Sand halves the walker's displacement from its previous position; grass
      triples it. */
  lemma TerrainScalesLastStep(w: Walker)
    ensures HandleTerrain(w, Some(Sand)).pos.Minus(w.prev) == w.pos.Minus(w.prev).Scale(0.5)
    ensures HandleTerrain(w, Some(Grass)).pos.Minus(w.prev) == w.pos.Minus(w.prev).Scale(3.0)
  {
    var sand := HandleTerrain(w, Some(Sand)).pos;
    assert sand.Minus(w.prev) == w.pos.Minus(sand);
  }

  // ---------------------------------------------------------------------------
  // Gates

  /** When exactly one gate is met along the way, the walker ends on that gate's
      exit: the gates before it do not meet the original segment, and the gates
      after it do not meet the segment from the previous position to the exit. */
  lemma {:induction false} SingleGateLandsAtExit(gates: seq<Gate>, w: Walker, o: Oracle, k: nat)
    requires k < |gates|
    requires forall j :: 0 <= j < k ==> !o.meets(w.prev, w.pos, gates[j].EntranceRect())
    requires o.meets(w.prev, w.pos, gates[k].EntranceRect())
    requires forall j :: k < j < |gates| ==> !o.meets(w.prev, gates[k].exit, gates[j].EntranceRect())
    ensures GateCheck(gates, w, o).pos == gates[k].exit
    decreases k
  {
    var rest := gates[1..];
    if k == 0 {
      var w' := GateStep(gates[0], w, o);
      assert forall j :: 0 <= j < |rest| ==> rest[j] == gates[j + 1];
      assert GateCheck(rest, w', o) == w';
    } else {
      assert GateStep(gates[0], w, o) == w;
      SingleGateLandsAtExit(rest, w, o, k - 1);
    }
  }

  /** `gate_check` does not stop at the first hit: when the first gate's exit
      segment meets a second gate, the walker leaves through the second one. */
  lemma GateChecksDoNotStop(g1: Gate, g2: Gate, w: Walker, o: Oracle)
    requires o.meets(w.prev, w.pos, g1.EntranceRect())
    requires o.meets(w.prev, g1.exit, g2.EntranceRect())
    ensures GateCheck([g1, g2], w, o).pos == g2.exit
  {
    var w1 := GateStep(g1, w, o);
    assert [g1, g2][1..] == [g2];
    assert [g2][1..] == [];
    assert GateCheck([g2], w1, o) == GateCheck([], GateStep(g2, w1, o), o);
  }

  // ---------------------------------------------------------------------------
  // Crossing the y-axis

  /** A walker moved in x only, from a to b. */
  function AlongX(a: real, b: real): Walker {
    Walker(Vec(b, 0.0), Vec(a, 0.0), false, Straight)
  }

  /** The counter after following the x coordinates xs, one move per pair. */
  function Crossings(xs: seq<real>, count: int): int
    decreases |xs|
  {
    if |xs| < 2 then count else Crossings(xs[1..], CrossY(count, AlongX(xs[0], xs[1])))
  }

  /** Staying on the axis, and arriving on it, never counts; leaving it and
      changing side do. */
  lemma CrossingExamples()
    ensures CrossY(-1, AlongX(0.0, 0.0)) == -1
    ensures CrossY(4, AlongX(2.0, 0.0)) == 4
    ensures CrossY(-1, AlongX(0.0, 3.0)) == 0
    ensures CrossY(0, AlongX(-1.0, 1.0)) == 1
    ensures CrossY(0, AlongX(1.0, 2.0)) == 0
  {
  }

  predicate Alternates(xs: seq<real>) {
    forall j :: 0 <= j < |xs| - 1 ==> (xs[j] > 0.0 && xs[j + 1] < 0.0) || (xs[j] < 0.0 && xs[j + 1] > 0.0)
  }

  lemma OppositeSigns(a: real, b: real)
    requires (a > 0.0 && b < 0.0) || (a < 0.0 && b > 0.0)
    ensures b * a < 0.0
  {
  }

  /** A walker that keeps switching sides counts every switch. */
  lemma {:induction false} AlternatingPathCountsEveryMove(xs: seq<real>, count: int)
    requires Alternates(xs)
    ensures Crossings(xs, count) == count + (if |xs| < 2 then 0 else |xs| - 1)
    decreases |xs|
  {
    if |xs| >= 2 {
      OppositeSigns(xs[0], xs[1]);
      assert CrossY(count, AlongX(xs[0], xs[1])) == count + 1;
      var ys := xs[1..];
      assert forall j :: 0 <= j < |ys| ==> ys[j] == xs[j + 1];
      AlternatingPathCountsEveryMove(ys, count + 1);
    }
  }

  /** From the origin, a walker that leaves the axis and then keeps switching
      sides reports (through the clamp at zero) one crossing fewer than moves:
      leaving the origin only cancels the initial -1. */
  lemma {:induction false} OscillationFromOrigin(xs: seq<real>)
    requires |xs| >= 2 && xs[0] == 0.0 && xs[1] != 0.0 && Alternates(xs[1..])
    ensures Crossings(xs, -1) == |xs| - 2
  {
    assert CrossY(-1, AlongX(xs[0], xs[1])) == 0;
    AlternatingPathCountsEveryMove(xs[1..], 0);
  }

  // ---------------------------------------------------------------------------
  // Interaction moves

  /** Attract and repel with the same draw take opposite steps. */
  lemma AttractRepelMirror(s: Sim, me: nat, w: Walker, o: Oracle, tick: nat)
    requires Valid(s) && !NoOther(|s.names|, me) && o.draw(tick).prob <= InteractionThreshold
    ensures var a := ChooseMove(s.(interaction := Some("attract")), me, w, o, tick);
            var r := ChooseMove(s.(interaction := Some("repel")), me, w, o, tick);
            a.Ok? && r.Ok? && a.value.pos.Minus(w.pos) == w.pos.Minus(r.value.pos)
  {
    var sa := s.(interaction := Some("attract"));
    var sr := s.(interaction := Some("repel"));
    assert Positions(sa) == Positions(s) == Positions(sr);
    assert LocateNearest(sa, me, w.pos, o) == LocateNearest(sr, me, w.pos, o);
  }

  /** Two walkers at the same distance: the one registered first is the nearest. */
  lemma NearestTieGoesToFirst(o: Oracle)
    ensures NearestAmong([Vec(1.0, 0.0), Vec(-1.0, 0.0), Origin], 2, Origin, o, 3) == Some(0)
  {
    var ps := [Vec(1.0, 0.0), Vec(-1.0, 0.0), Origin];
    assert SquaredDistance(ps[0], Origin) == 1.0;
    assert SquaredDistance(ps[1], Origin) == 1.0;
    assert NearestAmong(ps, 2, Origin, o, 1) == Some(0);
    assert NearestAmong(ps, 2, Origin, o, 2) == Some(0);
  }

  // ---------------------------------------------------------------------------
  // Registration and reset

  /** Two walkers of one class added to an empty simulation are numbered 1
      and 2, in the order they are added. */
  lemma NumberingStartsAtOne(numMoves: int, w1: Walker, w2: Walker)
    requires SameClass(w1.policy, w2.policy)
    ensures var s1 := AddWalker(NewSim(numMoves), WalkerObject(w1));
            s1.Ok? && s1.value.names == [Indexed(ClassName(w1.policy), 1, "")]
    ensures var s1 := AddWalker(NewSim(numMoves), WalkerObject(w1)).value;
            var s2 := AddWalker(s1, WalkerObject(w2));
            s2.Ok? && s2.value.names == [Indexed(ClassName(w1.policy), 1, ""), Indexed(ClassName(w1.policy), 2, "")]
  {
    var prefix := ClassName(w1.policy);
    var n1, n2 := Indexed(prefix, 1, ""), Indexed(prefix, 2, "");
    assert FirstFree(prefix, "", {}, 1) == 1;
    var s1 := AddWalker(NewSim(numMoves), WalkerObject(w1)).value;
    assert s1.names == [] + [n1];
    assert s1.walkers.Keys == {n1};
    assert n1 != n2 by {
      if n1 == n2 {
        IndexedInjective(prefix, 1, 2, "");
      }
    }
    assert FirstFree(prefix, "", {n1}, 1) == 2 by {
      assert FirstFree(prefix, "", {n1}, 1) == FirstFree(prefix, "", {n1}, 2);
    }
    assert AddWalker(s1, WalkerObject(w2)).value.names == [n1] + [n2];
  }

  /** The names the indices render to. */
  lemma NameExamples()
    ensures Indexed(ClassName(Unit), 1, "") == "UnitWalker1"
    ensures Indexed(ClassName(Memory([])), 12, "") == "MemoryWalker12"
  {
    assert DecimalString(1) == "1";
    assert DecimalString(12) == DecimalString(1) + [Digit(2)] == "12";
  }

  /** Resetting twice is resetting once. */
  lemma ResetIdempotent(s: Sim)
    requires Valid(s)
    ensures Reset(Reset(s)) == Reset(s)
  {
    var r := Reset(s);
    var r2 := Reset(r);
    forall n | n in r.walkers
      ensures r2.walkers[n] == r.walkers[n]
    {
      var w := s.walkers[n];
      assert r.walkers[n] == ResetWalker(w);
      assert ResetWalker(ResetWalker(w)) == ResetWalker(w);
    }
    SameEntries(r2.walkers, r.walkers);
    SameEntries(r2.escapeTimes, r.escapeTimes);
    SameEntries(r2.crossesY, r.crossesY);
    SameEntries(r2.total, r.total);
  }

  lemma SameEntries<K, V>(a: map<K, V>, b: map<K, V>)
    requires a.Keys == b.Keys && forall k :: k in a ==> a[k] == b[k]
    ensures a == b
  {
  }

  /** Reset gives every walker the bookkeeping `add_walker` gave it. */
  lemma ResetRestoresRegistration(s: Sim, obj: PyObject)
    requires Valid(s) && obj.WalkerObject?
    ensures var a := AddWalker(s, obj).value;
            var name := a.names[|s.names|];
            Reset(a).escapeTimes[name] == a.escapeTimes[name] &&
            Reset(a).crossesY[name] == a.crossesY[name] &&
            Reset(a).total[name] == a.total[name]
  {
  }

  // ---------------------------------------------------------------------------
  // Whole runs

  /** The walker a completed turn leaves behind: settled, memory updated, gates
      taken. */
  function TurnWalker(s: Sim, me: nat, o: Oracle, tick: nat): (w: Walker)
    requires Valid(s) && me < |s.names| && Settle(s, me, o, tick).Settled?
    ensures w.escaped == s.walkers[s.names[me]].escaped
  {
    GateCheck(s.gates, UpdateMemory(Settle(s, me, o, tick).walker), o)
  }

  /** A completed turn is the bookkeeping of the walker the turn produced; that
      walker carries the escape flag it started with. */
  lemma StepWalkerBookkeeps(s: Sim, me: nat, o: Oracle, tick: nat, i: int)
    requires Valid(s) && me < |s.names| && StepWalker(s, me, o, tick, i).Stepped?
    ensures Settle(s, me, o, tick).Settled?
    ensures StepWalker(s, me, o, tick, i).sim == Bookkeep(s, s.names[me], TurnWalker(s, me, o, tick), i, o)
  {
  }

  /** Every walker of s ends up in t with the step keys it had plus `steps`
      when its name is in `fresh`. */
  predicate Gains(s: Sim, t: Sim, named: seq<string>, steps: set<int>)
    requires Valid(s) && Valid(t) && t.names == s.names
  {
    forall n :: n in s.walkers ==>
      t.total[n].Keys == s.total[n].Keys + (if n in named then steps else {})
  }

  /** A walker that had escaped in s is still escaped in t, with the same
      escape time. */
  predicate EscapesKept(s: Sim, t: Sim)
    requires Valid(s) && Valid(t) && t.names == s.names
  {
    forall n :: n in s.walkers && s.walkers[n].escaped ==>
      t.walkers[n].escaped && t.escapeTimes[n] == s.escapeTimes[n]
  }

  lemma DistinctTail(names: seq<string>, me: nat)
    requires Distinct(names) && me < |names|
    ensures names[me..] == [names[me]] + names[me + 1..]
    ensures names[me] !in names[me + 1..]
  {
  }

  /** A turn that records step i for walker `me` and touches no other walker's
      records, followed by a rest of the step that records it for the walkers
      after `me`, records it for the walkers from `me` on. */
  lemma GainsCompose(s: Sim, s': Sim, t: Sim, i: int, me: nat)
    requires Valid(s) && Valid(s') && Valid(t) && s'.names == s.names && t.names == s.names
    requires me < |s.names|
    requires forall n :: n in s.walkers && n != s.names[me] ==> s'.total[n] == s.total[n]
    requires s'.total[s.names[me]].Keys == s.total[s.names[me]].Keys + {i}
    requires Gains(s', t, s.names[me + 1..], {i})
    ensures Gains(s, t, s.names[me..], {i})
  {
    DistinctTail(s.names, me);
    forall n | n in s.walkers
      ensures t.total[n].Keys == s.total[n].Keys + (if n in s.names[me..] then {i} else {})
    {
      var isMe, later := n == s.names[me], n in s.names[me + 1..];
      if !isMe {
        assert s'.total[n] == s.total[n];
      }
      assert n in s'.walkers;
      assert (n in s.names[me..]) == (isMe || later);
      KeysAdd(s.total[n].Keys, s'.total[n].Keys, t.total[n].Keys, i, isMe, later);
    }
  }

  lemma KeysAdd(a: set<int>, b: set<int>, c: set<int>, i: int, first: bool, second: bool)
    requires first ==> b == a + {i}
    requires !first ==> b == a
    requires c == b + (if second then {i} else {})
    ensures c == a + (if first || second then {i} else {})
  {
  }

  /** A turn that keeps every escape time of an escaped walker, followed by a
      rest that keeps them too, keeps them. */
  lemma EscapesCompose(s: Sim, s': Sim, t: Sim)
    requires Valid(s) && Valid(s') && Valid(t) && s'.names == s.names && t.names == s.names
    requires EscapesKept(s, s') && EscapesKept(s', t)
    ensures EscapesKept(s, t)
  {
  }

  /** One completed turn records step i for its own walker only and keeps every
      escape time of an escaped walker. */
  lemma TurnEffect(s: Sim, o: Oracle, tick: nat, i: int, me: nat)
    requires Valid(s) && me < |s.names| && StepWalker(s, me, o, tick, i).Stepped?
    ensures var s' := StepWalker(s, me, o, tick, i).sim;
            (forall n :: n in s.walkers && n != s.names[me] ==> s'.total[n] == s.total[n]) &&
            s'.total[s.names[me]].Keys == s.total[s.names[me]].Keys + {i} &&
            EscapesKept(s, s')
  {
    StepWalkerBookkeeps(s, me, o, tick, i);
  }

  /** Within step i every walker from index `me` on gets a record for step i,
      and a walker that has escaped keeps its escape time. */
  lemma {:induction false} RunWalkersRecords(s: Sim, o: Oracle, tick: nat, i: int, me: nat)
    requires Valid(s) && me <= |s.names| && RunWalkers(s, o, tick, i, me).Running?
    ensures Gains(s, RunWalkers(s, o, tick, i, me).sim, s.names[me..], {i})
    ensures EscapesKept(s, RunWalkers(s, o, tick, i, me).sim)
    decreases |s.names| - me
  {
    if me < |s.names| {
      var step := StepWalker(s, me, o, tick, i);
      if step.Stepped? {
        RunWalkersUnfold(s, o, tick, i, me);
        assert Valid(step.sim);
        assert me + 1 <= |step.sim.names|;
        assert RunWalkers(step.sim, o, step.tick, i, me + 1).Running?;
        RunWalkersRecords(step.sim, o, step.tick, i, me + 1);
        var t := RunWalkers(step.sim, o, step.tick, i, me + 1).sim;
        TurnEffect(s, o, tick, i, me);
        GainsCompose(s, step.sim, t, i, me);
        EscapesCompose(s, step.sim, t);
      }
    } else {
      assert s.names[me..] == [];
    }
  }

  /** A completed turn hands over to the next walker. */
  lemma RunWalkersUnfold(s: Sim, o: Oracle, tick: nat, i: int, me: nat)
    requires Valid(s) && me < |s.names| && StepWalker(s, me, o, tick, i).Stepped?
    ensures var step := StepWalker(s, me, o, tick, i);
            Valid(step.sim) && step.sim.names == s.names &&
            RunWalkers(s, o, tick, i, me) == RunWalkers(step.sim, o, step.tick, i, me + 1)
  {
  }

  /** Steps i to numMoves each add a record for every walker, and escape times
      of escaped walkers stay frozen. */
  lemma {:induction false} RunStepsRecords(s: Sim, o: Oracle, tick: nat, i: int)
    requires Valid(s) && i >= 1 && RunSteps(s, o, tick, i).Running?
    ensures Gains(s, RunSteps(s, o, tick, i).sim, s.names, StepRange(i, s.numMoves))
    ensures EscapesKept(s, RunSteps(s, o, tick, i).sim)
    decreases s.numMoves - i + 1
  {
    if i <= s.numMoves {
      var step := RunWalkers(s, o, tick, i, 0);
      if step.Running? {
        var s' := step.sim;
        RunStepsUnfold(s, o, tick, i);
        assert Gains(s, s', s.names, {i}) && EscapesKept(s, s') by {
          RunWalkersRecords(s, o, tick, i, 0);
          assert s.names[0..] == s.names;
        }
        assert RunSteps(s', o, step.tick, i + 1).Running?;
        RunStepsRecords(s', o, step.tick, i + 1);
        var t := RunSteps(s', o, step.tick, i + 1).sim;
        StepRangeCons(i, s.numMoves);
        GainsChain(s, s', t, {i}, StepRange(i + 1, s.numMoves));
        EscapesCompose(s, s', t);
      }
    } else {
      assert StepRange(i, s.numMoves) == {};
      GainsNothing(s);
    }
  }

  /** A step that completes hands over to the next one. */
  lemma RunStepsUnfold(s: Sim, o: Oracle, tick: nat, i: int)
    requires Valid(s) && 1 <= i <= s.numMoves && RunWalkers(s, o, tick, i, 0).Running?
    ensures var step := RunWalkers(s, o, tick, i, 0);
            Valid(step.sim) && step.sim.names == s.names && step.sim.numMoves == s.numMoves &&
            RunSteps(s, o, tick, i) == RunSteps(step.sim, o, step.tick, i + 1)
  {
  }

  lemma StepRangeCons(from: int, upto: int)
    requires from <= upto
    ensures StepRange(from, upto) == {from} + StepRange(from + 1, upto)
  {
  }

  lemma GainsNothing(s: Sim)
    requires Valid(s)
    ensures Gains(s, s, s.names, {})
  {
    assert forall n :: n in s.walkers ==> s.total[n].Keys + {} == s.total[n].Keys;
  }

  /** Two stretches that each record their steps for every walker record the
      steps of both. */
  lemma GainsChain(s: Sim, s': Sim, t: Sim, a: set<int>, b: set<int>)
    requires Valid(s) && Valid(s') && Valid(t) && s'.names == s.names && t.names == s.names
    requires Gains(s, s', s.names, a) && Gains(s', t, s.names, b)
    ensures Gains(s, t, s.names, a + b)
  {
    forall n | n in s.walkers
      ensures t.total[n].Keys == s.total[n].Keys + (a + b)
    {
      assert n in s.names;
      assert s'.total[n].Keys == s.total[n].Keys + a;
      assert t.total[n].Keys == s'.total[n].Keys + b by {
        assert n in s'.walkers;
      }
      UnionChain(s.total[n].Keys, s'.total[n].Keys, t.total[n].Keys, a, b);
    }
  }

  lemma UnionChain(p: set<int>, q: set<int>, r: set<int>, a: set<int>, b: set<int>)
    requires q == p + a && r == q + b
    ensures r == p + (a + b)
  {
  }

  lemma EmptyPlus(a: set<int>, b: set<int>)
    requires a == {}
    ensures a + b == b
  {
  }

  /** With no obstacles and nothing to raise, a run from a simulation whose
      tables are empty (after registration, or after `reset`) completes, and
      every walker has exactly the records of steps 1 to numMoves. */
  lemma UnobstructedRunRecordsEveryStep(s: Sim, o: Oracle)
    requires Valid(s) && s.obstacles == [] && CannotCrash(s)
    requires forall n :: n in s.walkers ==> s.total[n] == map[]
    ensures var r := RunSimulation(s, o);
            r.Running? && forall n :: n in s.walkers ==> r.sim.total[n].Keys == StepRange(1, s.numMoves)
  {
    RunStepsRecords(s, o, 0, 1);
    var t := RunSimulation(s, o).sim;
    assert Gains(s, t, s.names, StepRange(1, s.numMoves));
    forall n | n in s.walkers
      ensures t.total[n].Keys == StepRange(1, s.numMoves)
    {
      assert n in s.names;
      assert t.total[n].Keys == s.total[n].Keys + StepRange(1, s.numMoves);
      EmptyPlus(s.total[n].Keys, StepRange(1, s.numMoves));
    }
  }

  // ---------------------------------------------------------------------------
  // Escape times stay frozen in the records

  /** Every escape time a walker's records show is the escape time the walker
      holds now, and only an escaped walker's records show one. */
  predicate TimesFrozen(s: Sim) {
    forall n :: n in s.total ==>
      n in s.walkers && n in s.escapeTimes && RecordsShow(s.total[n], s.walkers[n].escaped, s.escapeTimes[n])
  }

  /** The records show an escape time only when the walker has escaped, and
      then the given one. */
  predicate RecordsShow(records: map<int, Record>, escaped: bool, time: Option<int>) {
    forall k :: k in records && records[k].escapeTime.Some? ==> escaped && records[k].escapeTime == time
  }

  /** A completed turn keeps the records' escape times frozen: the walker's
      older records show a time only once it had escaped, which freezes its
      time, and the new record shows the time it holds after the turn. */
  lemma TurnFreezes(s: Sim, o: Oracle, tick: nat, i: int, me: nat)
    requires Valid(s) && me < |s.names| && StepWalker(s, me, o, tick, i).Stepped? && TimesFrozen(s)
    ensures TimesFrozen(StepWalker(s, me, o, tick, i).sim)
  {
    StepWalkerBookkeeps(s, me, o, tick, i);
    var name := s.names[me];
    var t := StepWalker(s, me, o, tick, i).sim;
    forall n | n in t.total
      ensures n in t.walkers && n in t.escapeTimes && RecordsShow(t.total[n], t.walkers[n].escaped, t.escapeTimes[n])
    {
      if n == name {
        forall k | k in t.total[n] && t.total[n][k].escapeTime.Some?
          ensures t.walkers[n].escaped && t.total[n][k].escapeTime == t.escapeTimes[n]
        {
          if k != i {
            assert t.total[n][k] == s.total[n][k];
          }
        }
      }
    }
  }

  lemma {:induction false} RunWalkersFreezes(s: Sim, o: Oracle, tick: nat, i: int, me: nat)
    requires Valid(s) && me <= |s.names| && TimesFrozen(s)
    ensures RunWalkers(s, o, tick, i, me).Running? ==> TimesFrozen(RunWalkers(s, o, tick, i, me).sim)
    decreases |s.names| - me
  {
    var more, t, tick' := FrozenTurn(s, o, tick, i, me);
    if more {
      RunWalkersFreezes(t, o, tick', i, me + 1);
      FrozenAfter(RunWalkers(s, o, tick, i, me), RunWalkers(t, o, tick', i, me + 1));
    }
  }

  /** Either the step is over, or it stopped, or a completed turn hands the
      next walker a simulation whose records are still frozen. */
  lemma FrozenTurn(s: Sim, o: Oracle, tick: nat, i: int, me: nat) returns (more: bool, t: Sim, tick': nat)
    requires Valid(s) && me <= |s.names| && TimesFrozen(s)
    ensures !more ==> (RunWalkers(s, o, tick, i, me).Running? ==> TimesFrozen(RunWalkers(s, o, tick, i, me).sim))
    ensures more ==> me < |s.names| && Valid(t) && t.names == s.names && TimesFrozen(t) &&
                     RunWalkers(s, o, tick, i, me) == RunWalkers(t, o, tick', i, me + 1)
  {
    more, t, tick' := false, s, tick;
    if me == |s.names| {
      assert RunWalkers(s, o, tick, i, me) == Running(s, tick);
    } else if StepWalker(s, me, o, tick, i).Stepped? {
      more, t, tick' := true, StepWalker(s, me, o, tick, i).sim, StepWalker(s, me, o, tick, i).tick;
      RunWalkersUnfold(s, o, tick, i, me);
      TurnFreezes(s, o, tick, i, me);
    }
  }

  lemma FrozenAfter(p: Progress, q: Progress)
    requires p == q && (q.Running? ==> TimesFrozen(q.sim))
    ensures p.Running? ==> TimesFrozen(p.sim)
  {
  }

  /** `reset` empties every record, so nothing is left to disagree. */
  lemma ResetFreezes(s: Sim)
    requires Valid(s)
    ensures TimesFrozen(Reset(s))
  {
  }

  /** A completed stretch of steps keeps the records' escape times frozen. */
  lemma {:induction false} RunStepsFreezes(s: Sim, o: Oracle, tick: nat, i: int)
    requires Valid(s) && i >= 1 && RunSteps(s, o, tick, i).Running? && TimesFrozen(s)
    ensures TimesFrozen(RunSteps(s, o, tick, i).sim)
    decreases s.numMoves - i + 1
  {
    if i <= s.numMoves {
      var step := RunWalkers(s, o, tick, i, 0);
      if step.Running? {
        RunStepsUnfold(s, o, tick, i);
        RunWalkersFreezes(s, o, tick, i, 0);
        assert RunSteps(step.sim, o, step.tick, i + 1).Running?;
        RunStepsFreezes(step.sim, o, step.tick, i + 1);
        assert RunSteps(s, o, tick, i) == RunSteps(step.sim, o, step.tick, i + 1);
      }
    } else {
      assert RunSteps(s, o, tick, i) == Running(s, tick);
    }
  }
}

=== FILE: statistics.dfy ===
/** The aggregator of finished runs (`Statistics`): for every walker name, the
    runs exported to it by simulation number, and the averages computed over
    those runs. */
module Statistics {
  import opened Common

  /** One walker's records in one simulation, by step number. */
  type Run = map<int, Record>

  /** One walker's runs, by simulation number. */
  type Runs = map<int, Run>

  /** The accumulated data, `__total_dict`: for every walker name, its runs. */
  type Totals = map<string, Runs>

  /** Every walker that appears has at least one run: an entry is only ever
      created together with its first run. */
  predicate Populated(t: Totals) {
    forall n :: n in t ==> t[n] != map[]
  }

  /** `load_to_dict(dicti, i)`: every walker of the exported table gets its
      records stored as run i, creating its entry when it is new; a run already
      stored under i is replaced, and walkers missing from the table keep what
      they had. */
  function LoadToDict(t: Totals, d: map<string, Run>, i: int): (r: Totals)
    ensures r.Keys == t.Keys + d.Keys
    ensures forall n :: n in d ==> i in r[n] && r[n][i] == d[n]
    ensures forall n :: n in d ==>
      r[n].Keys == (if n in t then t[n].Keys else {}) + {i} &&
      forall j :: n in t && j in t[n] && j != i ==> r[n][j] == t[n][j]
    ensures forall n :: n in t && n !in d ==> r[n] == t[n]
    ensures Populated(t) ==> Populated(r)
  {
    map n | n in t.Keys + d.Keys ::
      if n !in d then t[n]
      else if n in t then t[n][i := d[n]]
      else map[i := d[n]]
  }

  // ---------------------------------------------------------------------------
  // Averages per step

  /** The record fields the per-step averages are taken of: the three distances
      of `average_walker_distance` and the crossing count of `avg_cross_y_axis`. */
  datatype Measure = FromOrigin | FromX | FromY | Crossings {
    function Of(r: Record): real {
      match this
      case FromOrigin => r.distanceFromOrigin
      case FromX => r.distanceFromX
      case FromY => r.distanceFromY
      case Crossings => r.yCrosses as real
    }
  }

  /** The entry `counts[step - 1]` of an array of `len` entries designates,
      with Python's negative indices counting from the end; None where Python
      raises IndexError. */
  function Slot(step: int, len: nat): (r: Option<nat>)
    ensures r.Some? ==> r.value < len
    ensures 1 <= step <= len ==> r == Some(step - 1)
    ensures 1 - len <= step <= 0 ==> r == Some(step - 1 + len)
    ensures step < 1 - len || step > len ==> r.None?
  {
    var idx := step - 1;
    if 0 <= idx < len then Some(idx)
    else if -(len as int) <= idx < 0 then Some(idx + len)
    else None
  }

  /** The run the arrays are sized by, the first one stored. Runs are exported
      in increasing simulation number, so it is the one with the smallest. */
  function FirstRun(runs: Runs): Run
    requires runs != map[]
  {
    runs[MinOf(runs.Keys)]
  }

  /** What the steps `steps` of one run add to entry k. */
  function StepTotal(run: Run, steps: set<int>, m: Measure, len: nat, k: nat): real
    requires steps <= run.Keys
    decreases |steps|
  {
    if steps == {} then 0.0
    else
      var s := MinOf(steps);
      (if Slot(s, len) == Some(k) then m.Of(run[s]) else 0.0) + StepTotal(run, steps - {s}, m, len, k)
  }

  /** What the runs `idxs` add to entry k: `distance_counts[k]` at the end of
      the accumulation loop. */
  function SlotTotal(runs: Runs, idxs: set<int>, m: Measure, len: nat, k: nat): real
    requires idxs <= runs.Keys
    decreases |idxs|
  {
    if idxs == {} then 0.0
    else
      var j := MinOf(idxs);
      StepTotal(runs[j], runs[j].Keys, m, len, k) + SlotTotal(runs, idxs - {j}, m, len, k)
  }

  /** No step of any run falls outside the array sized by the first run. */
  predicate InBounds(runs: Runs)
    requires runs != map[]
  {
    forall j :: j in runs ==> forall s :: s in runs[j] ==> Slot(s, |FirstRun(runs)|).Some?
  }

  /** The averages of one walker, keyed 1 to the length of its first run. */
  function AverageOf(runs: Runs, m: Measure): (r: map<int, real>)
    requires runs != map[]
    ensures r.Keys == StepRange(1, |FirstRun(runs)|)
  {
    var len := |FirstRun(runs)|;
    map s | s in StepRange(1, len) :: SlotTotal(runs, runs.Keys, m, len, s - 1) / (|runs| as real)
  }

  /** `average_walker_distance(distance_key)`, and with the crossing count as
      the measure `avg_cross_y_axis`: fails exactly when some step of some run
      lies outside the array sized by that walker's first run. */
  function AverageWalkerDistance(t: Totals, m: Measure): (r: Result<map<string, map<int, real>>>)
    requires Populated(t)
    ensures r.Err? <==> exists n :: n in t && !InBounds(t[n])
    ensures r.Err? ==> r.error == IndexError
    ensures r.Ok? ==> r.value.Keys == t.Keys
    ensures r.Ok? ==> forall n :: n in t ==> r.value[n].Keys == StepRange(1, |FirstRun(t[n])|)
  {
    if forall n :: n in t ==> InBounds(t[n]) then Ok(map n | n in t :: AverageOf(t[n], m))
    else Err(IndexError)
  }

  function AverageWalkerDistanceOrigin(t: Totals): Result<map<string, map<int, real>>>
    requires Populated(t)
  {
    AverageWalkerDistance(t, FromOrigin)
  }

  function AverageWalkerDistanceX(t: Totals): Result<map<string, map<int, real>>>
    requires Populated(t)
  {
    AverageWalkerDistance(t, FromX)
  }

  function AverageWalkerDistanceY(t: Totals): Result<map<string, map<int, real>>>
    requires Populated(t)
  {
    AverageWalkerDistance(t, FromY)
  }

  function AvgCrossYAxis(t: Totals): Result<map<string, map<int, real>>>
    requires Populated(t)
  {
    AverageWalkerDistance(t, Crossings)
  }

  // ---------------------------------------------------------------------------
  // Average escape time

  /** Some step of the run carries an escape time. */
  predicate Escaped(run: Run) {
    exists s :: s in run && run[s].escapeTime.Some?
  }

  /** The escape times recorded at the steps `steps` of a run, in step order,
      skipping the steps that carry none. */
  function EscapeTimes(run: Run, steps: set<int>): (r: seq<real>)
    requires steps <= run.Keys
    ensures |r| == |Timed(run, steps)| && |r| <= |steps|
    ensures r == [] <==> forall s :: s in steps ==> run[s].escapeTime.None?
    ensures forall i :: 0 <= i < |r| ==>
      exists s :: s in steps && run[s].escapeTime.Some? && r[i] == run[s].escapeTime.value as real
    decreases |steps|
  {
    if steps == {} then []
    else
      var s := MinOf(steps);
      var rest := EscapeTimes(run, steps - {s});
      TimedSplit(run, steps, s);
      match run[s].escapeTime
      case Some(e) =>
        PrependShifts(e as real, rest);
        [e as real] + rest
      case None => rest
  }

  /** The steps among `steps` that carry an escape time. */
  function Timed(run: Run, steps: set<int>): set<int>
    requires steps <= run.Keys
  {
    set s | s in steps && run[s].escapeTime.Some?
  }

  lemma TimedSplit(run: Run, steps: set<int>, s: int)
    requires steps <= run.Keys && s in steps
    ensures Timed(run, steps) == Timed(run, steps - {s}) + (if run[s].escapeTime.Some? then {s} else {})
    ensures s !in Timed(run, steps - {s})
  {
  }

  function Mean(xs: seq<real>): real
    requires xs != []
  {
    Sum(xs) / (|xs| as real)
  }

  /** The runs among `idxs` that never escaped. */
  function Unsuccessful(runs: Runs, idxs: set<int>): set<int>
    requires idxs <= runs.Keys
  {
    set j | j in idxs && !Escaped(runs[j])
  }

  /** The runs among `idxs` that escaped. */
  function Successful(runs: Runs, idxs: set<int>): set<int>
    requires idxs <= runs.Keys
  {
    set j | j in idxs && Escaped(runs[j])
  }

  lemma UnsuccessfulSplit(runs: Runs, idxs: set<int>, j: int)
    requires idxs <= runs.Keys && j in idxs
    ensures Unsuccessful(runs, idxs) ==
      Unsuccessful(runs, idxs - {j}) + (if Escaped(runs[j]) then {} else {j})
    ensures Successful(runs, idxs) ==
      Successful(runs, idxs - {j}) + (if Escaped(runs[j]) then {j} else {})
  {
  }

  /** The mean escape time of every run among `idxs` that escaped, and the
      number of runs that did not. */
  function EscapeSummary(runs: Runs, idxs: set<int>): (r: (seq<real>, nat))
    requires idxs <= runs.Keys
    ensures |r.0| + r.1 == |idxs|
    ensures r.1 == |Unsuccessful(runs, idxs)|
    ensures |r.0| == |Successful(runs, idxs)|
    decreases |idxs|
  {
    if idxs == {} then ([], 0)
    else
      var j := MinOf(idxs);
      var rest := EscapeSummary(runs, idxs - {j});
      var times := EscapeTimes(runs[j], runs[j].Keys);
      UnsuccessfulSplit(runs, idxs, j);
      assert j !in Unsuccessful(runs, idxs - {j});
      assert j !in Successful(runs, idxs - {j});
      assert times == [] <==> !Escaped(runs[j]);
      if times == [] then (rest.0, rest.1 + 1)
      else
        PrependShifts(Mean(times), rest.0);
        ([Mean(times)] + rest.0, rest.1)
  }

  /** `average_escape_time`: for every walker, the mean over its successful
      runs of each run's mean escape time (0 when no run escaped), together with
      the number of runs in which it never escaped. */
  function AverageEscapeTime(t: Totals): (r: map<string, (real, nat)>)
    ensures r.Keys == t.Keys
    ensures forall n :: n in t ==> r[n].1 == |Unsuccessful(t[n], t[n].Keys)|
    ensures forall n :: n in t && r[n].1 == |t[n].Keys| ==> r[n].0 == 0.0
  {
    map n | n in t ::
      var (means, failed) := EscapeSummary(t[n], t[n].Keys);
      (if means == [] then 0.0 else Mean(means), failed)
  }
}

=== FILE: statistics_props.dfy ===
/** Properties of the aggregator: what its per-step averages and its escape
    summary mean in terms of the runs it was given. */
module StatisticsProperties {
  import opened Common
  import opened Statistics

  // ---------------------------------------------------------------------------
  // Per-step averages of aligned runs

  /** Every run has exactly the steps 1 to len, as every completed run of the
      engine does. */
  predicate Aligned(runs: Runs, len: nat) {
    forall j :: j in runs ==> runs[j].Keys == StepRange(1, len)
  }

  /** The sum, over the runs `idxs`, of the value at step s. */
  function ColumnTotal(runs: Runs, idxs: set<int>, m: Measure, s: int): real
    requires idxs <= runs.Keys
    requires forall j :: j in idxs ==> s in runs[j]
    decreases |idxs|
  {
    if idxs == {} then 0.0
    else
      var j := MinOf(idxs);
      m.Of(runs[j][s]) + ColumnTotal(runs, idxs - {j}, m, s)
  }

  lemma {:induction false} StepTotalNone(run: Run, steps: set<int>, m: Measure, len: nat, k: nat)
    requires steps <= run.Keys
    requires forall s :: s in steps ==> Slot(s, len) != Some(k)
    ensures StepTotal(run, steps, m, len, k) == 0.0
    decreases |steps|
  {
    if steps != {} {
      StepTotalNone(run, steps - {MinOf(steps)}, m, len, k);
    }
  }

  /** When exactly one step of the run lands on entry k, the run adds that
      step's value and nothing else. */
  lemma {:induction false} StepTotalPicksOne(run: Run, steps: set<int>, m: Measure, len: nat, k: nat, s: int)
    requires steps <= run.Keys && s in steps && Slot(s, len) == Some(k)
    requires forall t :: t in steps && t != s ==> Slot(t, len) != Some(k)
    ensures StepTotal(run, steps, m, len, k) == m.Of(run[s])
    decreases |steps|
  {
    var first := MinOf(steps);
    if first == s {
      StepTotalNone(run, steps - {s}, m, len, k);
    } else {
      StepTotalPicksOne(run, steps - {first}, m, len, k, s);
    }
  }

  lemma {:induction false} SlotTotalIsColumnTotal(runs: Runs, idxs: set<int>, m: Measure, len: nat, s: int)
    requires idxs <= runs.Keys && Aligned(runs, len) && 1 <= s <= len
    ensures forall j :: j in idxs ==> s in runs[j]
    ensures SlotTotal(runs, idxs, m, len, s - 1) == ColumnTotal(runs, idxs, m, s)
    decreases |idxs|
  {
    if idxs != {} {
      var j := MinOf(idxs);
      StepTotalPicksOne(runs[j], runs[j].Keys, m, len, s - 1, s);
      SlotTotalIsColumnTotal(runs, idxs - {j}, m, len, s);
    }
  }

  lemma AlignedInBounds(runs: Runs, len: nat)
    requires runs != map[] && Aligned(runs, len)
    ensures |FirstRun(runs)| == len && InBounds(runs)
  {
    StepRangeSize(1, len);
  }

  lemma AverageAt(t: Totals, m: Measure, n: string)
    requires Populated(t) && AverageWalkerDistance(t, m).Ok? && n in t
    ensures AverageWalkerDistance(t, m).value[n] == AverageOf(t[n], m)
  {
  }

  lemma AlignedOk(t: Totals, m: Measure, len: nat)
    requires Populated(t) && forall n :: n in t ==> Aligned(t[n], len)
    ensures AverageWalkerDistance(t, m).Ok?
    ensures forall n :: n in t ==> |FirstRun(t[n])| == len
  {
    forall n | n in t
      ensures InBounds(t[n]) && |FirstRun(t[n])| == len
    {
      AlignedInBounds(t[n], len);
    }
  }

  /** The average at step s sums entry s - 1 over every run. */
  lemma AverageOfAt(runs: Runs, m: Measure, s: int)
    requires runs != map[] && 1 <= s <= |FirstRun(runs)|
    ensures s in AverageOf(runs, m)
    ensures AverageOf(runs, m)[s] == SlotTotal(runs, runs.Keys, m, |FirstRun(runs)|, s - 1) / (|runs| as real)
  {
  }

  /** For runs that all have the steps 1 to len, the average at step s is the
      mean, over the runs, of the value recorded at step s. */
  lemma AlignedAverage(t: Totals, m: Measure, len: nat, n: string, s: int)
    requires Populated(t) && forall n :: n in t ==> Aligned(t[n], len)
    requires n in t && 1 <= s <= len
    ensures AverageWalkerDistance(t, m).Ok?
    ensures s in AverageWalkerDistance(t, m).value[n]
    ensures forall j :: j in t[n] ==> s in t[n][j]
    ensures AverageWalkerDistance(t, m).value[n][s] == ColumnTotal(t[n], t[n].Keys, m, s) / (|t[n]| as real)
  {
    AlignedOk(t, m, len);
    var runs := t[n];
    AverageAt(t, m, n);
    var total := SlotTotal(runs, runs.Keys, m, len, s - 1);
    AverageOfAt(runs, m, s);
    SlotTotalIsColumnTotal(runs, runs.Keys, m, len, s);
    assert total == ColumnTotal(runs, runs.Keys, m, s);
  }

  /** With a single run the average is that run. */
  lemma SingleRunAverage(n: string, j: int, run: Run, m: Measure, len: nat, s: int)
    requires run.Keys == StepRange(1, len) && 1 <= s <= len
    ensures var t := map[n := map[j := run]];
            Populated(t) && AverageWalkerDistance(t, m).Ok? && s in run &&
            AverageWalkerDistance(t, m).value[n][s] == m.Of(run[s])
  {
    var runs := map[j := run];
    var t := map[n := runs];
    assert j in runs && runs.Keys == {j};
    assert Populated(t) && Aligned(runs, len);
    AlignedAverage(t, m, len, n, s);
    assert MinOf({j}) == j;
    var column := ColumnTotal(runs, runs.Keys, m, s);
    assert column == m.Of(run[s]) + ColumnTotal(runs, {}, m, s);
    assert |runs| == 1;
    DivideByOne(column, |runs| as real);
  }

  lemma DivideByOne(x: real, d: real)
    requires d == 1.0
    ensures x / d == x
  {
  }

  /** A later run longer than the first one makes the averages fail. */
  lemma LongerLaterRunRaises(n: string, r: Record, m: Measure)
    ensures var t := map[n := map[1 := map[1 := r], 2 := map[1 := r, 2 := r]]];
            Populated(t) && AverageWalkerDistance(t, m) == Err(IndexError)
  {
    var runs := map[1 := map[1 := r], 2 := map[1 := r, 2 := r]];
    assert runs.Keys == {1, 2};
    assert MinOf(runs.Keys) == 1;
    assert |FirstRun(runs)| == 1;
    assert 2 in runs[2] && Slot(2, 1) == None;
  }

  // ---------------------------------------------------------------------------
  // Non-negative averages

  lemma {:induction false} StepTotalNonNegative(run: Run, steps: set<int>, m: Measure, len: nat, k: nat)
    requires steps <= run.Keys && forall s :: s in run ==> m.Of(run[s]) >= 0.0
    ensures StepTotal(run, steps, m, len, k) >= 0.0
    decreases |steps|
  {
    if steps != {} {
      StepTotalNonNegative(run, steps - {MinOf(steps)}, m, len, k);
    }
  }

  lemma {:induction false} SlotTotalNonNegative(runs: Runs, idxs: set<int>, m: Measure, len: nat, k: nat)
    requires idxs <= runs.Keys
    requires forall j, s :: j in runs && s in runs[j] ==> m.Of(runs[j][s]) >= 0.0
    ensures SlotTotal(runs, idxs, m, len, k) >= 0.0
    decreases |idxs|
  {
    if idxs != {} {
      var j := MinOf(idxs);
      StepTotalNonNegative(runs[j], runs[j].Keys, m, len, k);
      SlotTotalNonNegative(runs, idxs - {j}, m, len, k);
    }
  }

  lemma QuotientNonNegative(a: real, b: real)
    requires a >= 0.0 && b > 0.0
    ensures a / b >= 0.0
  {
  }

  /** Averages of non-negative values are non-negative: the distances from the
      axes and the clamped crossing counts never average below zero. */
  lemma AveragesNonNegative(t: Totals, m: Measure)
    requires Populated(t) && AverageWalkerDistance(t, m).Ok?
    requires forall n, j, s :: n in t && j in t[n] && s in t[n][j] ==> m.Of(t[n][j][s]) >= 0.0
    ensures forall n, s :: n in t && s in AverageWalkerDistance(t, m).value[n] ==>
      AverageWalkerDistance(t, m).value[n][s] >= 0.0
  {
    forall n, s | n in t && s in AverageWalkerDistance(t, m).value[n]
      ensures AverageWalkerDistance(t, m).value[n][s] >= 0.0
    {
      var runs := t[n];
      var len := |FirstRun(runs)|;
      SlotTotalNonNegative(runs, runs.Keys, m, len, s - 1);
      assert |runs| > 0 by {
        assert MinOf(runs.Keys) in runs.Keys;
      }
      QuotientNonNegative(SlotTotal(runs, runs.Keys, m, len, s - 1), |runs| as real);
    }
  }

  // ---------------------------------------------------------------------------
  // Escape times

  lemma {:induction false} SumOfConstant(xs: seq<real>, v: real)
    requires forall i :: 0 <= i < |xs| ==> xs[i] == v
    ensures Sum(xs) == (|xs| as real) * v
    decreases |xs|
  {
    if |xs| > 0 {
      var init := xs[..|xs| - 1];
      SumOfConstant(init, v);
      assert xs == init + [xs[|xs| - 1]];
    }
  }

  lemma MeanOfConstant(xs: seq<real>, v: real)
    requires xs != [] && forall i :: 0 <= i < |xs| ==> xs[i] == v
    ensures Mean(xs) == v
  {
    SumOfConstant(xs, v);
  }

  /** Every escape time of the run, where there is one, is c. */
  predicate EscapesAt(run: Run, c: int) {
    forall s :: s in run ==> run[s].escapeTime.None? || run[s].escapeTime == Some(c)
  }

  lemma {:induction false} EscapeTimesConstant(run: Run, steps: set<int>, c: int)
    requires steps <= run.Keys && EscapesAt(run, c)
    ensures forall i :: 0 <= i < |EscapeTimes(run, steps)| ==> EscapeTimes(run, steps)[i] == c as real
    decreases |steps|
  {
    if steps != {} {
      EscapeTimesConstant(run, steps - {MinOf(steps)}, c);
    }
  }

  lemma {:induction false} EscapeSummaryConstant(runs: Runs, idxs: set<int>, c: int)
    requires idxs <= runs.Keys && forall j :: j in runs ==> EscapesAt(runs[j], c)
    ensures forall i :: 0 <= i < |EscapeSummary(runs, idxs).0| ==> EscapeSummary(runs, idxs).0[i] == c as real
    decreases |idxs|
  {
    if idxs != {} {
      var j := MinOf(idxs);
      EscapeSummaryConstant(runs, idxs - {j}, c);
      var times := EscapeTimes(runs[j], runs[j].Keys);
      if times != [] {
        EscapeTimesConstant(runs[j], runs[j].Keys, c);
        MeanOfConstant(times, c as real);
      }
    }
  }

  /** When every run that escaped did so at step c, the average escape time is
      c, and a walker that never escaped averages 0. */
  lemma ConstantEscapeTime(t: Totals, n: string, c: int)
    requires n in t && forall j :: j in t[n] ==> EscapesAt(t[n][j], c)
    ensures (exists j :: j in t[n] && Escaped(t[n][j])) ==> AverageEscapeTime(t)[n].0 == c as real
    ensures (forall j :: j in t[n] ==> !Escaped(t[n][j])) ==> AverageEscapeTime(t)[n] == (0.0, |t[n].Keys|)
  {
    var summary := EscapeSummary(t[n], t[n].Keys);
    EscapeSummaryConstant(t[n], t[n].Keys, c);
    if exists j :: j in t[n] && Escaped(t[n][j]) {
      var j :| j in t[n] && Escaped(t[n][j]);
      assert j !in Unsuccessful(t[n], t[n].Keys);
      var u := Unsuccessful(t[n], t[n].Keys);
      assert t[n].Keys == u + (t[n].Keys - u) && u * (t[n].Keys - u) == {};
      assert j in t[n].Keys - u;
      MeanOfConstant(summary.0, c as real);
    } else {
      assert Unsuccessful(t[n], t[n].Keys) == t[n].Keys;
    }
  }

  /** x is the mean escape time of some run among `idxs` that escaped. */
  predicate IsRunMean(runs: Runs, idxs: set<int>, x: real)
    requires idxs <= runs.Keys
  {
    exists j :: j in idxs && Escaped(runs[j]) && EscapeTimes(runs[j], runs[j].Keys) != [] &&
      x == Mean(EscapeTimes(runs[j], runs[j].Keys))
  }

  lemma RunMeanWiden(runs: Runs, a: set<int>, b: set<int>, x: real)
    requires a <= b <= runs.Keys && IsRunMean(runs, a, x)
    ensures IsRunMean(runs, b, x)
  {
  }

  /** Every entry of the summary is the mean escape time of a run among
      `idxs` that escaped. */
  lemma {:induction false} EscapeSummaryMeans(runs: Runs, idxs: set<int>)
    requires idxs <= runs.Keys
    ensures forall i :: 0 <= i < |EscapeSummary(runs, idxs).0| ==>
              IsRunMean(runs, idxs, EscapeSummary(runs, idxs).0[i])
    decreases |idxs|
  {
    if idxs != {} {
      var j := MinOf(idxs);
      EscapeSummaryMeans(runs, idxs - {j});
      var rest := EscapeSummary(runs, idxs - {j}).0;
      var times := EscapeTimes(runs[j], runs[j].Keys);
      forall i | 0 <= i < |rest|
        ensures IsRunMean(runs, idxs, rest[i])
      {
        RunMeanWiden(runs, idxs - {j}, idxs, rest[i]);
      }
      var means := EscapeSummary(runs, idxs).0;
      if times != [] {
        PrependShifts(Mean(times), rest);
        assert means == [Mean(times)] + rest;
        assert IsRunMean(runs, idxs, means[0]) by {
          assert Escaped(runs[j]);
        }
      }
    }
  }

  /** c(j) summed over the runs among `idxs` that escaped. */
  function EscapedTotal(runs: Runs, idxs: set<int>, c: int -> int): real
    requires idxs <= runs.Keys
    decreases |idxs|
  {
    if idxs == {} then 0.0
    else
      var j := MinOf(idxs);
      (if Escaped(runs[j]) then c(j) as real else 0.0) + EscapedTotal(runs, idxs - {j}, c)
  }

  /** When every escape time of run j is c(j), the run means in the summary add
      up to the c(j) of the runs that escaped. */
  lemma {:induction false} SummaryAddsFrozenTimes(runs: Runs, idxs: set<int>, c: int -> int)
    requires idxs <= runs.Keys && forall j :: j in idxs ==> EscapesAt(runs[j], c(j))
    ensures Sum(EscapeSummary(runs, idxs).0) == EscapedTotal(runs, idxs, c)
    decreases |idxs|
  {
    if idxs != {} {
      var j := MinOf(idxs);
      SummaryAddsFrozenTimes(runs, idxs - {j}, c);
      var times := EscapeTimes(runs[j], runs[j].Keys);
      if times != [] {
        EscapeTimesConstant(runs[j], runs[j].Keys, c(j));
        MeanOfConstant(times, c(j) as real);
        SumPrepend(Mean(times), EscapeSummary(runs, idxs - {j}).0);
      }
    }
  }

  /** `average_escape_time` against a direct definition: when each run j froze
      its escape time at c(j), a walker that escaped at least once averages
      c(j) over the runs in which it escaped. */
  lemma FrozenEscapeTimeAverage(t: Totals, n: string, c: int -> int)
    requires n in t && forall j :: j in t[n] ==> EscapesAt(t[n][j], c(j))
    requires Successful(t[n], t[n].Keys) != {}
    ensures AverageEscapeTime(t)[n].0 ==
      EscapedTotal(t[n], t[n].Keys, c) / (|Successful(t[n], t[n].Keys)| as real)
  {
    var means := EscapeSummary(t[n], t[n].Keys).0;
    SummaryAddsFrozenTimes(t[n], t[n].Keys, c);
    assert |means| > 0;
  }

  /** The escape time a run's records show, 0 when none shows one. */
  ghost function FrozenTime(run: Run): int {
    if exists s :: s in run && run[s].escapeTime.Some? then
      var s :| s in run && run[s].escapeTime.Some?; run[s].escapeTime.value
    else 0
  }

  /** The escape times a run's records show all agree. */
  ghost predicate Frozen(run: Run) {
    exists c :: EscapesAt(run, c)
  }

  /** The escape time each run of a walker shows. */
  ghost function FrozenTimes(runs: Runs): int -> int {
    j => if j in runs then FrozenTime(runs[j]) else 0
  }

  /** Records that show no escape time but the given one are frozen. */
  lemma FrozenAt(run: Run, time: Option<int>)
    requires forall s :: s in run && run[s].escapeTime.Some? ==> run[s].escapeTime == time
    ensures Frozen(run)
  {
    var c := if time.Some? then time.value else 0;
    assert EscapesAt(run, c);
  }

  /** A frozen run's escape times are all the one FrozenTime picks. */
  lemma FrozenEscapesAt(run: Run)
    requires Frozen(run)
    ensures EscapesAt(run, FrozenTime(run))
  {
    if exists s :: s in run && run[s].escapeTime.Some? {
      var c :| EscapesAt(run, c);
      var s :| s in run && run[s].escapeTime.Some?;
      assert FrozenTime(run) == c;
    }
  }

  /** `average_escape_time` over runs whose records each show one escape time:
      a walker that escaped at least once averages, over the runs in which it
      escaped, the escape time each of those runs shows. */
  lemma FrozenRunsAverage(t: Totals, n: string)
    requires n in t && forall j :: j in t[n] ==> Frozen(t[n][j])
    requires Successful(t[n], t[n].Keys) != {}
    ensures AverageEscapeTime(t)[n].0 ==
      EscapedTotal(t[n], t[n].Keys, FrozenTimes(t[n])) / (|Successful(t[n], t[n].Keys)| as real)
  {
    forall j | j in t[n]
      ensures EscapesAt(t[n][j], FrozenTimes(t[n])(j))
    {
      FrozenEscapesAt(t[n][j]);
    }
    FrozenEscapeTimeAverage(t, n, FrozenTimes(t[n]));
  }
}

=== FILE: terrains.dfy ===
/** The static objects of the plane: obstacles, the three terrain tiles and
    enchanted gates. Obstacle, Grass, Water and Sand are the same record, a
    rectangle given by its bottom-left corner and its dimensions; a gate is an
    entrance rectangle plus a single exit point. */
module Terrains {
  import opened Common

  /** True when v lies between a and b, whichever of the two is smaller. */
  predicate Between(v: real, a: real, b: real) {
    (a <= v <= b) || (b <= v <= a)
  }

  datatype Rect = Rect(x: real, y: real, width: real, height: real) {

    function Position(): (real, real) { (x, y) }

    function Dimensions(): (real, real) { (width, height) }

    /** The corners of the polygon the shapes are drawn and checked against:
        bottom-left, bottom-right, top-right, top-left. */
    function Boundary(): (v: seq<Vec>)
      ensures |v| == 4
      ensures v[0] == Vec(x, y) && v[2] == Vec(x + width, y + height)
      ensures forall c :: c in v <==> (c.x == x || c.x == x + width) && (c.y == y || c.y == y + height)
      ensures Contains(v[0]) && Contains(v[1]) && Contains(v[2]) && Contains(v[3])
      // the four edges are axis-aligned, so v[1] and v[3] are the two other corners
      ensures v[0].y == v[1].y && v[1].x == v[2].x && v[2].y == v[3].y && v[3].x == v[0].x
    {
      [Vec(x, y), Vec(x + width, y), Vec(x + width, y + height), Vec(x, y + height)]
    }

    /** Closed containment of a point: the polygon's interior and its edges. */
    predicate Contains(p: Vec) {
      Between(p.x, x, x + width) && Between(p.y, y, y + height)
    }
  }

  /** The three tile kinds a walker can land on. */
  datatype TerrainKind = Water | Sand | Grass

  datatype Gate = Gate(entrance: Vec, exit: Vec, width: real, height: real) {

    function EntranceLocation(): Vec { entrance }

    function ExitLocation(): Vec { exit }

    function Dimensions(): (real, real) { (width, height) }

    /** The footprint of the entrance; the exit point takes no part in it. */
    function EntranceRect(): Rect { Rect(entrance.x, entrance.y, width, height) }

    function Boundary(): (v: seq<Vec>)
      ensures |v| == 4 && v[0] == entrance && v[2] == Vec(entrance.x + width, entrance.y + height)
      ensures forall c :: c in v <==>
        (c.x == entrance.x || c.x == entrance.x + width) && (c.y == entrance.y || c.y == entrance.y + height)
      ensures v[0].y == v[1].y && v[1].x == v[2].x && v[2].y == v[3].y && v[3].x == v[0].x
      ensures forall k :: 0 <= k < 4 ==> EntranceRect().Contains(v[k])
    {
      EntranceRect().Boundary()
    }
  }

  /** The getters hand back the constructor's arguments unchanged, with no
      validation, and the constructor rebuilds the rectangle from them. */
  lemma RectGettersRoundTrip(x: real, y: real, w: real, h: real)
    ensures Rect(x, y, w, h).Position() == (x, y)
    ensures Rect(x, y, w, h).Dimensions() == (w, h)
    ensures forall r: Rect :: Rect(r.Position().0, r.Position().1, r.Dimensions().0, r.Dimensions().1) == r
  {
  }

  /** A point lies in the rectangle exactly when it lies between the first and
      the third corner of its boundary on both axes. */
  lemma ContainsBetweenCorners(r: Rect, p: Vec)
    ensures var v := r.Boundary();
            r.Contains(p) <==> Between(p.x, v[0].x, v[2].x) && Between(p.y, v[0].y, v[2].y)
  {
  }

  /** Two gates that differ only in their exit have the same boundary. */
  lemma GateBoundaryIgnoresExit(g: Gate, e: Vec)
    ensures g.(exit := e).Boundary() == g.Boundary()
    ensures g.(exit := e).ExitLocation() == e
  {
  }
}

=== FILE: walkers.dfy ===
/** Walker state and the five movement policies. A walker is an immutable value:
    every operation returns the updated walker. Random draws are passed in as a
    `MoveDraw`; the square root the toward-origin direction needs is passed in as
    `length`, the value `math.sqrt(x² + y²)` returned for the current position. */
module Walkers {
  import opened Common

  /** Capacity at which `update_memory` starts evicting the oldest entry. */
  const MemorySize: nat := 1000

  /** A walker has escaped once its distance from the origin exceeds 10. */
  const EscapeRadiusSquared: real := 100.0

  /** The four axis-aligned unit steps in the order the source lists them:
      down, up, right, left. */
  const AxisSteps: seq<Vec> := [Vec(0.0, -1.0), Vec(0.0, 1.0), Vec(1.0, 0.0), Vec(-1.0, 0.0)]

  /** The weights a DirectionalBiasWalker gets when none are given. */
  const DefaultWeights: seq<real> := [1.0, 1.0, 1.0, 1.0, 1.0]

  /** The class of a walker, with the state only that class has. `Base` is the
      `Walker` class itself, whose `move` does nothing. */
  datatype Policy =
    | Base
    | Unit
    | RandomDistance
    | Straight
    | DirectionalBias(weights: seq<real>)
    | Memory(memory: seq<Vec>)

  datatype Walker = Walker(pos: Vec, prev: Vec, escaped: bool, policy: Policy)

  /** The random values one call of a walker's own `move` consumes.
      `displacement` is the (d·cos θ, d·sin θ) step of the free-angle walkers
      (d = 1 for UnitWalker, d drawn from [0.5, 1.5) for RandomDistanceWalker);
      `index` selects among the candidates of `random.choice`/`random.choices`. */
  datatype MoveDraw = MoveDraw(displacement: Vec, index: nat)

  /** `type(walker).__name__`, the prefix of a walker's name in a simulation. */
  function ClassName(p: Policy): string {
    match p
    case Base => "Walker"
    case Unit => "UnitWalker"
    case RandomDistance => "RandomDistanceWalker"
    case Straight => "StraightWalker"
    case DirectionalBias(_) => "DirectionalBiasWalker"
    case Memory(_) => "MemoryWalker"
  }

  /** Same class, whatever the class-specific state. */
  predicate SameClass(p: Policy, q: Policy) {
    ClassName(p) == ClassName(q)
  }

  /** Same class and the same bias weights: of the class-specific state only a
      MemoryWalker's memory changes while the walker lives. */
  predicate SameSettings(p: Policy, q: Policy) {
    (p.Memory? && q.Memory?) || p == q
  }

  /** A fresh walker: at the origin, previous position the origin, not escaped. */
  function NewWalker(p: Policy): Walker {
    Walker(Origin, Origin, false, p)
  }

  // ---------------------------------------------------------------------------
  // Walker base class

  /** `move_back`: return to the previous position; the previous position stays. */
  function MoveBack(w: Walker): (r: Walker)
    ensures r.pos == w.prev && r.prev == w.prev
    ensures r.escaped == w.escaped && r.policy == w.policy
  {
    w.(pos := w.prev)
  }

  /** `set_position`: only the current position changes. */
  function SetPosition(w: Walker, p: Vec): (r: Walker)
    ensures r.pos == p && r.prev == w.prev
    ensures r.escaped == w.escaped && r.policy == w.policy
  {
    w.(pos := p)
  }

  /** `reset_walker`: back to the origin and not escaped; the previous position is
      left as it was. The MemoryWalker override also forgets its memory. */
  function ResetWalker(w: Walker): (r: Walker)
    ensures r.pos == Origin && !r.escaped && r.prev == w.prev
    ensures SameSettings(r.policy, w.policy)
    ensures r.policy.Memory? ==> r.policy.memory == []
    ensures !r.policy.Memory? ==> r.policy == w.policy
  {
    var p := if w.policy.Memory? then Memory([]) else w.policy;
    Walker(Origin, w.prev, false, p)
  }

  /** `Walker.escape_check`: reports False exactly while the walker is within
      distance 10 and has never been beyond it; otherwise it marks the walker as
      escaped and reports True. Nothing but the flag changes. */
  function EscapeCheck(w: Walker): (r: (bool, Walker))
    ensures !r.0 <==> w.pos.NormSquared() <= EscapeRadiusSquared && !w.escaped
    ensures r.1.escaped == r.0
    ensures r.1.pos == w.pos && r.1.prev == w.prev && r.1.policy == w.policy
  {
    if w.pos.NormSquared() <= EscapeRadiusSquared && !w.escaped then (false, w)
    else (true, w.(escaped := true))
  }

  /** A second escape check answers like the first and changes nothing. */
  lemma EscapeCheckIdempotent(w: Walker)
    ensures EscapeCheck(EscapeCheck(w).1) == EscapeCheck(w)
  {
  }

  // ---------------------------------------------------------------------------
  // DirectionalBiasWalker

  /** `normalize_weights`: a list summing to 1 comes back as it is; otherwise
      every weight is divided by the sum, which fails when the sum is zero and
      there is something to divide. */
  function NormalizeWeights(weights: seq<real>): (r: Result<seq<real>>)
    ensures Sum(weights) == 1.0 ==> r == Ok(weights)
    ensures r.Err? <==> Sum(weights) == 0.0 && |weights| > 0
    ensures r.Err? ==> r.error == ZeroDivisionError
    ensures r.Ok? ==> |r.value| == |weights|
    ensures r.Ok? && Sum(weights) != 1.0 ==>
      forall i :: 0 <= i < |weights| ==> r.value[i] * Sum(weights) == weights[i]
    ensures r.Ok? && |weights| > 0 ==> Sum(r.value) == 1.0
  {
    var total := Sum(weights);
    if total == 1.0 then Ok(weights)
    else if |weights| == 0 then Ok([])
    else if total == 0.0 then Err(ZeroDivisionError)
    else
      var scaled := DivideAll(weights, total);
      SumDivideAll(weights, total);
      assert Sum(scaled) == total / total == 1.0;
      Ok(scaled)
  }

  function DivideAll(ws: seq<real>, total: real): (r: seq<real>)
    requires total != 0.0
    ensures |r| == |ws|
    ensures forall i :: 0 <= i < |ws| ==> r[i] == ws[i] / total
  {
    seq(|ws|, i requires 0 <= i < |ws| => ws[i] / total)
  }

  lemma {:induction false} SumDivideAll(ws: seq<real>, total: real)
    requires total != 0.0
    ensures Sum(DivideAll(ws, total)) == Sum(ws) / total
    decreases |ws|
  {
    if |ws| > 0 {
      var init := ws[..|ws| - 1];
      var last := ws[|ws| - 1];
      SumDivideAll(init, total);
      assert DivideAll(ws, total)[..|ws| - 1] == DivideAll(init, total);
      assert Sum(DivideAll(ws, total)) == Sum(init) / total + last / total;
      DivisionDistributes(Sum(init), last, total);
    }
  }

  lemma DivisionDistributes(a: real, b: real, t: real)
    requires t != 0.0
    ensures a / t + b / t == (a + b) / t
  {
  }

  /** The default weights [1, 1, 1, 1, 1] become 0.2 each. */
  lemma DefaultWeightsNormalized()
    ensures NormalizeWeights(DefaultWeights) == Ok([0.2, 0.2, 0.2, 0.2, 0.2])
  {
    SumAppend([], 1.0);
    assert [] + [1.0] == [1.0];
    SumAppend([1.0], 1.0);
    assert [1.0] + [1.0] == [1.0, 1.0];
    SumAppend([1.0, 1.0], 1.0);
    assert [1.0, 1.0] + [1.0] == [1.0, 1.0, 1.0];
    SumAppend([1.0, 1.0, 1.0], 1.0);
    assert [1.0, 1.0, 1.0] + [1.0] == [1.0, 1.0, 1.0, 1.0];
    SumAppend([1.0, 1.0, 1.0, 1.0], 1.0);
    assert [1.0, 1.0, 1.0, 1.0] + [1.0] == DefaultWeights;
    assert Sum(DefaultWeights) == 5.0;
    var scaled := DivideAll(DefaultWeights, 5.0);
    assert scaled == [0.2, 0.2, 0.2, 0.2, 0.2] by {
      assert forall i :: 0 <= i < 5 ==> scaled[i] == 1.0 / 5.0 == 0.2;
    }
  }

  /** `DirectionalBiasWalker.__init__`: the weights given, or [1, 1, 1, 1, 1]
      when none are, normalized. */
  function NewDirectionalBias(weights: Option<seq<real>>): (r: Result<Walker>)
    ensures r.Ok? ==> r.value.policy.DirectionalBias? && r.value.pos == Origin && !r.value.escaped
    ensures r.Ok? ==> NormalizeWeights(if weights.None? then DefaultWeights else weights.value)
                        == Ok(r.value.policy.weights)
    ensures r.Err? <==> NormalizeWeights(if weights.None? then DefaultWeights else weights.value).Err?
  {
    var raw := if weights.None? then DefaultWeights else weights.value;
    match NormalizeWeights(raw)
    case Ok(ws) => Ok(NewWalker(DirectionalBias(ws)))
    case Err(e) => Err(e)
  }

  /** `angle_to_origin_distance_1`: the vector (-x, -y) divided by `length`,
      which the caller supplies as sqrt(x² + y²); None when that length is 0. */
  function TowardOrigin(p: Vec, length: real): Option<Vec> {
    if length != 0.0 then Some(Vec(-p.x / length, -p.y / length)) else None
  }

  /** Given a length that, like a square root of x² + y², is zero exactly at the
      origin, the toward-origin direction is missing exactly at the origin, and
      stretched by that length it is the vector from p back to the origin. */
  lemma TowardOriginPointsHome(p: Vec, length: real)
    requires length >= 0.0 && (length == 0.0 <==> p == Origin)
    ensures TowardOrigin(p, length).None? <==> p == Origin
    ensures TowardOrigin(p, length).Some? ==>
      TowardOrigin(p, length).value.Scale(length) == Vec(-p.x, -p.y)
  {
    if length != 0.0 {
      MultiplyQuotient(-p.x, length);
      MultiplyQuotient(-p.y, length);
    }
  }

  lemma MultiplyQuotient(a: real, l: real)
    requires l != 0.0
    ensures l * (a / l) == a
  {
  }

  /** The candidate directions of a DirectionalBiasWalker: the four axis steps,
      then the toward-origin direction unless it is None. */
  function BiasCandidates(p: Vec, length: real): (r: seq<Vec>)
    ensures |r| == 4 <==> TowardOrigin(p, length).None?
    ensures |r| == 4 || |r| == 5
    ensures r[..4] == AxisSteps
    ensures |r| == 5 ==> r[4] == TowardOrigin(p, length).value
  {
    match TowardOrigin(p, length)
    case None => AxisSteps
    case Some(u) => AxisSteps + [u]
  }

  /** `weights[:n]`, the prefix of the weights handed to `random.choices`. */
  function UsedWeights(weights: seq<real>, n: nat): (r: seq<real>)
    ensures |r| == if n <= |weights| then n else |weights|
    ensures forall i :: 0 <= i < |r| ==> r[i] == weights[i]
  {
    if n <= |weights| then weights[..n] else weights
  }

  /** A draw that `random.choices` could return: the candidate it selects has a
      positive weight in the prefix the walker uses. */
  predicate DrawRespectsWeights(w: Walker, d: MoveDraw, length: real)
    requires w.policy.DirectionalBias?
  {
    var cands := BiasCandidates(w.pos, length);
    var used := UsedWeights(w.policy.weights, |cands|);
    d.index % |cands| < |used| && used[d.index % |cands|] > 0.0
  }

  // ---------------------------------------------------------------------------
  // MemoryWalker

  /** The four axis neighbours of p, in the source's order: down, up, right, left. */
  function Neighbours(p: Vec): (r: seq<Vec>)
    ensures |r| == 4
    ensures forall i :: 0 <= i < 4 ==> r[i] == p.Plus(AxisSteps[i])
  {
    [Vec(p.x, p.y - 1.0), Vec(p.x, p.y + 1.0), Vec(p.x + 1.0, p.y), Vec(p.x - 1.0, p.y)]
  }

  /** The elements of xs that are not in mem, in their original order. */
  function FilterOut(xs: seq<Vec>, mem: seq<Vec>): (r: seq<Vec>)
    ensures |r| <= |xs|
    ensures forall v :: v in r <==> v in xs && v !in mem
    decreases |xs|
  {
    if |xs| == 0 then []
    else if xs[0] in mem then FilterOut(xs[1..], mem)
    else [xs[0]] + FilterOut(xs[1..], mem)
  }

  /** `possible_moves`: the axis neighbours not already in memory. */
  function PossibleMoves(p: Vec, memory: seq<Vec>): (r: seq<Vec>)
    ensures |r| <= 4
    ensures forall v :: v in r <==> v in Neighbours(p) && v !in memory
  {
    FilterOut(Neighbours(p), memory)
  }

  /** `update_memory`: append the current position and, once the memory holds
      more than 1000 entries, evict the oldest one. Walkers of other classes
      have no memory and are returned unchanged. */
  function UpdateMemory(w: Walker): (r: Walker)
    ensures r.pos == w.pos && r.prev == w.prev && r.escaped == w.escaped
    ensures SameSettings(r.policy, w.policy)
    ensures !w.policy.Memory? ==> r == w
    ensures w.policy.Memory? && |w.policy.memory| < MemorySize ==>
      r.policy.memory == w.policy.memory + [w.pos]
    ensures w.policy.Memory? && |w.policy.memory| >= MemorySize ==>
      r.policy.memory == (w.policy.memory + [w.pos])[1..]
    ensures w.policy.Memory? && |w.policy.memory| <= MemorySize ==>
      |r.policy.memory| <= MemorySize
  {
    match w.policy
    case Memory(m) =>
      var m' := m + [w.pos];
      w.(policy := Memory(if |m'| > MemorySize then m'[1..] else m'))
    case _ => w
  }

  // ---------------------------------------------------------------------------
  // The `move` of every class

  /** UnitWalker and RandomDistanceWalker: add the drawn displacement. */
  function MoveFree(w: Walker, d: MoveDraw): (r: Walker)
    ensures r.prev == w.pos && r.pos.Minus(w.pos) == d.displacement
    ensures r.escaped == w.escaped && r.policy == w.policy
  {
    Walker(w.pos.Plus(d.displacement), w.pos, w.escaped, w.policy)
  }

  /** StraightWalker: add one of the four axis steps. */
  function MoveStraight(w: Walker, d: MoveDraw): (r: Walker)
    ensures r.prev == w.pos && r.pos.Minus(w.pos) in AxisSteps
    ensures r.escaped == w.escaped && r.policy == w.policy
  {
    Walker(w.pos.Plus(AxisSteps[d.index % 4]), w.pos, w.escaped, w.policy)
  }

  /** What `random.choices(candidates, weights)` accepts: one weight per
      candidate and a positive total. It raises ValueError otherwise. */
  predicate ChoicesAccept(cands: seq<Vec>, used: seq<real>) {
    |used| == |cands| && Sum(used) > 0.0
  }

  /** DirectionalBiasWalker: add the candidate direction the weighted draw
      picked, or fail as `random.choices` does on the weights in use. */
  function MoveBias(w: Walker, d: MoveDraw, length: real): (r: Result<Walker>)
    requires w.policy.DirectionalBias?
    ensures var cands := BiasCandidates(w.pos, length);
            r.Err? <==> !ChoicesAccept(cands, UsedWeights(w.policy.weights, |cands|))
    ensures r.Err? ==> r.error.ValueError?
    ensures r.Ok? ==> r.value.prev == w.pos && r.value.pos.Minus(w.pos) in BiasCandidates(w.pos, length)
    ensures r.Ok? ==> r.value.escaped == w.escaped && r.value.policy == w.policy
  {
    var cands := BiasCandidates(w.pos, length);
    var used := UsedWeights(w.policy.weights, |cands|);
    if |used| != |cands| then Err(ValueError("The number of weights does not match the population"))
    else if Sum(used) <= 0.0 then Err(ValueError("Total of weights must be greater than zero"))
    else Ok(Walker(w.pos.Plus(cands[d.index % |cands|]), w.pos, w.escaped, w.policy))
  }

  /** Weights a DirectionalBiasWalker can move with wherever it stands: five of
      them, with a positive total over the four axis directions (the prefix used
      at the origin) and over all five. */
  predicate BiasReady(weights: seq<real>) {
    |weights| >= 5 && Sum(weights[..4]) > 0.0 && Sum(weights[..5]) > 0.0
  }

  /** A walker whose `move` cannot raise, whatever its position. */
  predicate CanAlwaysMove(p: Policy) {
    p.DirectionalBias? ==> BiasReady(p.weights)
  }

  /** MemoryWalker: go to a neighbour not in memory and remember it; when every
      neighbour is remembered, take an axis step and remember nothing. The
      append here does not evict. */
  function MoveMemory(w: Walker, d: MoveDraw): (r: Walker)
    requires w.policy.Memory?
    ensures r.prev == w.pos && r.escaped == w.escaped && r.policy.Memory?
    ensures r.pos in Neighbours(w.pos)
    ensures PossibleMoves(w.pos, w.policy.memory) != [] ==>
      r.pos !in w.policy.memory && r.policy.memory == w.policy.memory + [r.pos]
    ensures PossibleMoves(w.pos, w.policy.memory) == [] ==>
      r.policy.memory == w.policy.memory
  {
    var free := PossibleMoves(w.pos, w.policy.memory);
    if |free| > 0 then
      var next := free[d.index % |free|];
      Walker(next, w.pos, w.escaped, Memory(w.policy.memory + [next]))
    else
      var step := d.index % 4;
      assert w.pos.Plus(AxisSteps[step]) == Neighbours(w.pos)[step];
      Walker(w.pos.Plus(AxisSteps[step]), w.pos, w.escaped, w.policy)
  }

  /** `move`, dispatched on the walker's class. Every class but the base class
      records the old position as the previous one before moving. */
  function Move(w: Walker, d: MoveDraw, length: real): (r: Result<Walker>)
    ensures r.Err? <==> w.policy.DirectionalBias? && MoveBias(w, d, length).Err?
    ensures r.Err? ==> r.error.ValueError?
    ensures CanAlwaysMove(w.policy) ==> r.Ok?
    ensures w.policy.Base? ==> r == Ok(w)
    ensures r.Ok? && !w.policy.Base? ==> r.value.prev == w.pos
    ensures r.Ok? ==> r.value.escaped == w.escaped && SameSettings(r.value.policy, w.policy)
    ensures r.Ok? && !w.policy.Memory? ==> r.value.policy == w.policy
  {
    match w.policy
    case Base => Ok(w)
    case Unit => Ok(MoveFree(w, d))
    case RandomDistance => Ok(MoveFree(w, d))
    case Straight => Ok(MoveStraight(w, d))
    case DirectionalBias(ws) =>
      MoveBias(w, d, length)
    case Memory(_) => Ok(MoveMemory(w, d))
  }

  // ---------------------------------------------------------------------------
  // Properties relating several operations

  /** Undoing a successful move of any walker class but the base class returns
      the walker to where it stood. */
  lemma MoveBackUndoesMove(w: Walker, d: MoveDraw, length: real)
    requires !w.policy.Base? && Move(w, d, length).Ok?
    ensures MoveBack(Move(w, d, length).value).pos == w.pos
  {
  }

  predicate IsGridPoint(v: Vec) {
    v.x == v.x.Floor as real && v.y == v.y.Floor as real
  }

  /** StraightWalker and MemoryWalker keep integer coordinates integer. */
  lemma GridWalkersStayOnGrid(w: Walker, d: MoveDraw, length: real)
    requires w.policy.Straight? || w.policy.Memory?
    requires IsGridPoint(w.pos)
    ensures Move(w, d, length).Ok? && IsGridPoint(Move(w, d, length).value.pos)
  {
    var r := Move(w, d, length).value;
    var k :| 0 <= k < 4 && r.pos == w.pos.Plus(AxisSteps[k]);
    GridStep(w.pos, k);
  }

  lemma GridStep(v: Vec, k: nat)
    requires k < 4 && IsGridPoint(v)
    ensures IsGridPoint(v.Plus(AxisSteps[k]))
  {
    var s := AxisSteps[k];
    assert s.x == 0.0 || s.x == 1.0 || s.x == -1.0;
    assert s.y == 0.0 || s.y == 1.0 || s.y == -1.0;
    assert (v.x + s.x).Floor == v.x.Floor + s.x.Floor;
    assert (v.y + s.y).Floor == v.y.Floor + s.y.Floor;
  }

  /** A DirectionalBiasWalker whose weights are [1, 0, 0, 0, 0] moves down on
      every draw `random.choices` could make. */
  lemma DownOnlyBiasMovesDown(w: Walker, d: MoveDraw, length: real)
    requires w.policy == DirectionalBias([1.0, 0.0, 0.0, 0.0, 0.0])
    requires DrawRespectsWeights(w, d, length)
    ensures Move(w, d, length) == Ok(Walker(w.pos.Plus(Vec(0.0, -1.0)), w.pos, w.escaped, w.policy))
  {
    var cands := BiasCandidates(w.pos, length);
    var used := UsedWeights(w.policy.weights, |cands|);
    SumOfNonNegatives(used);
    var k := d.index % |cands|;
    assert k == 0;
    assert cands[0] == AxisSteps[0];
  }

  /** The weighted draw of a DirectionalBiasWalker, against the weights: once
      `random.choices` accepts them, a draw is one it could make exactly when it
      lands on a candidate of positive weight, every such draw steps by that
      candidate, and every candidate of positive weight is reachable. */
  lemma BiasMoveSupport(w: Walker, length: real)
    requires w.policy.DirectionalBias?
    requires ChoicesAccept(BiasCandidates(w.pos, length), UsedWeights(w.policy.weights, |BiasCandidates(w.pos, length)|))
    ensures var cands := BiasCandidates(w.pos, length);
            var used := UsedWeights(w.policy.weights, |cands|);
            forall d: MoveDraw :: DrawRespectsWeights(w, d, length) ==>
              var k := d.index % |cands|;
              0 <= k < |cands| && used[k] > 0.0 &&
              Move(w, d, length) == Ok(Walker(w.pos.Plus(cands[k]), w.pos, w.escaped, w.policy))
    ensures var cands := BiasCandidates(w.pos, length);
            var used := UsedWeights(w.policy.weights, |cands|);
            forall k :: 0 <= k < |cands| ==>
              (used[k] > 0.0 <==> DrawRespectsWeights(w, MoveDraw(Origin, k), length))
  {
    var cands := BiasCandidates(w.pos, length);
    var used := UsedWeights(w.policy.weights, |cands|);
    forall d: MoveDraw | DrawRespectsWeights(w, d, length)
      ensures var k := d.index % |cands|;
              0 <= k < |cands| && used[k] > 0.0 &&
              Move(w, d, length) == Ok(Walker(w.pos.Plus(cands[k]), w.pos, w.escaped, w.policy))
    {
      assert MoveBias(w, d, length) == Ok(Walker(w.pos.Plus(cands[d.index % |cands|]), w.pos, w.escaped, w.policy));
    }
    forall k | 0 <= k < |cands|
      ensures used[k] > 0.0 <==> DrawRespectsWeights(w, MoveDraw(Origin, k), length)
    {
      assert k % |cands| == k;
    }
  }

  /** The capacity of 1000 holds for `update_memory` alone: its eviction keeps a
      memory within bounds. */
  lemma UpdateMemoryKeepsCapacity(w: Walker)
    requires w.policy.Memory? && |w.policy.memory| <= MemorySize
    ensures |UpdateMemory(w).policy.memory| <= MemorySize
    ensures |UpdateMemory(w).policy.memory| == if |w.policy.memory| < MemorySize then |w.policy.memory| + 1 else MemorySize
  {
  }

  /** `move` appends without evicting, so a full memory of 1000 entries grows to
      1001: the capacity is not an invariant of the walker. */
  lemma MoveOverfillsFullMemory()
    ensures var mem := seq(MemorySize, i => Vec(0.0, 100.0 + i as real));
            var w := Walker(Origin, Origin, false, Memory(mem));
            Move(w, MoveDraw(Origin, 0), 0.0).Ok? &&
            |Move(w, MoveDraw(Origin, 0), 0.0).value.policy.memory| == MemorySize + 1
  {
    var mem := seq(MemorySize, i => Vec(0.0, 100.0 + i as real));
    var w := Walker(Origin, Origin, false, Memory(mem));
    assert Vec(0.0, -1.0) !in mem;
    assert Vec(0.0, -1.0) in PossibleMoves(Origin, mem) by {
      assert Neighbours(Origin)[0] == Vec(0.0, -1.0);
    }
  }
}
